=== FILE: README.md ===
# A verified model of the python-shogi rules engine

This project models the core of `shogi/__init__.py`, the rules engine of the python-shogi library. The engine plays Shogi on an 81-square board and includes the SUI (drunk elephant) piece, which promotes to a second royal piece. The model covers five parts:

1. **Geometry and attacks.**
   - The square numbering: the file is the square modulo 9 and the rank is the square divided by 9.
   - The `shift_*` helpers.
   - The step-attack tables of pawns, knights, silvers, golds, kings and SUIs.
   - The rank, file and lance ray tables, built by the table loops on a 7-bit blocker pattern.
   - `can_promote` and `can_move_without_promotion`.
   - `Board.attacks_from`. Its slider attacks are rays over the occupied squares.
2. **The `Occupied` tracker.**
   - It holds the occupancy of each colour, their union, and three rotated copies.
   - `ixor` toggles one square in all of them.
   - `non_occupied` returns the empty squares.
3. **Hands and the board primitives.**
   - The hand counters, kept as maps from a base kind to a positive count.
   - `remove_piece_at` and `set_piece_at`. They keep every derived field in step: the per-kind square sets, the kind on each square, the occupancy, the count of living royal pieces and the incremental Zobrist hash.
4. **Making and unmaking moves.**
   - `push` and `pop`, with the move and capture stacks.
   - The repetition counter `transpositions`.
   - `zobrist_hash`.
5. **Move generation and legality.**
   - `generate_pseudo_legal_moves`, `is_pseudo_legal` and `is_double_pawn`.
   - `is_attacked_by`, `is_check`, `was_suicide` and `was_check_by_dropping_pawn`.
   - `generate_legal_moves`, `is_legal`, and the end-of-game tests `is_checkmate`, `is_stalemate`, `is_fourfold_repetition` and `is_game_over`.

**How the engine's data is modelled.**
- Bitboards are `set<int>`. A Python integer can carry bits above square 80: `shift_right` of square 80 gives bit 81. The model keeps those bits, and every caller masks them off as the engine does.
- Piece kinds are the integers 0 to 16, with the engine's numbering.
- Colours are a datatype. Per-colour data lives in a `ByColor` record.
- A hash is the set of random-table indices whose keys are combined by exclusive or. The 64-bit values themselves do not matter.
- The board is an immutable record. Every engine method that mutates the board becomes a function from board to board.
- Engine methods that can raise return a `Result`.

**How the files map to the engine.**

| file | what it models |
|---|---|
| `results.dfy` | `Option` and `Result` |
| `types.dfy` | colours, piece kinds, the promotion table, moves |
| `geometry.dfy` | squares, shifts, step attacks |
| `rays.dfy` | rays, and the rank/file/lance table loops |
| `attacks.dfy` | `attacks_from` and the promotion rules |
| `occupancy.dfy` | `Occupied` |
| `hands.dfy` | the hand counters |
| `zobrist.dfy` | key indices and `zobrist_hash` |
| `board.dfy` | the board state, `piece_at`, `remove_piece_at`, `set_piece_at` |
| `makemove.dfy` | `push` and `pop` |
| `movegen.dfy` | move generation and pseudo-legality |
| `legality.dfy` | attacks on squares, check, legal moves, end of game |

## Model

| member | source | states |
|---|---|---|
| Types.UnpromotedInvertsPromoted | shogi/__init__.py:49-57 | The reverse lookup `PIECE_PROMOTED.index` is exactly the inverse of the promotion table. |
| Geometry.ShiftDownMeaning | shogi/__init__.py:190-191 | `shift_down` moves every on-board square one rank towards rank i and drops those that would leave the board. |
| Geometry.Shift2DownMeaning | shogi/__init__.py:194-195 | `shift_2_down` moves squares two ranks towards rank i, keeping only on-board results. |
| Geometry.ShiftUpMeaning | shogi/__init__.py:198-199 | `shift_up` moves squares one rank towards rank a; nothing appears below square 0. |
| Geometry.Shift2UpMeaning | shogi/__init__.py:202-203 | `shift_2_up` moves squares two ranks towards rank a. |
| Geometry.ShiftRightMeaning | shogi/__init__.py:206-207 | Within the board, `shift_right` moves squares one file right and never wraps onto the next rank. |
| Geometry.ShiftRightCanLeaveBoard | shogi/__init__.py:206-207 | `shift_right` alone can produce bit 81, beyond the board, so its callers must mask with `BB_ALL`. |
| Geometry.Shift2RightMeaning | shogi/__init__.py:210-211 | Within the board, `shift_2_right` moves squares two files right without wrapping. |
| Geometry.ShiftLeftMeaning | shogi/__init__.py:214-215 | `shift_left` moves squares one file left without wrapping. |
| Geometry.Shift2LeftMeaning | shogi/__init__.py:218-219 | `shift_2_left` moves squares two files left without wrapping. |
| Geometry.ShiftUpLeftMeaning | shogi/__init__.py:222-223 | `shift_up_left` is the diagonal step one file left and one rank up, without wrapping. |
| Geometry.ShiftUpRightMeaning | shogi/__init__.py:226-227 | `shift_up_right` is the diagonal step one file right and one rank up, without wrapping. |
| Geometry.ShiftDownLeftMeaning | shogi/__init__.py:230-231 | Within the board, `shift_down_left` is the diagonal step one file left and one rank down. |
| Geometry.ShiftDownRightMeaning | shogi/__init__.py:234-235 | Within the board, `shift_down_right` is the diagonal step one file right and one rank down. |
| Geometry.PawnAttacksMeaning | shogi/__init__.py:237-240 | A pawn attacks exactly the on-board square one rank forward for its colour. |
| Geometry.KnightAttacksMeaning | shogi/__init__.py:247-258 | A knight attacks exactly the on-board squares two ranks forward and one file to either side. |
| Geometry.BlackKnightAttacks | shogi/__init__.py:247-252 | BLACK's knight table holds exactly the leaps two ranks up and one file aside. |
| Geometry.WhiteKnightAttacks | shogi/__init__.py:254-258 | WHITE's knight table holds exactly the leaps two ranks down and one file aside. |
| Geometry.SilverAttacksMeaning | shogi/__init__.py:260-276 | A silver attacks exactly its neighbours straight ahead and on the four diagonals. |
| Geometry.GoldAttacksMeaning | shogi/__init__.py:278-296 | A gold attacks every neighbour except the two backward diagonals. |
| Geometry.KingAttacksMeaning | shogi/__init__.py:298-307 | The king table holds exactly the on-board squares at king distance 1. |
| Geometry.SuiAttacksMeaning | shogi/__init__.py:309-327 | A SUI attacks every neighbour except the square straight behind it. |
| Rays.BitOfDouble | shogi/__init__.py:343 | The loop's blocker test `(1 << i) & (bitrow << 1)` reads bit `i - 1` of the pattern. |
| Rays.RankEastIsRay | shogi/__init__.py:339-346 | For every blocker pattern matching the occupancy, the eastward rank loop collects the ray up to and including the first blocker. |
| Rays.RankWestIsRay | shogi/__init__.py:348-355 | The westward rank loop collects the ray up to and including the first blocker. |
| Rays.FileSouthIsRay | shogi/__init__.py:357-365 | The loop towards rank i collects the ray up to and including the first blocker. |
| Rays.FileNorthIsRay | shogi/__init__.py:367-375 | The loop towards rank a collects the ray up to and including the first blocker. |
| Rays.RankTableIsRays | shogi/__init__.py:337-355 | `BB_RANK_ATTACKS` is the union of the east and west rays. |
| Rays.FileTableIsRays | shogi/__init__.py:357-375 | `BB_FILE_ATTACKS` is the union of the two file rays. Each lance table is the ray forward for its colour, and the file table is the union of the two lance tables. |
| Rays.RaySymmetric | shogi/__init__.py:780 | A ray from `s` reaches `t` exactly when the opposite ray from `t` reaches `s`. This is what lets `is_attacked_by` find attackers by looking outwards from the target. |
| Attacks.AttacksOnBoard | shogi/__init__.py:800-830 | `attacks_from` only ever yields board squares, whatever the kind. |
| Attacks.AttacksSymmetric | shogi/__init__.py:775-784 | For every kind, a piece of colour `c` on `s` attacks `t` exactly when the same kind of the other colour on `t` attacks `s`. |
| Attacks.CanPromoteMeaning | shogi/__init__.py:462-468 | `can_promote` holds exactly for kinds that have a promoted form, within the three ranks farthest from their side. |
| Attacks.CanMoveWithoutPromotionLimits | shogi/__init__.py:470-480 | Every kind but pawn, lance and knight may always stay unpromoted. Pawns and lances need one rank ahead of them, and knights need two, for either colour. |
| Attacks.CanMoveWithoutPromotionMeaning | shogi/__init__.py:470-480 | A piece may stay unpromoted on a square exactly when it would still have a move from there on an empty board. |
| Occupancy.RotationsInvertible | shogi/__init__.py:84-118 | Each rotated numbering keeps or swaps the file and rank in a way that can be undone. |
| Occupancy.RotationsInjective | shogi/__init__.py:84-118 | No two squares share a rotated position, so each rotated copy is a permutation of the squares. |
| Occupancy.NewOccupied | shogi/__init__.py:484-497 | The constructor stores the two colour sets and, for disjoint on-board colours, yields a consistent tracker. |
| Occupancy.IxorTwice | shogi/__init__.py:504-509 | Toggling the same square twice restores every field of the tracker. |
| Occupancy.IxorKeepsValid | shogi/__init__.py:504-509 | Toggling a square for the colour that holds it, or on an empty square, keeps the colours disjoint and keeps the union and the rotated copies consistent. |
| Occupancy.NonOccupiedMeaning | shogi/__init__.py:511-512 | `non_occupied` is exactly the board squares that neither colour holds. |
| Occupancy.SameOccupancyIsEquality | shogi/__init__.py:514-522 | For consistent trackers, comparing only the two colour sets decides equality of every field. |
| Hands.HandKind | shogi/__init__.py:647-648 | A kind below PROM_PAWN is counted under itself, and a promoted kind under the kind whose promotion it is. The lookup fails exactly for SUI, which the promotion table does not list as a promotion. |
| Hands.AddPieceIntoHand | shogi/__init__.py:641-649 | Adding KING, SUI or PROM_SUI leaves the hand alone. Any other kind adds one to exactly its base kind's count. |
| Hands.RemovePieceFromHand | shogi/__init__.py:651-659 | Removal succeeds only if the base kind is held. It takes exactly one away from that count, never stores a zero count, and touches no other kind. |
| Hands.HasPieceInHand | shogi/__init__.py:661-664 | The lookup raises exactly for kinds with no base kind. Otherwise it reports whether that base kind has a positive count. |
| Hands.HandOpsKeepValid | shogi/__init__.py:641-659 | Hand operations keep every count positive and every stored kind droppable. |
| Hands.RemoveSucceedsIffHeld | shogi/__init__.py:651-664 | Removal raises exactly when `has_piece_in_hand` says the piece is absent. |
| Hands.RoyalsNeverInHand | shogi/__init__.py:644-645 | KING, SUI and PROM_SUI never enter a hand. |
| Hands.RoyalsNotRemovable | shogi/__init__.py:651-659 | Removing KING, SUI or PROM_SUI from a hand always raises. |
| Hands.PromotedStoredAsBase | shogi/__init__.py:647-648 | A captured promoted piece is stored as its unpromoted kind. |
| Hands.AddThenRemove | shogi/__init__.py:641-659 | Removing a piece just added gives the hand back. |
| Hands.RemoveThenAdd | shogi/__init__.py:641-659 | Adding back a piece just removed gives the hand back. |
| Zobrist.PieceKeyIndex | shogi/__init__.py:688-693 | A piece's key index lies in the first 81 × 32 entries, with the square as its low part and the kind and colour as its high part. |
| Zobrist.PieceKeyIndexInjective | shogi/__init__.py:688-693 | Distinct pieces or squares get distinct keys. |
| Zobrist.AsWrittenKeysCollide | shogi/__init__.py:1442-1459 | As written, the turn key is the key of a BLACK promoted SUI on square 0, and each hand-bit key is that piece's key on a later square. |
| Zobrist.CorrectedKeysDistinct | shogi/__init__.py:1442-1459 | With the turn and hand keys placed after the piece keys, all keys are distinct and exactly fill the 2610-entry table. |
| Zobrist.HandIndexDecodes | shogi/__init__.py:1445-1455 | For a hand no larger than a full set, the mixed-radix index stays below 2^17 and each count can be read back from its digit. |
| Zobrist.HandIndexInjective | shogi/__init__.py:1445-1455 | Distinct hands within a full set have distinct indices. |
| Zobrist.LowBitsDetermine | shogi/__init__.py:1456-1459 | Two numbers below 2^n that agree on their n low bits are equal. |
| Zobrist.HandBitKeys | shogi/__init__.py:1456-1459 | The hand folds in exactly one key per set bit of its index, all within the hand-key range. |
| Zobrist.CorrectedHashDetermines | shogi/__init__.py:1432-1461 | With distinct keys, the hash determines the board keys, the side to move and BLACK's hand. |
| Zobrist.AsWrittenTurnCollides | shogi/__init__.py:1442-1443 | As written, a position with WHITE to move hashes like the same position with BLACK to move and a BLACK promoted SUI toggled on square 0. |
| Position.Determined | shogi/__init__.py:1412-1430 | On consistent boards, the piece on every square determines the kind sets, the occupancy, the royal counts and the board hash. |
| Position.RemovePieceAtEffect | shogi/__init__.py:666-693 | After `remove_piece_at`, the board stays consistent and the square is empty. Every other square is unchanged, and the piece goes into the mover's hand only when asked. The royal records and the history are untouched. |
| Position.RemoveKeepsValid | shogi/__init__.py:666-693 | Removing a piece keeps the kind sets, the kinds, the occupancy, the royal counts and the incremental hash in step. |
| Position.RemoveKeepsTracked | shogi/__init__.py:666-693 | Removal never leaves a king or promoted SUI on the board whose square is unrecorded. |
| Position.PlaceEffect | shogi/__init__.py:702-724 | Putting a piece on an empty square keeps the board consistent and puts exactly that piece there. Every other square and the hands are unchanged, and the royal record follows a king or promoted SUI. |
| Position.PlaceThenRemove | shogi/__init__.py:666-724 | Placing a piece on an empty square and removing it again restores the kind sets, occupancy, royal counts, hash, hands and history. Only the royal record stays stale. |
| Position.PlaceKeepsTracked | shogi/__init__.py:710-715 | Placing keeps every royal piece recorded, provided a second royal of the same kind and colour is not being added. |
| Position.SetPieceAtRaises | shogi/__init__.py:695-700 | `set_piece_at` raises exactly when it must take the piece from a hand that does not hold it. |
| Position.SetPieceAtEffect | shogi/__init__.py:695-724 | Otherwise the board stays consistent and the square holds exactly the new piece. Every other square is unchanged. The hands lose the dropped piece and gain the replaced one as asked, and the royal records follow the piece. |
| MakeMove.Bump | shogi/__init__.py:1099-1108 | Counting a position up or down changes its count alone. |
| MakeMove.PushKeepsValid | shogi/__init__.py:1053-1099 | A successful `push` keeps the board consistent and hands the turn over. It adds one to the move number, stacks the move and the captured kind, and counts the new position's `zobrist_hash`, with the engine's key layout, once (a null move counts nothing). |
| MakeMove.PushLayout | shogi/__init__.py:1077-1093 | A reversible move moves exactly its piece. A drop leaves the hand, a board move empties its origin, and the destination holds the (possibly promoted) piece. A capture goes into the mover's hand. |
| MakeMove.PushKeepsTracked | shogi/__init__.py:1083-1093 | A reversible push keeps every royal piece recorded, provided a SUI promotes only while its side has no promoted SUI. |
| MakeMove.PushThenPop | shogi/__init__.py:1053-1142 | The corrected `pop` undoes `push` for every reversible move. Both succeed, `pop` returns the move, and every field is restored. Every position's repetition count is as before. The promoted-SUI record is restored except after a SUI promotion. |
| MakeMove.NullPushThenPop | shogi/__init__.py:1101-1120 | With the corrected repetition bookkeeping, pushing and popping a null move gives back exactly the same board. |
| MakeMove.PopVariantsAgree | shogi/__init__.py:1101-1142 | Away from null moves and royal captures, the engine's `pop` and the corrected one coincide. |
| MakeMove.AsWrittenPopRaisesAfterRoyalCapture | shogi/__init__.py:1133-1135 | After every reversible capture of a KING, SUI or PROM_SUI, the engine's `pop` raises. |
| MakeMove.AsWrittenRaisesWhen | shogi/__init__.py:1133-1134 | The engine's `pop` raises whenever taking the captured piece back out of the capturer's hand fails. |
| MakeMove.PopSucceedsAfterPush | shogi/__init__.py:1101-1142 | After any reversible move, the corrected `pop` succeeds. The engine's `pop` raises exactly when the move captured a KING, SUI or PROM_SUI, and after any other board move it gives the corrected result. |
| MakeMove.PushThenPopRecords | shogi/__init__.py:1101-1142 | With only the king records required up to date, the corrected `pop` takes back any reversible board move. The board comes back consistent and equal to the original except for the repetition counter, where every count is as before, and the promoted-SUI records, which end where `set_piece_at` and `remove_piece_at` leave them. |
| MakeMove.PushThenPopCounter | shogi/__init__.py:1099-1108 | A repetition counter that holds no zero counts comes back from a push and a pop as exactly the counter it was. |
| MakeMove.AsWrittenPopUncountsNullMove | shogi/__init__.py:1105-1120 | The engine's `pop` of a null move takes one count from a position that `push` never counted. |
| MoveGen.ScanFrom | shogi/__init__.py:747-758 | The `bit_scan` loop visits exactly the squares of the set from the start index upward, in strictly ascending order. |
| MoveGen.MovesTo | shogi/__init__.py:752-757 | For each target, the generator yields the non-promoting move where the piece can still move afterwards, and the promoting move where the origin or destination is in the zone. |
| MoveGen.MovesFrom | shogi/__init__.py:746-758 | The moves of one kind are exactly its generator moves from the listed origins. |
| MoveGen.DropsAt | shogi/__init__.py:765-771 | The drops on one square are exactly those of base kinds held in hand that can move afterwards and are not a second pawn on the file. |
| MoveGen.DropsOn | shogi/__init__.py:761-773 | The drops on a list of squares are exactly the allowed drops onto those squares. |
| MoveGen.IsDoublePawnMeaning | shogi/__init__.py:1020-1023 | `is_double_pawn` holds exactly when a pawn is to be dropped on a file that already has a pawn of the side to move. |
| MoveGen.BoardMovesMembership | shogi/__init__.py:743-758 | A generated board move is exactly a move allowed for some kind whose piece of the side to move stands on the origin. |
| MoveGen.GeneratedFromOwnKind | shogi/__init__.py:743-758 | A board move is generated exactly when the kind standing on its origin may make it. |
| MoveGen.OwnKindIsPseudoLegal | shogi/__init__.py:916-940 | The generator's conditions for a board move are exactly the corrected pseudo-legality test. |
| MoveGen.DropsOnEmpty | shogi/__init__.py:761-773 | Drops are offered exactly on the squares no piece holds. |
| MoveGen.NullMoveNotGenerated | shogi/__init__.py:726-773 | The generator never yields the null move. |
| MoveGen.GeneratedIffPseudoLegal | shogi/__init__.py:726-773 | On a consistent board, the generator yields exactly the well-formed moves the corrected `is_pseudo_legal` accepts. This covers both board moves and drops. |
| MoveGen.AsWrittenRejectsSuiPromotion | shogi/__init__.py:926-929 | The engine's `is_pseudo_legal` refuses a SUI promotion that the generator offers and that is pseudo-legal. |
| MoveGen.AsWrittenAcceptsDropOnOpponent | shogi/__init__.py:912-914 | The engine's `is_pseudo_legal` accepts a drop onto a square an opposing piece holds. |
| MoveGen.AsWrittenAcceptsPromotedDrop | shogi/__init__.py:946-948 | The engine's `is_pseudo_legal` accepts a drop naming a promoted kind when its base kind is in hand. |
| MoveGen.AsWrittenRaisesOnSuiDrop | shogi/__init__.py:946-948 | The engine's `is_pseudo_legal` raises when asked about a SUI drop. |
| MoveGen.AsWrittenAgrees | shogi/__init__.py:904-961 | Away from those four cases, the engine's `is_pseudo_legal` returns exactly the corrected verdict. |
| Legality.AttackedByKinds | shogi/__init__.py:779-784 | The loop over kinds answers true exactly when some listed kind has an attacker. |
| Legality.AttackersMeaning | shogi/__init__.py:780 | Attackers found from the target are exactly the pieces of that kind and colour whose own attacks reach the target. |
| Legality.IsAttackedByMeaning | shogi/__init__.py:775-784 | A square is attacked by a colour exactly when some piece of that colour, of a listed kind, attacks it. |
| Legality.PseudoLegalIsReversible | shogi/__init__.py:1053-1063 | Every well-formed pseudo-legal move is one that `push` and the corrected `pop` can play and take back. |
| Legality.GeneratedArePushable | shogi/__init__.py:895-902 | Every generated move is well formed, pseudo-legal and accepted by `push`. |
| Legality.LegalAmong | shogi/__init__.py:899-902 | With the corrected `pop`, the filter keeps exactly the moves whose trial push neither exposes the mover's royal piece nor mates by a pawn drop. |
| Legality.LegalityTestNeverRaises | shogi/__init__.py:832-842 | With the corrected `pop`, the trial push and pop inside the legality test never raise for a well-formed pseudo-legal move. |
| Legality.AsWrittenLegalityTest | shogi/__init__.py:832-842 | With the engine's `pop`, the legality test of a well-formed pseudo-legal move raises exactly when the move captures a KING, SUI or PROM_SUI. Otherwise it gives the corrected answer. |
| Legality.LegalAsWritten | shogi/__init__.py:963-964 | Away from the four `is_pseudo_legal` defects, the engine's `is_legal` of a well-formed move raises exactly on a pseudo-legal capture of a KING, SUI or PROM_SUI. Whenever it answers, it agrees with the corrected `IsLegal`. |
| Legality.FirstLegalAsWrittenMeaning | shogi/__init__.py:895-902 | Over pseudo-legal moves, taking the first move of the engine's legal-move generator raises exactly when a capture of a KING, SUI or PROM_SUI comes before every legal move. Otherwise it yields the first move the corrected filter keeps, or nothing when that filter keeps nothing. |
| Legality.GeneratedIffLegal | shogi/__init__.py:895-902 | The legal-move generator yields exactly the well-formed moves that `is_legal` accepts. |
| Legality.NoLegalMoves | shogi/__init__.py:895-902 | The legal-move generator is empty exactly when no well-formed move is legal. |
| Legality.IllFormedMoveRaises | shogi/__init__.py:1077-1080 | A move naming both an origin and a dropped kind is not well formed. When the mover does not hold that kind, `push` plays it as a drop and raises, so the legality test raises, the corrected `IsLegal` refuses it, and the engine's `is_legal` raises whenever its `is_pseudo_legal` accepts the move. |
| Legality.TrialKeepsBoard | shogi/__init__.py:838-841 | With the king records up to date, an engine trial of a well-formed pseudo-legal move that answers leaves a consistent board. That board differs from the original only in its repetition counter and promoted-SUI records, and every move pseudo-legal before stays pseudo-legal on it. |
| Legality.TrialRestores | shogi/__init__.py:832-842 | With every royal piece recorded and no zero repetition counts, the engine's trial of a well-formed pseudo-legal move raises exactly on a capture of a KING, SUI or PROM_SUI. Otherwise its verdict is the corrected test's, and the board after it is the board before, except that after a SUI promotion the mover's promoted-SUI record is left on the destination. |
| Legality.StaleRecordRefuses | shogi/__init__.py:844-850 | With the mover's promoted-SUI record left on some square, the engine's walk refuses a move that leaves the mover exactly one royal piece and that square attacked, provided the move captures no royal piece and neither promotes a SUI nor moves a promoted SUI. |
| Legality.LegalMovesAsWrittenAgree | shogi/__init__.py:895-902 | Threading one board through all the trials, as the engine's generator does, and with no trial but the last promoting a SUI: the walk raises exactly when some move captures a KING, SUI or PROM_SUI, and otherwise yields exactly the moves the corrected filter keeps, in order. |
| Legality.AsWrittenRefusesAfterSuiPromotion | shogi/__init__.py:1122-1130 | When a SUI promotion is tried first and a later legal move leaves the mover one royal piece with the promotion square attacked, the engine's walk drops the later move, although the corrected filter keeps it. |
| Legality.GameOverCases | shogi/__init__.py:966-1018 | The game is over exactly by checkmate, stalemate or fourfold repetition, and checkmate and stalemate exclude each other. |
| Legality.CheckmateMeaning | shogi/__init__.py:984-993 | Checkmate means in check with no legal move at all. |
| Legality.StalemateMeaning | shogi/__init__.py:995-1004 | Stalemate means not in check and with no legal move at all. |
| Legality.CheckmateAsWritten | shogi/__init__.py:984-993 | The engine's `is_checkmate` raises exactly when the side to move is in check and the generator reaches a capture of a KING, SUI or PROM_SUI before any legal move. Whenever it answers, it agrees with the corrected checkmate. |
| Legality.StalemateAsWritten | shogi/__init__.py:995-1004 | The engine's `is_stalemate` raises exactly when the side to move is not in check and the generator reaches such a capture first. Whenever it answers, it agrees with the corrected stalemate. |
| Legality.GameOverAsWritten | shogi/__init__.py:966-982 | The engine's `is_game_over` raises exactly when the generator reaches such a capture first. Whenever it answers, it agrees with the corrected game-over test. |
| Legality.SuicideAfterPassIsCheck | shogi/__init__.py:844-850 | After a null move, `was_suicide` asks exactly whether the side that passed was in check. |
| Legality.PawnDropMateIsCheck | shogi/__init__.py:852-893 | When the side to move has exactly one royal piece, a pawn-drop mate is detected only when the dropped pawn gives check. |
| Legality.PawnDropMateWithoutRoyal | shogi/__init__.py:852-893 | When the side to move has no royal piece left, it is not in check, and a pawn-drop mate can only fire through a stale king or promoted-SUI record: the square it defends holds no royal piece of that side. |

## Left out

- Text I/O is not modelled: SFEN emit and parse, the USI position command, KIF and `__str__` rendering, and the `SquareSet` wrappers. They depend on `Piece`, `Move` and the constants in `shogi/Piece.py`, `shogi/Move.py` and `shogi/Consts.py`, which are not part of this model.
- Piece kinds and colours use the numbering the engine's comments and tables imply. `Consts.py` is not part of this model. `PIECE_TYPES` is taken to list the kinds PAWN to PROM_SUI in ascending order. That order decides which generated move the engine tries first, and so whether `is_checkmate`, `is_stalemate` and `is_game_over` raise (`Legality.FirstLegalAsWrittenMeaning`).
- The random table `DEFAULT_RANDOM_ARRAY` is left out. Keys are identified by their table index, and a hash is the set of combined indices. This decides equality of hashes exactly when the random values are collision-free.
- The diagonal tables `BB_R45_ATTACKS`/`BB_L45_ATTACKS` and the `BB_SHIFT_*` lookups are left out. So are the `>> … & 127` indexing of all ray tables. Slider attacks are rays over the occupied squares; the rank, file and lance tables are proved equal to those rays for every matching blocker pattern.
- The rotated occupancy copies are modelled, but their table lookups are not. The rotation tables are given by closed formulas over file and rank.
- The `gmpy`/`bin` fallbacks for `pop_count` and `bit_scan` are replaced by set cardinality and an ascending scan of a set.
- The iterator wrappers `PseudoLegalMoveGenerator` and `LegalMoveGenerator` are left out. Generators are sequence-valued functions.
- `attacker_mask` and `attackers` are left out. `is_attacked_by` covers the same ground.
- `reset` and `clear` are not modelled as functions. The model states its properties for every consistent board instead.
- The generator flags are modelled only with every flag set. `generate_legal_moves` passes its flags positionally into mismatched parameters, and with the defaults all of them are true.
- `is_suicide_or_check_by_dropping_pawn` is modelled with either variant of `pop` (`Legality.TrialTest`). The engine's variant raises after a capture of a KING, SUI or PROM_SUI (see Findings). The legal moves and the end-of-game tests use the corrected variant. The engine's behaviour is modelled by the `AsWritten` members next to them.
- Legality.IsSuicideOrCheckByDroppingPawn: uses the corrected `pop`, so it never raises for a well-formed pseudo-legal move. The engine's test raises on a capture of a KING, SUI or PROM_SUI (`Legality.AsWrittenLegalityTest`).
- Legality.LegalAmong: filters with the corrected `pop` and never raises. The engine's filter raises once it reaches a capture of a KING, SUI or PROM_SUI (`Legality.FirstLegalAsWrittenMeaning`).
- Legality.LegalAmong: tests every move on the unchanged board. The engine's generator runs all its trials on one board, and after a SUI-promotion trial it can drop later legal moves (`Legality.LegalMovesAsWritten`, `Legality.AsWrittenRefusesAfterSuiPromotion`, see Findings).
- Legality.LegalityTestNeverRaises: holds for the corrected `pop` only. The engine's test raises on such captures (`Legality.AsWrittenLegalityTest`).
- Legality.LegalityTestNeverRaises: holds for well-formed moves only. A move naming both an origin and a dropped kind passes `is_pseudo_legal` as a board move, but `push` plays it as a drop and can raise (`Legality.IllFormedMoveRaises`).
- Legality.PseudoLegalIsReversible: holds for well-formed moves only, for the same reason (`Legality.IllFormedMoveRaises`).
- Legality.AsWrittenLegalityTest: holds for well-formed moves only; on an ill-formed move the test can raise without any royal capture (`Legality.IllFormedMoveRaises`).
- Legality.GeneratedIffLegal: relates the corrected generator and `IsLegal`, neither of which raises. The engine's versions raise on such captures (`Legality.FirstLegalAsWrittenMeaning`, `Legality.LegalAsWritten`).
- Legality.GeneratedIffLegal: judges each move on the unchanged board. The engine's generator, iterated or counted through `legal_moves`, threads one board through its trials and agrees only while no trial but the last promotes a SUI (`Legality.LegalMovesAsWrittenAgree`); after such a trial it can leave out legal moves (see Findings).
- Legality.FirstLegalAsWrittenMeaning: is about a search that runs every trial on the unchanged board. That it matches the engine's search on one board is argued, not proved. When the side to move already has a royal piece, a SUI promotion gives it a second one and is judged legal, so the search stops there. When it has none, a later move leaves it none and `was_suicide` ignores the record, unless that move promotes another SUI, which rewrites the record.
- `is_checkmate`, `is_stalemate`, `is_game_over` and iterating `legal_moves` leave the mover's promoted-SUI record moved on the real board after a SUI-promotion trial. The model's versions return no board, so this after-effect is not modelled.
- Legality.NoLegalMoves: is about the corrected generator. The engine's generator can raise before it is exhausted (`Legality.FirstLegalAsWrittenMeaning`).
- Legality.GameOverCases: is about the corrected tests. The engine's `is_game_over` can raise instead (`Legality.GameOverAsWritten`).
- Legality.CheckmateMeaning: is about the corrected test. The engine's `is_checkmate` can raise instead (`Legality.CheckmateAsWritten`).
- Legality.StalemateMeaning: is about the corrected test. The engine's `is_stalemate` can raise instead (`Legality.StalemateAsWritten`).
- Legality.LegalAsWritten: says nothing about the four moves on which `is_pseudo_legal` as written errs (the MoveGen rows of Findings). On those moves the engine's answer also depends on what `push` makes of a move it should not accept.
- Legality.LegalAsWritten: holds for well-formed moves only. An ill-formed move that `is_pseudo_legal` accepts makes `is_legal` raise when the dropped kind is not in hand (`Legality.IllFormedMoveRaises`).
- Legality.PawnDropMateIsCheck: holds only when the side to move has exactly one royal piece. With none, `was_check_by_dropping_pawn` still reads the king and promoted-SUI records, which `remove_piece_at` leaves stale, so it can refuse a pawn drop while `is_check` is false (`Legality.PawnDropMateWithoutRoyal`).
- The board left behind by an engine method that raises is not modelled: an `Err` result discards it. For example, `pop` has already popped its stacks, lowered the repetition count and restored the origin square when `remove_piece_from_hand` raises, and `remove_piece_from_hand` can leave a count of −1 in the hand.
- `Legality.IsLegal` uses the corrected pseudo-legality test (see Findings), so that legal moves are exactly the generated ones.
- A null move is the `NullMove` constructor, standing for the engine's falsy move. A non-null move is well formed when it has an origin exactly when it drops nothing; the `Move` class is not part of this model.
- `zobrist_hash` folds in only BLACK's hand, as the engine does. WHITE's hand is not hashed.
- MakeMove.FullHash: uses the engine's key layout, so repetition counting conflates the positions that the turn-key and hand-key collisions make alike (see Findings). The corrected layout is proved collision-free (`Zobrist.CorrectedHashDetermines`) but is not used for counting.
- Zobrist.HandHash: only the 17 low bits of the hand index are hashed, and a negative index (impossible for a valid hand) is treated as 0. A hand larger than a full set can exceed 17 bits; the engine's bit scan would hash its higher bits too.
- `remove_piece_at` leaves the king and promoted-SUI records stale, and the model keeps them stale. `RoyalsTracked` states the weaker invariant that every royal piece on the board is recorded.
- MakeMove.PushThenPop: requires the royal records to be up to date. Pop restores a king's record to the origin square, so a stale record is not restored. After a SUI promotion, the promoted-SUI record keeps the destination square, as in the engine.
- MakeMove.PushThenPop: states repetition counts as equal for every position rather than equal maps. `Counter.subtract` leaves a zero entry behind, while the model keeps the counter by its non-zero counts only (`MakeMove.Bump` drops a count that reaches zero); on a counter with no zero counts the maps are equal (`MakeMove.PushThenPopCounter`).
- Board equality compares occupancy, kind sets, hands, turn and move number. `MakeMove.PushThenPop` restores all of these and more.

## Findings

| source | as written | input that shows it | evidently intended | confidence | as-written member | corrected member |
|---|---|---|---|---|---|---|
| shogi/__init__.py:1133-1135 | `pop` takes the captured kind back out of the capturer's hand, but KING, SUI and PROM_SUI never entered it | Capture a KING, SUI or PROM_SUI with any reversible move, then `pop` | `pop` puts the captured royal piece back without touching the hand | not executed | MakeMove.AsWrittenPopRaisesAfterRoyalCapture | MakeMove.PushThenPop |
| shogi/__init__.py:1105-1108 | `pop` subtracts the current position from the repetition counter even for a null move, which `push` never counted | Push and pop a null move on any board: the post-move position's count drops by one | only positions `push` counted are uncounted | not executed | MakeMove.AsWrittenPopUncountsNullMove | MakeMove.NullPushThenPop |
| shogi/__init__.py:1442-1443 | The turn key index `2268 + 81 * 2` is the key of a BLACK promoted SUI on square 0 | WHITE to move and no piece there hashes like BLACK to move with that piece there | The turn key follows the 81 × 32 piece keys, at index 2592 | not executed | Zobrist.AsWrittenTurnCollides | Zobrist.CorrectedHashDetermines |
| shogi/__init__.py:1456-1459 | Hand-bit keys `2269 + 81 * 2 + bit` are the keys of a BLACK promoted SUI on squares 1 to 17 | A hand index with bit 0 set hashes like a BLACK promoted SUI on square 1 | Hand keys follow the turn key, filling the 2610-entry table | not executed | Zobrist.AsWrittenKeysCollide | Zobrist.CorrectedKeysDistinct |
| shogi/__init__.py:832-842 | The legality test takes its trial move back with the engine's `pop`, which raises after a capture of a KING, SUI or PROM_SUI. `is_legal`, `generate_legal_moves`, `is_checkmate`, `is_stalemate` and `is_game_over` raise through it | `is_legal` of a rook move that captures an opposing SUI | The test answers, and the captured piece goes back on the board | not executed | Legality.AsWrittenLegalityTest | Legality.LegalityTestNeverRaises |
| shogi/__init__.py:926-929 | `is_pseudo_legal` refuses every promotion of a kind numbered at or above PROM_PAWN, which includes SUI | A SUI moving into its zone with promotion, which the generator yields | SUI promotion is accepted like any kind with a promoted form | not executed | MoveGen.AsWrittenRejectsSuiPromotion | MoveGen.GeneratedIffPseudoLegal |
| shogi/__init__.py:912-914 | A drop is checked only against the mover's own pieces | A held pawn dropped onto a square an opposing piece holds | Drops go onto empty squares only, as the generator does | not executed | MoveGen.AsWrittenAcceptsDropOnOpponent | MoveGen.GeneratedIffPseudoLegal |
| shogi/__init__.py:946-948 | The hand lookup maps a promoted kind to its base kind | A drop of PROM_PAWN with a pawn in hand | Only base kinds may be dropped | not executed | MoveGen.AsWrittenAcceptsPromotedDrop | MoveGen.GeneratedIffPseudoLegal |
| shogi/__init__.py:946-948 | The hand lookup for SUI indexes the promotion table with a kind it does not contain, and raises | A drop of SUI onto any square the mover does not hold | The drop is simply not pseudo-legal | not executed | MoveGen.AsWrittenRaisesOnSuiDrop | MoveGen.GeneratedIffPseudoLegal |
| shogi/__init__.py:1122-1130 | `pop` undoes a SUI promotion by setting a plain SUI back on the origin and emptying the destination with `remove_piece_at`, which leaves the mover's promoted-SUI record on the destination (set at 713-715). The legal-move generator runs all its trials on one board, so every later trial's `was_suicide` (849-850) reads the stale record | BLACK to move and not in check, its king on a square WHITE does not attack, holding a pawn. A BLACK SUI on D5 can promote onto C5, and a WHITE gold on B5 attacks C5. The promotion is tried before the drops, and then every pawn drop is refused, since C5 stays attacked | Each trial leaves the board as it found it, so every generated move is judged on the same position | not executed | Legality.AsWrittenRefusesAfterSuiPromotion | Legality.LegalMovesAsWrittenAgree |

=== FILE: attacks.dfy ===
/** Per-kind attack sets (`Board.attacks_from`) and the promotion rules
    (`can_promote`, `can_move_without_promotion`). */
module Attacks {
  import opened Results
  import opened Types
  import opened Geometry
  import opened Rays

  /** The four diagonal rays (bishop). */
  function DiagonalRays(s: Square, occ: Bitboard): Bitboard {
    Ray(s, 1, 1, occ) + Ray(s, -1, -1, occ) + Ray(s, 1, -1, occ) + Ray(s, -1, 1, occ)
  }

  /** The rank and file rays (rook). */
  function LineRays(s: Square, occ: Bitboard): Bitboard {
    Ray(s, 1, 0, occ) + Ray(s, -1, 0, occ) + Ray(s, 0, 1, occ) + Ray(s, 0, -1, occ)
  }

  /** The squares a piece of kind `pt` and colour `c` on `s` attacks, given the
      occupied squares `occ`, whoever occupies the targets. */
  function AttacksFrom(pt: PieceType, s: Square, occ: Bitboard, c: Color): Bitboard {
    if pt == NONE then {}
    else if pt == PAWN then PawnAttacks(c, s)
    else if pt == LANCE then Ray(s, 0, Forward(c), occ)
    else if pt == KNIGHT then KnightAttacks(c, s)
    else if pt == SILVER then SilverAttacks(c, s)
    else if pt == GOLD || pt == PROM_PAWN || pt == PROM_LANCE || pt == PROM_KNIGHT || pt == PROM_SILVER then
      GoldAttacks(c, s)
    else if pt == BISHOP then DiagonalRays(s, occ)
    else if pt == ROOK then LineRays(s, occ)
    else if pt == KING || pt == PROM_SUI then KingAttacks(s)
    else if pt == PROM_BISHOP then KingAttacks(s) + DiagonalRays(s, occ)
    else if pt == PROM_ROOK then KingAttacks(s) + LineRays(s, occ)
    else SuiAttacks(c, s)
  }

  /** Every attack lands on the board. */
  lemma AttacksOnBoard(pt: PieceType, s: Square, occ: Bitboard, c: Color)
    ensures AttacksFrom(pt, s, occ, c) <= BB_ALL
  {
    RayOnBoard(s, 1, 1, occ);
    RayOnBoard(s, -1, -1, occ);
    RayOnBoard(s, 1, -1, occ);
    RayOnBoard(s, -1, 1, occ);
    RayOnBoard(s, 1, 0, occ);
    RayOnBoard(s, -1, 0, occ);
    RayOnBoard(s, 0, 1, occ);
    RayOnBoard(s, 0, -1, occ);
    RayOnBoard(s, 0, Forward(c), occ);
    PawnAttacksMeaning(c, s);
    KnightAttacksMeaning(c, s);
  }

  /** Ranks still in front of a piece of colour `c` on `s`. */
  function RanksAhead(c: Color, s: Square): int {
    if c == Black then Rank(s) else 8 - Rank(s)
  }

  /** `can_promote`: the kind may promote and the square is in `c`'s promotion zone. */
  function CanPromote(s: Square, pt: PieceType, c: Color): bool {
    if !(pt in {PAWN, LANCE, KNIGHT, SILVER, BISHOP, ROOK, SUI}) then false
    else if c == Black then Rank(s) <= 2
    else Rank(s) >= 6
  }

  /** `can_move_without_promotion`: pawns and lances may not stop on the last
      rank, knights not on the last two. */
  function CanMoveWithoutPromotion(to: Square, pt: PieceType, c: Color): bool {
    if c == Black then
      (pt != PAWN && pt != LANCE && pt != KNIGHT)
      || (pt == PAWN && Rank(to) > 0)
      || (pt == LANCE && Rank(to) > 0)
      || (pt == KNIGHT && Rank(to) > 1)
    else
      (pt != PAWN && pt != LANCE && pt != KNIGHT)
      || (pt == PAWN && Rank(to) < 8)
      || (pt == LANCE && Rank(to) < 8)
      || (pt == KNIGHT && Rank(to) < 7)
  }

  /** The promotion check agrees with the promotion table: exactly the kinds
      that have a promoted form, on the three ranks furthest ahead. */
  lemma CanPromoteMeaning(s: Square, pt: PieceType, c: Color)
    ensures CanPromote(s, pt, c) <==> Promoted(pt).Some? && RanksAhead(c, s) < 3
  {
  }

  /** Stated per colour: the limits mirror between BLACK and WHITE. */
  lemma CanMoveWithoutPromotionLimits(to: Square, pt: PieceType, c: Color)
    ensures pt != PAWN && pt != LANCE && pt != KNIGHT ==> CanMoveWithoutPromotion(to, pt, c)
    ensures pt == PAWN || pt == LANCE ==> (CanMoveWithoutPromotion(to, pt, c) <==> RanksAhead(c, to) >= 1)
    ensures pt == KNIGHT ==> (CanMoveWithoutPromotion(to, pt, c) <==> RanksAhead(c, to) >= 2)
  {
  }

  /** A sideways neighbour of `s` on the same rank. */
  function SideOf(s: Square): int {
    if File(s) > 0 then -1 else 1
  }

  /** A vertical direction that stays on the board from `s`. */
  function UpOf(s: Square): int {
    if Rank(s) > 0 then -1 else 1
  }

  lemma PawnMoveRoom(to: Square, c: Color)
    ensures CanMoveWithoutPromotion(to, PAWN, c) <==> PawnAttacks(c, to) != {}
  {
    PawnAttacksMeaning(c, to);
    if CanMoveWithoutPromotion(to, PAWN, c) {
      StepArith(to, 0, Forward(c));
      assert to + 9 * Forward(c) in PawnAttacks(c, to);
    }
  }

  lemma LanceMoveRoom(to: Square, c: Color)
    ensures CanMoveWithoutPromotion(to, LANCE, c) <==> Ray(to, 0, Forward(c), {}) != {}
  {
    if CanMoveWithoutPromotion(to, LANCE, c) {
      StepArith(to, 0, Forward(c));
      assert to + 9 * Forward(c) in Ray(to, 0, Forward(c), {});
    }
  }

  lemma KnightMoveRoom(to: Square, c: Color)
    ensures CanMoveWithoutPromotion(to, KNIGHT, c) <==> KnightAttacks(c, to) != {}
  {
    KnightAttacksMeaning(c, to);
    if CanMoveWithoutPromotion(to, KNIGHT, c) {
      StepArith(to, SideOf(to), 2 * Forward(c));
      assert to + SideOf(to) + 18 * Forward(c) in KnightAttacks(c, to);
    }
  }

  lemma SteppersHaveRoom(to: Square, c: Color)
    ensures SilverAttacks(c, to) != {} && GoldAttacks(c, to) != {}
    ensures KingAttacks(to) != {} && SuiAttacks(c, to) != {}
  {
    StepArith(to, SideOf(to), 0);
    StepArith(to, SideOf(to), UpOf(to));
    SilverAttacksMeaning(c, to);
    GoldAttacksMeaning(c, to);
    KingAttacksMeaning(to);
    SuiAttacksMeaning(c, to);
    assert to + SideOf(to) + 9 * UpOf(to) in SilverAttacks(c, to);
    assert to + SideOf(to) in GoldAttacks(c, to);
    assert to + SideOf(to) in KingAttacks(to);
    assert to + SideOf(to) in SuiAttacks(c, to);
  }

  lemma SlidersHaveRoom(to: Square)
    ensures DiagonalRays(to, {}) != {} && LineRays(to, {}) != {}
  {
    StepArith(to, SideOf(to), 0);
    StepArith(to, SideOf(to), UpOf(to));
    assert to + SideOf(to) + 9 * UpOf(to) in Ray(to, SideOf(to), UpOf(to), {});
    assert to + SideOf(to) in Ray(to, SideOf(to), 0, {});
  }

  /** A piece may stay unpromoted on a square exactly when it would still
      have a square to move to from there on an empty board. */
  lemma CanMoveWithoutPromotionMeaning(to: Square, pt: PieceType, c: Color)
    requires pt != NONE
    ensures CanMoveWithoutPromotion(to, pt, c) <==> AttacksFrom(pt, to, {}, c) != {}
  {
    if pt == PAWN {
      PawnMoveRoom(to, c);
    } else if pt == LANCE {
      LanceMoveRoom(to, c);
    } else if pt == KNIGHT {
      KnightMoveRoom(to, c);
    } else {
      CanMoveWithoutPromotionLimits(to, pt, c);
      if pt == BISHOP || pt == ROOK || pt == PROM_BISHOP || pt == PROM_ROOK {
        SlidingKindsHaveRoom(to, pt, c);
      } else {
        SteppingKindsHaveRoom(to, pt, c);
      }
    }
  }

  lemma SlidingKindsHaveRoom(to: Square, pt: PieceType, c: Color)
    requires pt == BISHOP || pt == ROOK || pt == PROM_BISHOP || pt == PROM_ROOK
    ensures AttacksFrom(pt, to, {}, c) != {}
  {
    SlidersHaveRoom(to);
    if pt == BISHOP {
      BishopAttacks(to, {}, c);
    } else if pt == ROOK {
      RookAttacks(to, {}, c);
    } else if pt == PROM_BISHOP {
      PromotedBishopAttacks(to, {}, c);
    } else {
      PromotedRookAttacks(to, {}, c);
    }
  }

  lemma SteppingKindsHaveRoom(to: Square, pt: PieceType, c: Color)
    requires pt != NONE && pt != PAWN && pt != LANCE && pt != KNIGHT
    requires pt != BISHOP && pt != ROOK && pt != PROM_BISHOP && pt != PROM_ROOK
    ensures AttacksFrom(pt, to, {}, c) != {}
  {
    SteppersHaveRoom(to, c);
  }

  // ---- attacks seen from the attacked square

  /** A piece of kind `pt` and colour `c` on `s` attacks `t` exactly when
      the same kind of the other colour on `t` attacks `s`: this is how
      `is_attacked_by` finds attackers, looking outward from the target. */
  lemma AttacksSymmetric(pt: PieceType, s: Square, t: Square, occ: Bitboard, c: Color)
    ensures t in AttacksFrom(pt, s, occ, c) <==> s in AttacksFrom(pt, t, occ, c.Opp())
  {
    if pt == LANCE || pt == BISHOP || pt == ROOK || pt == PROM_BISHOP || pt == PROM_ROOK {
      SlidersSymmetric(pt, s, t, occ, c);
    } else if pt != NONE {
      StepsSymmetric(pt, s, t, occ, c);
    }
  }

  lemma SlidersSymmetric(pt: PieceType, s: Square, t: Square, occ: Bitboard, c: Color)
    requires pt == LANCE || pt == BISHOP || pt == ROOK || pt == PROM_BISHOP || pt == PROM_ROOK
    ensures t in AttacksFrom(pt, s, occ, c) <==> s in AttacksFrom(pt, t, occ, c.Opp())
  {
    if pt == LANCE {
      LanceAttacks(s, occ, c);
      LanceAttacks(t, occ, c.Opp());
      LanceSymmetric(s, t, occ, c);
    } else if pt == BISHOP {
      BishopAttacks(s, occ, c);
      BishopAttacks(t, occ, c.Opp());
      DiagonalsSymmetric(s, t, occ);
    } else if pt == ROOK {
      RookAttacks(s, occ, c);
      RookAttacks(t, occ, c.Opp());
      LinesSymmetric(s, t, occ);
    } else if pt == PROM_BISHOP {
      PromotedBishopAttacks(s, occ, c);
      PromotedBishopAttacks(t, occ, c.Opp());
      StepsSymmetric(KING, s, t, occ, c);
      DiagonalsSymmetric(s, t, occ);
    } else {
      PromotedRookAttacks(s, occ, c);
      PromotedRookAttacks(t, occ, c.Opp());
      StepsSymmetric(KING, s, t, occ, c);
      LinesSymmetric(s, t, occ);
    }
  }

  lemma LanceSymmetric(s: Square, t: Square, occ: Bitboard, c: Color)
    ensures t in Ray(s, 0, Forward(c), occ) <==> s in Ray(t, 0, Forward(c.Opp()), occ)
  {
    var d := Forward(c);
    assert Forward(c.Opp()) == -d && KingStep(0, d);
    RaySymmetric(s, t, 0, d, occ);
  }

  /** The attack sets of the sliding kinds, one kind at a time. */
  lemma LanceAttacks(s: Square, occ: Bitboard, c: Color)
    ensures AttacksFrom(LANCE, s, occ, c) == Ray(s, 0, Forward(c), occ)
  {
  }

  lemma BishopAttacks(s: Square, occ: Bitboard, c: Color)
    ensures AttacksFrom(BISHOP, s, occ, c) == DiagonalRays(s, occ)
  {
  }

  lemma RookAttacks(s: Square, occ: Bitboard, c: Color)
    ensures AttacksFrom(ROOK, s, occ, c) == LineRays(s, occ)
  {
  }

  /** A promoted bishop or rook attacks as a king and as the unpromoted piece. */
  lemma PromotedBishopAttacks(s: Square, occ: Bitboard, c: Color)
    ensures AttacksFrom(PROM_BISHOP, s, occ, c) == AttacksFrom(KING, s, occ, c) + DiagonalRays(s, occ)
  {
  }

  lemma PromotedRookAttacks(s: Square, occ: Bitboard, c: Color)
    ensures AttacksFrom(PROM_ROOK, s, occ, c) == AttacksFrom(KING, s, occ, c) + LineRays(s, occ)
  {
  }

  lemma DiagonalsSymmetric(s: Square, t: Square, occ: Bitboard)
    ensures t in DiagonalRays(s, occ) <==> s in DiagonalRays(t, occ)
  {
    RaySymmetric(s, t, 1, 1, occ);
    RaySymmetric(s, t, -1, -1, occ);
    RaySymmetric(s, t, 1, -1, occ);
    RaySymmetric(s, t, -1, 1, occ);
  }

  lemma LinesSymmetric(s: Square, t: Square, occ: Bitboard)
    ensures t in LineRays(s, occ) <==> s in LineRays(t, occ)
  {
    RaySymmetric(s, t, 1, 0, occ);
    RaySymmetric(s, t, -1, 0, occ);
    RaySymmetric(s, t, 0, 1, occ);
    RaySymmetric(s, t, 0, -1, occ);
  }

  /** The step patterns mirror between the colours. */
  lemma StepsSymmetric(pt: PieceType, s: Square, t: Square, occ: Bitboard, c: Color)
    requires pt != NONE && pt != LANCE && pt != BISHOP && pt != ROOK && pt != PROM_BISHOP && pt != PROM_ROOK
    ensures t in AttacksFrom(pt, s, occ, c) <==> s in AttacksFrom(pt, t, occ, c.Opp())
  {
    if pt == PAWN {
      PawnAttacksMeaning(c, s);
      PawnAttacksMeaning(c.Opp(), t);
    } else if pt == KNIGHT {
      KnightAttacksMeaning(c, s);
      KnightAttacksMeaning(c.Opp(), t);
    } else if pt == SILVER {
      SilverAttacksMeaning(c, s);
      SilverAttacksMeaning(c.Opp(), t);
    } else if pt == KING || pt == PROM_SUI {
      KingAttacksMeaning(s);
      KingAttacksMeaning(t);
    } else if pt == SUI {
      SuiAttacksMeaning(c, s);
      SuiAttacksMeaning(c.Opp(), t);
    } else {
      GoldAttacksMeaning(c, s);
      GoldAttacksMeaning(c.Opp(), t);
    }
  }
}

=== FILE: board.dfy ===
/** The board: per-kind square sets, the kind on each square, the occupancy
    tracker, the hands, royal bookkeeping, the side to move, counters, the
    move history and the repetition counter; with the mutation primitives
    that keep them in step. */
module Position {
  import opened Results
  import opened Types
  import opened Geometry
  import Occupancy
  import opened Hands
  import opened Zobrist

  /** The repetition counter: how often each position hash was reached. */
  type Transpositions = map<Hash, int>

  function TCount(t: Transpositions, h: Hash): int {
    if h in t then t[h] else 0
  }

  /** The counter holds no zero count: a hash counted zero times is absent. */
  predicate NonZeroCounts(t: Transpositions) {
    forall h :: h in t ==> t[h] != 0
  }

  /** Counters without zero counts are equal when they count every
      position alike. */
  lemma CountsDetermine(t1: Transpositions, t2: Transpositions)
    requires NonZeroCounts(t1) && NonZeroCounts(t2)
    requires forall h :: TCount(t1, h) == TCount(t2, h)
    ensures t1 == t2
  {
    assert forall h :: h in t1 <==> TCount(t1, h) != 0;
    assert forall h :: h in t2 <==> TCount(t2, h) != 0;
  }

  /** The engine's `Board` state. */
  datatype Board = Board(
    pieceBB: seq<Bitboard>,
    pieces: seq<PieceType>,
    occupied: Occupancy.Occupied,
    hands: ByColor<Hand>,
    kingSquares: ByColor<Option<Square>>,
    promsuiSquares: ByColor<Option<Square>>,
    kingsLiving: ByColor<int>,
    turn: Color,
    moveNumber: int,
    capturedStack: seq<PieceType>,
    moveStack: seq<Move>,
    zobrist: Hash,
    transpositions: Transpositions)

  /** One square set per kind and one kind per square. */
  predicate Shaped(b: Board) {
    |b.pieceBB| == 17 && |b.pieces| == 81
  }

  /** The colour of the piece on `s`, read from WHITE's occupancy as the
      engine reads it. */
  function ColorAt(b: Board, s: Square): Color {
    if s in b.occupied.byColor.white then White else Black
  }

  /** The piece on `s`, if any (`piece_at`). */
  function PieceAt(b: Board, s: Square): Option<Piece>
    requires Shaped(b)
  {
    if b.pieces[s] == NONE then None else Some(Piece(b.pieces[s], ColorAt(b, s)))
  }

  /** The squares holding kind `k`. */
  function KindSquares(pieces: seq<PieceType>, k: PieceType): Bitboard
    requires |pieces| == 81
  {
    set s | 0 <= s < 81 && k != NONE && pieces[s] == k
  }

  /** The squares holding any piece. */
  function OccupiedSquares(pieces: seq<PieceType>): Bitboard
    requires |pieces| == 81
  {
    set s | 0 <= s < 81 && pieces[s] != NONE
  }

  /** The Zobrist key of the piece on an occupied square. */
  function KeyAt(b: Board, s: Square): Hash
    requires Shaped(b)
  {
    if b.pieces[s] == NONE then {} else {PieceKeyIndex(b.pieces[s], ColorAt(b, s), s)}
  }

  /** `board_zobrist_hash`: the keys of every piece on the board. */
  function BoardKeys(b: Board): Hash
    requires Shaped(b)
  {
    set s: Square | b.pieces[s] != NONE :: PieceKeyIndex(b.pieces[s], ColorAt(b, s), s)
  }

  /** The squares of `c`'s royal pieces (kings and promoted SUI). */
  function RoyalSquares(b: Board, c: Color): set<Square>
    requires Shaped(b)
  {
    set s: Square | IsRoyal(b.pieces[s]) && ColorAt(b, s) == c
  }

  /** The fields agree with each other: the per-kind sets and the occupancy
      describe `pieces`, `kings_living` counts the royal pieces, the
      incremental hash is the hash of the pieces, hands are valid and the
      two history stacks grow together. */
  predicate Valid(b: Board) {
    && Shaped(b)
    && Occupancy.Valid(b.occupied)
    && (forall k: PieceType :: b.pieceBB[k] == KindSquares(b.pieces, k))
    && b.occupied.bits == OccupiedSquares(b.pieces)
    && ValidHand(b.hands.black) && ValidHand(b.hands.white)
    && b.kingsLiving.black == |RoyalSquares(b, Black)|
    && b.kingsLiving.white == |RoyalSquares(b, White)|
    && b.zobrist == BoardKeys(b)
    && |b.capturedStack| == |b.moveStack|
  }

  /** Every king and every promoted SUI stands where the board records it. */
  predicate RoyalsTracked(b: Board)
    requires Shaped(b)
  {
    forall s: Square ::
      && (b.pieces[s] == KING ==> b.kingSquares.Get(ColorAt(b, s)) == Some(s))
      && (b.pieces[s] == PROM_SUI ==> b.promsuiSquares.Get(ColorAt(b, s)) == Some(s))
  }

  /** Every king stands where the board records it. */
  predicate KingsTracked(b: Board)
    requires Shaped(b)
  {
    forall s: Square :: b.pieces[s] == KING ==> b.kingSquares.Get(ColorAt(b, s)) == Some(s)
  }

  lemma RoyalsTrackedKings(b: Board)
    requires Shaped(b) && RoyalsTracked(b)
    ensures KingsTracked(b)
  {
  }

  /** Two boards hold the same pieces everywhere except perhaps on `sq`. */
  predicate SameExcept(a: Board, b: Board, sq: Square)
    requires Shaped(a) && Shaped(b)
  {
    forall t: Square :: t != sq ==> PieceAt(a, t) == PieceAt(b, t)
  }

  /** Squares unchanged by each of two steps (the first of which only
      touches the hands) are unchanged by both. */
  lemma SameExceptChain(b: Board, b1: Board, r1: Board, r: Board, sq: Square)
    requires Shaped(b) && Shaped(b1) && Shaped(r1) && Shaped(r)
    requires b1.pieces == b.pieces && b1.occupied == b.occupied
    requires SameExcept(b1, r1, sq) && SameExcept(r1, r, sq)
    ensures SameExcept(b, r, sq)
  {
    forall t: Square | t != sq
      ensures PieceAt(r, t) == PieceAt(b, t)
    {
      assert PieceAt(r, t) == PieceAt(r1, t);
      assert PieceAt(r1, t) == PieceAt(b1, t);
    }
  }

  /** The layout after one step that changed only `sq`. */
  lemma StepLayout(b: Board, r: Board, sq: Square, piece: Piece)
    requires Shaped(b) && Shaped(r)
    requires SameExcept(b, r, sq) && PieceAt(r, sq) == Some(piece)
    ensures forall t: Square :: PieceAt(r, t) == if t == sq then Some(piece) else PieceAt(b, t)
  {
  }

  /** The layout after emptying `from` and then filling `to`. */
  lemma TwoStepLayout(b: Board, r1: Board, r: Board, from: Square, to: Square, piece: Piece)
    requires Shaped(b) && Shaped(r1) && Shaped(r) && from != to
    requires SameExcept(b, r1, from) && PieceAt(r1, from) == None
    requires SameExcept(r1, r, to) && PieceAt(r, to) == Some(piece)
    ensures forall t: Square :: PieceAt(r, t) == if t == to then Some(piece) else if t == from then None else PieceAt(b, t)
  {
    forall t: Square
      ensures PieceAt(r, t) == if t == to then Some(piece) else if t == from then None else PieceAt(b, t)
    {
      if t != to {
        assert PieceAt(r, t) == PieceAt(r1, t);
      }
    }
  }

  /** Two steps that give `from` and then `to` back their pieces on `b`,
      applied to a board that differs from `b` only there, restore `b`'s
      layout. */
  lemma RestoredLayout(b: Board, x: Board, y: Board, z: Board, from: Square, to: Square)
    requires Shaped(b) && Shaped(x) && Shaped(y) && Shaped(z) && from != to
    requires forall t: Square :: t != from && t != to ==> PieceAt(x, t) == PieceAt(b, t)
    requires SameExcept(x, y, from) && PieceAt(y, from) == PieceAt(b, from)
    requires SameExcept(y, z, to) && PieceAt(z, to) == PieceAt(b, to)
    ensures forall t: Square :: PieceAt(z, t) == PieceAt(b, t)
  {
    forall t: Square
      ensures PieceAt(z, t) == PieceAt(b, t)
    {
      if t != to {
        assert PieceAt(z, t) == PieceAt(y, t);
        if t != from {
          assert PieceAt(y, t) == PieceAt(x, t);
        }
      }
    }
  }

  /** On a valid board the occupied squares are exactly the colour sets'
      union, so the piece on a square fixes its colour set membership. */
  lemma ColorSets(b: Board, s: Square)
    requires Shaped(b) && Occupancy.Valid(b.occupied) && b.occupied.bits == OccupiedSquares(b.pieces)
    ensures s in b.occupied.byColor.black <==> (b.pieces[s] != NONE && ColorAt(b, s) == Black)
    ensures s in b.occupied.byColor.white <==> (b.pieces[s] != NONE && ColorAt(b, s) == White)
  {
    assert s in b.occupied.bits <==> b.pieces[s] != NONE;
    assert s in b.occupied.bits <==> s in b.occupied.byColor.black || s in b.occupied.byColor.white;
    assert s !in b.occupied.byColor.black * b.occupied.byColor.white;
  }

  /** The piece keys of boards that differ on one square differ by the old
      and the new key of that square. */
  lemma KeysSameExcept(a: Board, b: Board, sq: Square)
    requires Shaped(a) && Shaped(b) && SameExcept(a, b, sq)
    ensures BoardKeys(b) == Xor(Xor(BoardKeys(a), KeyAt(a, sq)), KeyAt(b, sq))
  {
    var lhs := BoardKeys(b);
    var rhs := Xor(Xor(BoardKeys(a), KeyAt(a, sq)), KeyAt(b, sq));
    forall x | x in lhs
      ensures x in rhs
    {
      var t: Square :| b.pieces[t] != NONE && x == PieceKeyIndex(b.pieces[t], ColorAt(b, t), t);
      if t != sq {
        assert PieceAt(a, t) == PieceAt(b, t);
        assert x in BoardKeys(a);
        if x in KeyAt(a, sq) {
          PieceKeyIndexInjective(b.pieces[t], ColorAt(b, t), t, a.pieces[sq], ColorAt(a, sq), sq);
        }
        if x in KeyAt(b, sq) {
          PieceKeyIndexInjective(b.pieces[t], ColorAt(b, t), t, b.pieces[sq], ColorAt(b, sq), sq);
        }
      } else {
        assert x in KeyAt(b, sq);
        if x in BoardKeys(a) {
          var u: Square :| a.pieces[u] != NONE && x == PieceKeyIndex(a.pieces[u], ColorAt(a, u), u);
          PieceKeyIndexInjective(a.pieces[u], ColorAt(a, u), u, b.pieces[sq], ColorAt(b, sq), sq);
          assert x in KeyAt(a, sq);
        }
      }
    }
    forall x | x in rhs
      ensures x in lhs
    {
      if x in KeyAt(b, sq) {
        assert x == PieceKeyIndex(b.pieces[sq], ColorAt(b, sq), sq);
      } else {
        assert x in BoardKeys(a) && x !in KeyAt(a, sq);
        var u: Square :| a.pieces[u] != NONE && x == PieceKeyIndex(a.pieces[u], ColorAt(a, u), u);
        assert u != sq;
        assert PieceAt(a, u) == PieceAt(b, u);
      }
    }
  }

  /** The royal squares of boards that differ on one square differ at most
      in that square. */
  lemma RoyalsSameExcept(a: Board, b: Board, sq: Square, c: Color)
    requires Shaped(a) && Shaped(b) && SameExcept(a, b, sq)
    ensures RoyalSquares(b, c) == (RoyalSquares(a, c) - {sq})
      + (if IsRoyal(b.pieces[sq]) && ColorAt(b, sq) == c then {sq} else {})
  {
    forall t: Square | t != sq
      ensures t in RoyalSquares(b, c) <==> t in RoyalSquares(a, c)
    {
      assert PieceAt(a, t) == PieceAt(b, t);
    }
  }

  /** Valid boards with the same pieces agree on every field the pieces
      determine: the per-kind sets, the occupancy tracker (so `__eq__`'s
      occupancy test), the royal count and the incremental hash. */
  lemma Determined(a: Board, b: Board)
    requires Valid(a) && Valid(b)
    requires forall s: Square :: PieceAt(a, s) == PieceAt(b, s)
    ensures a.pieces == b.pieces
    ensures a.pieceBB == b.pieceBB
    ensures a.occupied == b.occupied
    ensures a.kingsLiving == b.kingsLiving
    ensures a.zobrist == b.zobrist
  {
    assert a.pieces == b.pieces by {
      forall s: Square
        ensures a.pieces[s] == b.pieces[s]
      {
        assert PieceAt(a, s) == PieceAt(b, s);
      }
    }
    forall k: PieceType
      ensures a.pieceBB[k] == b.pieceBB[k]
    {
    }
    forall s: Square
      ensures s in a.occupied.byColor.white <==> s in b.occupied.byColor.white
      ensures s in a.occupied.byColor.black <==> s in b.occupied.byColor.black
    {
      ColorSets(a, s);
      ColorSets(b, s);
      assert PieceAt(a, s) == PieceAt(b, s);
    }
    assert a.occupied.byColor.black == b.occupied.byColor.black;
    assert a.occupied.byColor.white == b.occupied.byColor.white;
    assert a.occupied.byColor == b.occupied.byColor;
    Occupancy.SameOccupancyIsEquality(a.occupied, b.occupied);
    assert RoyalSquares(a, Black) == RoyalSquares(b, Black);
    assert RoyalSquares(a, White) == RoyalSquares(b, White);
    assert BoardKeys(a) == BoardKeys(b);
  }

  /** The fields a board mutation primitive leaves alone. */
  predicate SameHistory(a: Board, b: Board) {
    && a.turn == b.turn && a.moveNumber == b.moveNumber
    && a.capturedStack == b.capturedStack && a.moveStack == b.moveStack
    && a.transpositions == b.transpositions
  }

  /** `remove_piece_at`: clears `sq` if it holds a piece, updating every
      derived field; with `intoHand` the piece goes into the hand of the side
      to move. */
  function RemovePieceAt(b: Board, sq: Square, intoHand: bool): (r: Board)
    requires Shaped(b)
    ensures Shaped(r) && SameHistory(b, r)
  {
    var pt := b.pieces[sq];
    if pt == NONE then b
    else
      var c := ColorAt(b, sq);
      b.(hands := if intoHand then b.hands.Set(b.turn, AddPieceIntoHand(b.hands.Get(b.turn), pt)) else b.hands,
         pieceBB := b.pieceBB[pt := Xor(b.pieceBB[pt], {sq})],
         pieces := b.pieces[sq := NONE],
         occupied := Occupancy.Ixor(b.occupied, {sq}, c, sq),
         kingsLiving := if IsRoyal(pt) then b.kingsLiving.Set(c, b.kingsLiving.Get(c) - 1) else b.kingsLiving,
         zobrist := Xor(b.zobrist, {PieceKeyIndex(pt, c, sq)}))
  }

  /** The second half of `set_piece_at`: puts `piece` on the (now empty)
      square, recording the square of a king or promoted SUI. */
  function Place(b: Board, sq: Square, piece: Piece): (r: Board)
    requires Shaped(b) && piece.pieceType != NONE
    ensures Shaped(r) && SameHistory(b, r)
  {
    var pt := piece.pieceType;
    var c := piece.color;
    b.(pieces := b.pieces[sq := pt],
       pieceBB := b.pieceBB[pt := b.pieceBB[pt] + {sq}],
       kingSquares := if pt == KING then b.kingSquares.Set(c, Some(sq)) else b.kingSquares,
       promsuiSquares := if pt == PROM_SUI then b.promsuiSquares.Set(c, Some(sq)) else b.promsuiSquares,
       kingsLiving := if IsRoyal(pt) then b.kingsLiving.Set(c, b.kingsLiving.Get(c) + 1) else b.kingsLiving,
       occupied := Occupancy.Ixor(b.occupied, {sq}, c, sq),
       zobrist := Xor(b.zobrist, {PieceKeyIndex(pt, c, sq)}))
  }

  /** The hand of the side to move after `set_piece_at` took the piece from
      it (when `fromHand`). */
  function TakeFromHand(b: Board, pt: PieceType, fromHand: bool): Result<Hand> {
    if fromHand then RemovePieceFromHand(b.hands.Get(b.turn), pt) else Ok(b.hands.Get(b.turn))
  }

  /** `set_piece_at`: takes the piece from the hand if asked (raising when it
      is not there), removes what stands on `sq` (into the hand if asked) and
      puts the piece there. */
  function SetPieceAt(b: Board, sq: Square, piece: Piece, fromHand: bool, intoHand: bool): (r: Result<Board>)
    requires Shaped(b) && piece.pieceType != NONE
    ensures !fromHand ==> r.Ok?
    ensures r.Ok? ==> Shaped(r.value) && SameHistory(b, r.value)
  {
    var hand :- TakeFromHand(b, piece.pieceType, fromHand);
    Ok(Place(RemovePieceAt(b.(hands := b.hands.Set(b.turn, hand)), sq, intoHand), sq, piece))
  }

  /** Validity depends on the pieces, the derived fields and the hands only,
      not on the side to move or the history beyond the stacks' lengths. */
  lemma ValidTransfers(a: Board, b: Board)
    requires Valid(a)
    requires a.pieceBB == b.pieceBB && a.pieces == b.pieces && a.occupied == b.occupied
    requires a.kingsLiving == b.kingsLiving && a.zobrist == b.zobrist
    requires ValidHand(b.hands.black) && ValidHand(b.hands.white)
    requires |b.capturedStack| == |b.moveStack|
    ensures Valid(b)
  {
    assert RoyalSquares(a, Black) == RoyalSquares(b, Black);
    assert RoyalSquares(a, White) == RoyalSquares(b, White);
    assert BoardKeys(a) == BoardKeys(b);
  }

  // ---- the effect of each primitive, one derived field at a time

  /** `r` is the valid board `b` becomes when `sq` is emptied, its piece
      going into the hand of the side to move when `intoHand`. */
  predicate Removed(b: Board, sq: Square, intoHand: bool, r: Board)
    requires Shaped(b) && Shaped(r)
  {
    && Valid(r)
    && PieceAt(r, sq) == None
    && SameExcept(b, r, sq)
    && r.hands == (if intoHand && b.pieces[sq] != NONE then b.hands.Set(b.turn, AddPieceIntoHand(b.hands.Get(b.turn), b.pieces[sq])) else b.hands)
    && r.kingSquares == b.kingSquares && r.promsuiSquares == b.promsuiSquares
    && SameHistory(b, r)
  }

  /** `r` is the valid board `b` becomes when `piece` is put on `sq` and
      the hands become `hands`; the royal records follow the piece. */
  predicate Settled(b: Board, sq: Square, piece: Piece, hands: ByColor<Hand>, r: Board)
    requires Shaped(b) && Shaped(r)
  {
    && Valid(r)
    && PieceAt(r, sq) == Some(piece)
    && SameExcept(b, r, sq)
    && r.hands == hands
    && r.kingSquares == (if piece.pieceType == KING then b.kingSquares.Set(piece.color, Some(sq)) else b.kingSquares)
    && r.promsuiSquares == (if piece.pieceType == PROM_SUI then b.promsuiSquares.Set(piece.color, Some(sq)) else b.promsuiSquares)
    && SameHistory(b, r)
  }

  lemma RemoveKeepsColors(b: Board, sq: Square)
    requires Shaped(b) && Occupancy.Valid(b.occupied) && b.occupied.bits == OccupiedSquares(b.pieces)
    requires b.pieces[sq] != NONE
    ensures Occupancy.Valid(RemovePieceAt(b, sq, false).occupied)
    ensures RemovePieceAt(b, sq, false).occupied.bits == OccupiedSquares(RemovePieceAt(b, sq, false).pieces)
    ensures forall t: Square :: t != sq ==> ColorAt(RemovePieceAt(b, sq, false), t) == ColorAt(b, t)
  {
    ColorSets(b, sq);
    Occupancy.IxorKeepsValid(b.occupied, ColorAt(b, sq), sq);
  }

  lemma RemoveKeepsKinds(b: Board, sq: Square)
    requires Shaped(b) && b.pieces[sq] != NONE
    requires forall k: PieceType :: b.pieceBB[k] == KindSquares(b.pieces, k)
    ensures forall k: PieceType :: RemovePieceAt(b, sq, false).pieceBB[k] == KindSquares(RemovePieceAt(b, sq, false).pieces, k)
  {
    var r := RemovePieceAt(b, sq, false);
    forall k: PieceType
      ensures r.pieceBB[k] == KindSquares(r.pieces, k)
    {
      assert b.pieceBB[k] == KindSquares(b.pieces, k);
    }
  }

  lemma RemoveLayout(b: Board, sq: Square, intoHand: bool)
    requires Valid(b)
    ensures PieceAt(RemovePieceAt(b, sq, intoHand), sq) == None
    ensures SameExcept(b, RemovePieceAt(b, sq, intoHand), sq)
  {
    if b.pieces[sq] != NONE {
      RemoveKeepsColors(b, sq);
      var r := RemovePieceAt(b, sq, intoHand);
      var r0 := RemovePieceAt(b, sq, false);
      assert r.occupied == r0.occupied && r.pieces == r0.pieces;
    }
  }

  lemma RemoveKeepsCount(b: Board, sq: Square, c: Color)
    requires Shaped(b) && b.pieces[sq] != NONE
    requires b.kingsLiving.Get(c) == |RoyalSquares(b, c)|
    requires SameExcept(b, RemovePieceAt(b, sq, false), sq)
    requires RemovePieceAt(b, sq, false).pieces[sq] == NONE
    ensures RemovePieceAt(b, sq, false).kingsLiving.Get(c) == |RoyalSquares(RemovePieceAt(b, sq, false), c)|
  {
    var r := RemovePieceAt(b, sq, false);
    RoyalsSameExcept(b, r, sq, c);
    var before := RoyalSquares(b, c);
    if IsRoyal(b.pieces[sq]) && ColorAt(b, sq) == c {
      assert sq in before;
      assert RoyalSquares(r, c) == before - {sq};
    } else {
      assert sq !in before;
      assert RoyalSquares(r, c) == before;
    }
  }

  lemma RemoveKeepsKeys(b: Board, sq: Square)
    requires Shaped(b) && b.pieces[sq] != NONE
    requires b.zobrist == BoardKeys(b)
    requires SameExcept(b, RemovePieceAt(b, sq, false), sq)
    requires RemovePieceAt(b, sq, false).pieces[sq] == NONE
    ensures RemovePieceAt(b, sq, false).zobrist == BoardKeys(RemovePieceAt(b, sq, false))
  {
    var r := RemovePieceAt(b, sq, false);
    KeysSameExcept(b, r, sq);
    assert KeyAt(r, sq) == {};
  }

  lemma RemoveKeepsCounts(b: Board, sq: Square)
    requires Valid(b) && b.pieces[sq] != NONE
    ensures RemovePieceAt(b, sq, false).kingsLiving.black == |RoyalSquares(RemovePieceAt(b, sq, false), Black)|
    ensures RemovePieceAt(b, sq, false).kingsLiving.white == |RoyalSquares(RemovePieceAt(b, sq, false), White)|
    ensures RemovePieceAt(b, sq, false).zobrist == BoardKeys(RemovePieceAt(b, sq, false))
  {
    RemoveLayout(b, sq, false);
    RemoveKeepsCount(b, sq, Black);
    RemoveKeepsCount(b, sq, White);
    RemoveKeepsKeys(b, sq);
  }

  /** Removing keeps the board valid, empties `sq`, leaves every other square,
      the royal records and the history alone, and moves the piece into the
      hand of the side to move when asked. */
  lemma RemovePieceAtEffect(b: Board, sq: Square, intoHand: bool)
    requires Valid(b)
    ensures Removed(b, sq, intoHand, RemovePieceAt(b, sq, intoHand))
  {
    RemoveLayout(b, sq, intoHand);
    if b.pieces[sq] != NONE {
      RemoveKeepsValid(b, sq, intoHand);
    }
  }

  lemma RemoveKeepsValid(b: Board, sq: Square, intoHand: bool)
    requires Valid(b) && b.pieces[sq] != NONE
    ensures Valid(RemovePieceAt(b, sq, intoHand))
  {
    var r := RemovePieceAt(b, sq, intoHand);
    var r0 := RemovePieceAt(b, sq, false);
    RemoveKeepsColors(b, sq);
    RemoveKeepsKinds(b, sq);
    RemoveKeepsCounts(b, sq);
    HandOpsKeepValid(b.hands.Get(b.turn), b.pieces[sq]);
    ValidTransfers(r0, r);
  }

  lemma PlaceKeepsColors(b: Board, sq: Square, piece: Piece)
    requires Shaped(b) && Occupancy.Valid(b.occupied) && b.occupied.bits == OccupiedSquares(b.pieces)
    requires b.pieces[sq] == NONE && piece.pieceType != NONE
    ensures Occupancy.Valid(Place(b, sq, piece).occupied)
    ensures Place(b, sq, piece).occupied.bits == OccupiedSquares(Place(b, sq, piece).pieces)
    ensures ColorAt(Place(b, sq, piece), sq) == piece.color
    ensures forall t: Square :: t != sq ==> ColorAt(Place(b, sq, piece), t) == ColorAt(b, t)
  {
    ColorSets(b, sq);
    Occupancy.IxorKeepsValid(b.occupied, piece.color, sq);
  }

  lemma PlaceKeepsKinds(b: Board, sq: Square, piece: Piece)
    requires Shaped(b) && b.pieces[sq] == NONE && piece.pieceType != NONE
    requires forall k: PieceType :: b.pieceBB[k] == KindSquares(b.pieces, k)
    ensures forall k: PieceType :: Place(b, sq, piece).pieceBB[k] == KindSquares(Place(b, sq, piece).pieces, k)
  {
    var r := Place(b, sq, piece);
    forall k: PieceType
      ensures r.pieceBB[k] == KindSquares(r.pieces, k)
    {
      assert b.pieceBB[k] == KindSquares(b.pieces, k);
    }
  }

  lemma PlaceLayout(b: Board, sq: Square, piece: Piece)
    requires Valid(b) && b.pieces[sq] == NONE && piece.pieceType != NONE
    ensures SameExcept(b, Place(b, sq, piece), sq)
    ensures PieceAt(Place(b, sq, piece), sq) == Some(piece)
  {
    PlaceKeepsColors(b, sq, piece);
  }

  lemma PlaceKeepsCount(b: Board, sq: Square, piece: Piece, c: Color)
    requires Shaped(b) && b.pieces[sq] == NONE && piece.pieceType != NONE
    requires b.kingsLiving.Get(c) == |RoyalSquares(b, c)|
    requires SameExcept(b, Place(b, sq, piece), sq)
    requires ColorAt(Place(b, sq, piece), sq) == piece.color
    ensures Place(b, sq, piece).kingsLiving.Get(c) == |RoyalSquares(Place(b, sq, piece), c)|
  {
    var r := Place(b, sq, piece);
    RoyalsSameExcept(b, r, sq, c);
    var before := RoyalSquares(b, c);
    assert sq !in before;
    assert before - {sq} == before;
    if IsRoyal(piece.pieceType) && piece.color == c {
      assert RoyalSquares(r, c) == before + {sq};
    } else {
      assert RoyalSquares(r, c) == before;
    }
  }

  lemma PlaceKeepsCounts(b: Board, sq: Square, piece: Piece)
    requires Valid(b) && b.pieces[sq] == NONE && piece.pieceType != NONE
    ensures Place(b, sq, piece).kingsLiving.black == |RoyalSquares(Place(b, sq, piece), Black)|
    ensures Place(b, sq, piece).kingsLiving.white == |RoyalSquares(Place(b, sq, piece), White)|
  {
    PlaceLayout(b, sq, piece);
    PlaceKeepsColors(b, sq, piece);
    PlaceKeepsCount(b, sq, piece, Black);
    PlaceKeepsCount(b, sq, piece, White);
  }

  lemma PlaceKeepsKeys(b: Board, sq: Square, piece: Piece)
    requires Valid(b) && b.pieces[sq] == NONE && piece.pieceType != NONE
    ensures Place(b, sq, piece).zobrist == BoardKeys(Place(b, sq, piece))
  {
    var r := Place(b, sq, piece);
    PlaceLayout(b, sq, piece);
    PlaceKeepsColors(b, sq, piece);
    KeysSameExcept(b, r, sq);
    assert KeyAt(b, sq) == {};
  }

  /** Placing on an empty square keeps the board valid, puts exactly `piece`
      there, leaves every other square and the history alone, and records
      the square of a king or promoted SUI for its side. */
  lemma PlaceEffect(b: Board, sq: Square, piece: Piece)
    requires Valid(b) && b.pieces[sq] == NONE && piece.pieceType != NONE
    ensures Valid(Place(b, sq, piece))
    ensures PieceAt(Place(b, sq, piece), sq) == Some(piece)
    ensures SameExcept(b, Place(b, sq, piece), sq)
    ensures Place(b, sq, piece).hands == b.hands
    ensures Place(b, sq, piece).kingSquares == if piece.pieceType == KING then b.kingSquares.Set(piece.color, Some(sq)) else b.kingSquares
    ensures Place(b, sq, piece).promsuiSquares == if piece.pieceType == PROM_SUI then b.promsuiSquares.Set(piece.color, Some(sq)) else b.promsuiSquares
    ensures SameHistory(b, Place(b, sq, piece))
  {
    PlaceKeepsColors(b, sq, piece);
    PlaceKeepsKinds(b, sq, piece);
    PlaceLayout(b, sq, piece);
    PlaceKeepsCounts(b, sq, piece);
    PlaceKeepsKeys(b, sq, piece);
  }

  /** Placing a piece on an empty square and removing it again gives the
      board back, apart from the royal-square record, which stays stale. */
  lemma PlaceThenRemove(b: Board, sq: Square, piece: Piece)
    requires Valid(b) && b.pieces[sq] == NONE && piece.pieceType != NONE
    ensures RemovePieceAt(Place(b, sq, piece), sq, false)
         == b.(kingSquares := Place(b, sq, piece).kingSquares, promsuiSquares := Place(b, sq, piece).promsuiSquares)
  {
    KindOnBoard(b, piece.pieceType, sq);
    ColorSets(b, sq);
    PlaceThenRemoveFields(b, sq, piece);
  }

  lemma PlaceThenRemoveFields(b: Board, sq: Square, piece: Piece)
    requires Shaped(b) && b.pieces[sq] == NONE && piece.pieceType != NONE
    requires sq !in b.pieceBB[piece.pieceType] && sq !in b.occupied.byColor.white
    ensures RemovePieceAt(Place(b, sq, piece), sq, false)
         == b.(kingSquares := Place(b, sq, piece).kingSquares, promsuiSquares := Place(b, sq, piece).promsuiSquares)
  {
    var pt := piece.pieceType;
    var r := Place(b, sq, piece);
    var back := RemovePieceAt(r, sq, false);
    assert ColorAt(r, sq) == piece.color;
    assert back.pieces == b.pieces;
    assert r.pieces[sq] == pt;
    ToggleBack(b.pieceBB[pt], sq);
    assert back.pieceBB == b.pieceBB[pt := b.pieceBB[pt]];
    assert back.occupied == Occupancy.Ixor(r.occupied, {sq}, piece.color, sq);
    Occupancy.IxorTwice(b.occupied, {sq}, piece.color, sq);
    assert back.zobrist == b.zobrist;
    assert back.kingsLiving == b.kingsLiving;
  }

  lemma ToggleBack(a: Bitboard, sq: Square)
    requires sq !in a
    ensures Xor(a + {sq}, {sq}) == a
  {
  }

  lemma KindOnBoard(b: Board, pt: PieceType, sq: Square)
    requires Valid(b) && b.pieces[sq] == NONE && pt != NONE
    ensures sq !in b.pieceBB[pt]
  {
    assert b.pieceBB[pt] == KindSquares(b.pieces, pt);
  }

  /** The hands after `set_piece_at`: the piece taken from the side to
      move's hand when asked, then what stood on `sq` added to it when asked. */
  function HandsAfterSet(b: Board, sq: Square, hand: Hand, intoHand: bool): ByColor<Hand>
    requires Shaped(b)
  {
    var h1 := b.hands.Set(b.turn, hand);
    if intoHand && b.pieces[sq] != NONE then h1.Set(b.turn, AddPieceIntoHand(hand, b.pieces[sq])) else h1
  }

  /** `set_piece_at` raises exactly when it must take a piece the hand does
      not hold. */
  lemma SetPieceAtRaises(b: Board, sq: Square, piece: Piece, fromHand: bool, intoHand: bool)
    requires Valid(b) && piece.pieceType != NONE
    ensures SetPieceAt(b, sq, piece, fromHand, intoHand).Err? <==> fromHand && HasPieceInHand(b.hands.Get(b.turn), piece.pieceType) != Ok(true)
  {
    if fromHand {
      RemoveSucceedsIffHeld(b.hands.Get(b.turn), piece.pieceType);
    }
  }

  /** Otherwise the board stays valid, `sq` holds exactly `piece`, every
      other square is unchanged and the royal records follow the piece. */
  lemma SetPieceAtEffect(b: Board, sq: Square, piece: Piece, fromHand: bool, intoHand: bool)
    requires Valid(b) && piece.pieceType != NONE
    requires SetPieceAt(b, sq, piece, fromHand, intoHand).Ok?
    ensures Settled(b, sq, piece, HandsAfterSet(b, sq, TakeFromHand(b, piece.pieceType, fromHand).value, intoHand),
                    SetPieceAt(b, sq, piece, fromHand, intoHand).value)
  {
    var taken := TakeFromHand(b, piece.pieceType, fromHand);
    HandOpsKeepValid(b.hands.Get(b.turn), piece.pieceType);
    var b1 := b.(hands := b.hands.Set(b.turn, taken.value));
    ValidTransfers(b, b1);
    var r1 := RemovePieceAt(b1, sq, intoHand);
    var r := Place(r1, sq, piece);
    assert SetPieceAt(b, sq, piece, fromHand, intoHand) == Ok(r);
    SetLayout(b, b1, r1, r, sq, piece, intoHand);
  }

  lemma SetLayout(b: Board, b1: Board, r1: Board, r: Board, sq: Square, piece: Piece, intoHand: bool)
    requires Valid(b1) && piece.pieceType != NONE && Shaped(b)
    requires b1 == b.(hands := b1.hands)
    requires r1 == RemovePieceAt(b1, sq, intoHand) && r == Place(r1, sq, piece)
    ensures Valid(r) && PieceAt(r, sq) == Some(piece) && SameExcept(b, r, sq)
    ensures r.hands == r1.hands && SameHistory(b, r)
    ensures r.kingSquares == (if piece.pieceType == KING then b.kingSquares.Set(piece.color, Some(sq)) else b.kingSquares)
    ensures r.promsuiSquares == (if piece.pieceType == PROM_SUI then b.promsuiSquares.Set(piece.color, Some(sq)) else b.promsuiSquares)
  {
    RemovePieceAtEffect(b1, sq, intoHand);
    PlaceEffect(r1, sq, piece);
    SameExceptChain(b, b1, r1, r, sq);
  }

  /** No piece of kind `k` and colour `c` stands on the board. */
  predicate Absent(b: Board, k: PieceType, c: Color)
    requires Shaped(b)
  {
    forall t: Square :: b.pieces[t] == k ==> ColorAt(b, t) != c
  }

  /** Removing a piece never untracks a royal piece. */
  lemma RemoveKeepsTracked(b: Board, sq: Square, intoHand: bool)
    requires Valid(b) && RoyalsTracked(b)
    ensures RoyalsTracked(RemovePieceAt(b, sq, intoHand))
  {
    RemovePieceAtEffect(b, sq, intoHand);
    var r := RemovePieceAt(b, sq, intoHand);
    forall t: Square
      ensures r.pieces[t] == KING ==> r.kingSquares.Get(ColorAt(r, t)) == Some(t)
      ensures r.pieces[t] == PROM_SUI ==> r.promsuiSquares.Get(ColorAt(r, t)) == Some(t)
    {
      if t != sq {
        assert PieceAt(r, t) == PieceAt(b, t);
      }
    }
  }

  /** Placing a royal piece keeps every royal piece tracked when its side has
      no other piece of that kind on the board. */
  lemma PlaceKeepsTracked(b: Board, sq: Square, piece: Piece)
    requires Valid(b) && RoyalsTracked(b) && b.pieces[sq] == NONE && piece.pieceType != NONE
    requires piece.pieceType == KING ==> Absent(b, KING, piece.color)
    requires piece.pieceType == PROM_SUI ==> Absent(b, PROM_SUI, piece.color)
    ensures RoyalsTracked(Place(b, sq, piece))
  {
    PlaceEffect(b, sq, piece);
    var r := Place(b, sq, piece);
    forall t: Square
      ensures r.pieces[t] == KING ==> r.kingSquares.Get(ColorAt(r, t)) == Some(t)
      ensures r.pieces[t] == PROM_SUI ==> r.promsuiSquares.Get(ColorAt(r, t)) == Some(t)
    {
      if t != sq {
        assert PieceAt(r, t) == PieceAt(b, t);
      }
    }
  }
}

=== FILE: geometry.dfy ===
/** Board geometry: squares, bitboards as sets of bit positions, the one-step
    shift helpers and the step-attack tables built from them. */
module Geometry {
  import opened Types

  /** A bitboard: the set of its 1-bits. Positions 0..80 are the squares;
      a shift may carry a bit past 80, as the engine's unbounded integers do. */
  type Bitboard = set<int>

  /** `file_index`: 0 is file 9, 8 is file 1. */
  function File(s: int): int {
    s % 9
  }

  /** `rank_index`: 0 is rank a (BLACK's far side), 8 is rank i. */
  function Rank(s: int): int {
    s / 9
  }

  predicate OnBoard(x: int) {
    0 <= x < 81
  }

  /** BB_ALL: every square. */
  const BB_ALL: Bitboard := set x | 0 <= x < 81

  /** BB_FILES[f]: the squares of file index `f`. */
  function FileMask(f: int): Bitboard {
    set x | 0 <= x < 81 && x % 9 == f
  }

  /** `a ^ b`: exclusive or of two bit sets. */
  function Xor(a: set<int>, b: set<int>): (r: set<int>)
    ensures forall x :: x in r <==> (x in a <==> x !in b)
  {
    (a - b) + (b - a)
  }

  /** `b << n`. */
  function Shl(b: Bitboard, n: nat): Bitboard {
    set x | x in b :: x + n
  }

  /** `b >> n`: bits below `n` fall off. */
  function Shr(b: Bitboard, n: nat): Bitboard {
    set x | x in b && x >= n :: x - n
  }

  function ShiftDown(b: Bitboard): Bitboard { Shl(b, 9) * BB_ALL }
  function Shift2Down(b: Bitboard): Bitboard { Shl(b, 18) * BB_ALL }
  function ShiftUp(b: Bitboard): Bitboard { Shr(b, 9) }
  function Shift2Up(b: Bitboard): Bitboard { Shr(b, 18) }
  function ShiftRight(b: Bitboard): Bitboard { Shl(b, 1) - FileMask(0) }
  function Shift2Right(b: Bitboard): Bitboard { Shl(b, 2) - FileMask(0) - FileMask(1) }
  function ShiftLeft(b: Bitboard): Bitboard { Shr(b, 1) - FileMask(8) }
  function Shift2Left(b: Bitboard): Bitboard { Shr(b, 2) - FileMask(8) - FileMask(7) }
  function ShiftUpLeft(b: Bitboard): Bitboard { Shr(b, 10) - FileMask(8) }
  function ShiftUpRight(b: Bitboard): Bitboard { Shr(b, 8) - FileMask(0) }
  function ShiftDownLeft(b: Bitboard): Bitboard { Shl(b, 8) - FileMask(8) }
  function ShiftDownRight(b: Bitboard): Bitboard { Shl(b, 10) - FileMask(0) }

  /** `x` is a square whose neighbour `df` files and `dr` ranks back is a
      square of `b`: the geometric meaning of shifting `b` by (df, dr). */
  predicate ArrivesFrom(x: int, df: int, dr: int, b: Bitboard) {
    && OnBoard(x)
    && 0 <= File(x) - df < 9
    && 0 <= Rank(x) - dr < 9
    && x - df - 9 * dr in b
  }

  /** A square is determined by its file and rank. */
  lemma FileRank(q: int, f: int)
    requires 0 <= f < 9
    ensures (9 * q + f) / 9 == q && (9 * q + f) % 9 == f
  {
  }

  lemma ShlMember(b: Bitboard, n: nat, y: int)
    ensures y in Shl(b, n) <==> y - n in b
  {
    if y - n in b {
      assert y == (y - n) + n;
    }
  }

  lemma ShrMember(b: Bitboard, n: nat, y: int)
    requires y >= 0
    ensures y in Shr(b, n) <==> y + n in b
  {
    if y + n in b {
      assert y == (y + n) - n;
    }
  }

  /** Stepping from `x` by (df, dr) within the board moves the file and rank by exactly that much. */
  lemma StepArith(x: int, df: int, dr: int)
    requires OnBoard(x) && 0 <= File(x) + df < 9 && 0 <= Rank(x) + dr < 9
    ensures OnBoard(x + df + 9 * dr)
    ensures File(x + df + 9 * dr) == File(x) + df
    ensures Rank(x + df + 9 * dr) == Rank(x) + dr
  {
    assert x == 9 * Rank(x) + File(x);
    assert x + df + 9 * dr == 9 * (Rank(x) + dr) + (File(x) + df);
    FileRank(Rank(x) + dr, File(x) + df);
  }

  /** Two squares with equal file and rank are equal. */
  lemma SquareByFileRank(x: int, y: int)
    requires OnBoard(x) && OnBoard(y) && File(x) == File(y) && Rank(x) == Rank(y)
    ensures x == y
  {
  }

  // ---- each shift helper, restricted to the board, moves every bit by one
  // ---- geometric step and never wraps across an edge

  lemma ShiftDownMeaning(b: Bitboard)
    requires b <= BB_ALL
    ensures forall x :: x in ShiftDown(b) <==> ArrivesFrom(x, 0, 1, b)
  {
    forall x ensures x in ShiftDown(b) <==> ArrivesFrom(x, 0, 1, b) {
      ShlMember(b, 9, x);
      if OnBoard(x) && x - 9 in b { StepArith(x - 9, 0, 1); }
    }
  }

  lemma Shift2DownMeaning(b: Bitboard)
    requires b <= BB_ALL
    ensures forall x :: x in Shift2Down(b) <==> ArrivesFrom(x, 0, 2, b)
  {
    forall x ensures x in Shift2Down(b) <==> ArrivesFrom(x, 0, 2, b) {
      ShlMember(b, 18, x);
      if OnBoard(x) && x - 18 in b { StepArith(x - 18, 0, 2); }
    }
  }

  lemma ShiftUpMeaning(b: Bitboard)
    requires b <= BB_ALL
    ensures forall x :: x in ShiftUp(b) <==> ArrivesFrom(x, 0, -1, b)
  {
    forall x ensures x in ShiftUp(b) <==> ArrivesFrom(x, 0, -1, b) {
      if x in ShiftUp(b) {
        var y :| y in b && y >= 9 && x == y - 9;
        StepArith(y, 0, -1);
      }
      if x >= 0 { ShrMember(b, 9, x); }
      if OnBoard(x) && x + 9 in b { StepArith(x + 9, 0, -1); }
    }
  }

  lemma Shift2UpMeaning(b: Bitboard)
    requires b <= BB_ALL
    ensures forall x :: x in Shift2Up(b) <==> ArrivesFrom(x, 0, -2, b)
  {
    forall x ensures x in Shift2Up(b) <==> ArrivesFrom(x, 0, -2, b) {
      if x in Shift2Up(b) {
        var y :| y in b && y >= 18 && x == y - 18;
        StepArith(y, 0, -2);
      }
      if x >= 0 { ShrMember(b, 18, x); }
      if OnBoard(x) && x + 18 in b { StepArith(x + 18, 0, -2); }
    }
  }

  lemma ShiftRightMeaning(b: Bitboard)
    requires b <= BB_ALL
    ensures forall x :: x in ShiftRight(b) * BB_ALL <==> ArrivesFrom(x, 1, 0, b)
  {
    forall x ensures x in ShiftRight(b) * BB_ALL <==> ArrivesFrom(x, 1, 0, b) {
      ShlMember(b, 1, x);
      if OnBoard(x) && x - 1 in b && File(x) != 0 { StepArith(x - 1, 1, 0); }
      if OnBoard(x) && x - 1 in b && File(x) == 0 { assert x in FileMask(0); }
    }
  }

  lemma Shift2RightMeaning(b: Bitboard)
    requires b <= BB_ALL
    ensures forall x :: x in Shift2Right(b) * BB_ALL <==> ArrivesFrom(x, 2, 0, b)
  {
    forall x ensures x in Shift2Right(b) * BB_ALL <==> ArrivesFrom(x, 2, 0, b) {
      ShlMember(b, 2, x);
      if OnBoard(x) && x - 2 in b && File(x) >= 2 { StepArith(x - 2, 2, 0); }
      if OnBoard(x) && x - 2 in b && File(x) == 0 { assert x in FileMask(0); }
      if OnBoard(x) && x - 2 in b && File(x) == 1 { assert x in FileMask(1); }
    }
  }

  lemma ShiftLeftMeaning(b: Bitboard)
    requires b <= BB_ALL
    ensures forall x :: x in ShiftLeft(b) <==> ArrivesFrom(x, -1, 0, b)
  {
    forall x ensures x in ShiftLeft(b) <==> ArrivesFrom(x, -1, 0, b) {
      if x in Shr(b, 1) {
        var y :| y in b && y >= 1 && x == y - 1;
        if File(x) == 8 {
          assert x in FileMask(8);
        } else {
          StepArith(x, 1, 0);
        }
      }
      if x >= 0 { ShrMember(b, 1, x); }
      if OnBoard(x) && x + 1 in b && File(x) != 8 { StepArith(x, 1, 0); }
    }
  }

  lemma Shift2LeftMeaning(b: Bitboard)
    requires b <= BB_ALL
    ensures forall x :: x in Shift2Left(b) <==> ArrivesFrom(x, -2, 0, b)
  {
    forall x ensures x in Shift2Left(b) <==> ArrivesFrom(x, -2, 0, b) {
      if x in Shr(b, 2) {
        var y :| y in b && y >= 2 && x == y - 2;
        if File(x) == 8 {
          assert x in FileMask(8);
        } else if File(x) == 7 {
          assert x in FileMask(7);
        } else {
          StepArith(x, 2, 0);
        }
      }
      if x >= 0 { ShrMember(b, 2, x); }
      if OnBoard(x) && x + 2 in b && File(x) < 7 { StepArith(x, 2, 0); }
    }
  }

  lemma ShiftUpLeftMeaning(b: Bitboard)
    requires b <= BB_ALL
    ensures forall x :: x in ShiftUpLeft(b) <==> ArrivesFrom(x, -1, -1, b)
  {
    forall x ensures x in ShiftUpLeft(b) <==> ArrivesFrom(x, -1, -1, b) {
      if x in Shr(b, 10) {
        var y :| y in b && y >= 10 && x == y - 10;
        if File(x) == 8 {
          assert x in FileMask(8);
        } else {
          StepArith(x, 1, 1);
        }
      }
      if x >= 0 { ShrMember(b, 10, x); }
      if OnBoard(x) && x + 10 in b && File(x) != 8 { StepArith(x, 1, 1); }
    }
  }

  lemma ShiftUpRightMeaning(b: Bitboard)
    requires b <= BB_ALL
    ensures forall x :: x in ShiftUpRight(b) <==> ArrivesFrom(x, 1, -1, b)
  {
    forall x ensures x in ShiftUpRight(b) <==> ArrivesFrom(x, 1, -1, b) {
      if x in Shr(b, 8) {
        var y :| y in b && y >= 8 && x == y - 8;
        if File(x) == 0 {
          assert x in FileMask(0);
        } else {
          StepArith(x, -1, 1);
        }
      }
      if x >= 0 { ShrMember(b, 8, x); }
      if OnBoard(x) && x + 8 in b && File(x) != 0 { StepArith(x, -1, 1); }
    }
  }

  lemma ShiftDownLeftMeaning(b: Bitboard)
    requires b <= BB_ALL
    ensures forall x :: x in ShiftDownLeft(b) * BB_ALL <==> ArrivesFrom(x, -1, 1, b)
  {
    forall x ensures x in ShiftDownLeft(b) * BB_ALL <==> ArrivesFrom(x, -1, 1, b) {
      ShlMember(b, 8, x);
      if OnBoard(x) && x - 8 in b && File(x) != 8 { StepArith(x - 8, -1, 1); }
      if OnBoard(x) && x - 8 in b && File(x) == 8 { assert x in FileMask(8); }
    }
  }

  lemma ShiftDownRightMeaning(b: Bitboard)
    requires b <= BB_ALL
    ensures forall x :: x in ShiftDownRight(b) * BB_ALL <==> ArrivesFrom(x, 1, 1, b)
  {
    forall x ensures x in ShiftDownRight(b) * BB_ALL <==> ArrivesFrom(x, 1, 1, b) {
      ShlMember(b, 10, x);
      if OnBoard(x) && x - 10 in b && File(x) != 0 { StepArith(x - 10, 1, 1); }
      if OnBoard(x) && x - 10 in b && File(x) == 0 { assert x in FileMask(0); }
    }
  }

  /** The left, up and down shifts never leave the board; the rightward ones
      can carry the last square's bit past bit 80, which is why every table
      masks with BB_ALL. */
  lemma ShiftRightCanLeaveBoard()
    ensures ShiftRight({80}) == {81}
  {
    ShlMember({80}, 1, 81);
    assert 81 !in FileMask(0);
    forall y | y in ShiftRight({80}) ensures y == 81 {
      ShlMember({80}, 1, y);
    }
  }

  /** Stepping a single square by (df, dr): the target's file and rank differ by exactly that much. */
  lemma ArrivesFromSquare(s: Square, x: int, df: int, dr: int)
    ensures ArrivesFrom(x, df, dr, {s}) <==> OnBoard(x) && File(x) - File(s) == df && Rank(x) - Rank(s) == dr
  {
    if ArrivesFrom(x, df, dr, {s}) {
      StepArith(x, -df, -dr);
    }
    if OnBoard(x) && File(x) - File(s) == df && Rank(x) - Rank(s) == dr {
      StepArith(s, df, dr);
      SquareByFileRank(x, s + df + 9 * dr);
    }
  }

  lemma ArrivesFromSquareAll(s: Square)
    ensures forall x, df, dr :: ArrivesFrom(x, df, dr, {s}) <==> OnBoard(x) && File(x) - File(s) == df && Rank(x) - Rank(s) == dr
  {
    forall x, df, dr
      ensures ArrivesFrom(x, df, dr, {s}) <==> OnBoard(x) && File(x) - File(s) == df && Rank(x) - Rank(s) == dr
    {
      ArrivesFromSquare(s, x, df, dr);
    }
  }

  // ---- step patterns, as differences (df, dr) = (file, rank) of target minus origin

  /** The rank direction a side advances in. */
  function Forward(c: Color): int {
    if c == Black then -1 else 1
  }

  predicate KingStep(df: int, dr: int) {
    -1 <= df <= 1 && -1 <= dr <= 1 && !(df == 0 && dr == 0)
  }

  predicate PawnStep(c: Color, df: int, dr: int) {
    df == 0 && dr == Forward(c)
  }

  predicate KnightStep(c: Color, df: int, dr: int) {
    (df == 1 || df == -1) && dr == 2 * Forward(c)
  }

  /** Silver: the four diagonals and straight ahead. */
  predicate SilverStep(c: Color, df: int, dr: int) {
    KingStep(df, dr) && (dr == Forward(c) || (df != 0 && dr != 0))
  }

  /** Gold: every neighbour except the two backward diagonals. */
  predicate GoldStep(c: Color, df: int, dr: int) {
    KingStep(df, dr) && (dr != -Forward(c) || df == 0)
  }

  /** Sui: every neighbour except straight back. */
  predicate SuiStep(c: Color, df: int, dr: int) {
    KingStep(df, dr) && !(df == 0 && dr == -Forward(c))
  }

  // ---- the step-attack tables, built as the engine builds them

  /** BB_PAWN_ATTACKS[c][s]. */
  function PawnAttacks(c: Color, s: Square): Bitboard {
    if c == Black then ShiftUp({s}) else ShiftDown({s})
  }

  /** BB_KNIGHT_ATTACKS[c][s]. */
  function KnightAttacks(c: Color, s: Square): Bitboard {
    if c == Black then
      (ShiftLeft(Shift2Up({s})) + ShiftRight(Shift2Up({s}))) * BB_ALL
    else
      (ShiftLeft(Shift2Down({s})) + ShiftRight(Shift2Down({s}))) * BB_ALL
  }

  /** BB_SILVER_ATTACKS[c][s]. */
  function SilverAttacks(c: Color, s: Square): Bitboard {
    var b := {s};
    if c == Black then
      (ShiftUpLeft(b) + ShiftUp(b) + ShiftUpRight(b) + ShiftDownLeft(b) + ShiftDownRight(b)) * BB_ALL
    else
      (ShiftDownLeft(b) + ShiftDown(b) + ShiftDownRight(b) + ShiftUpLeft(b) + ShiftUpRight(b)) * BB_ALL
  }

  /** BB_GOLD_ATTACKS[c][s]. */
  function GoldAttacks(c: Color, s: Square): Bitboard {
    var b := {s};
    if c == Black then
      (ShiftUpLeft(b) + ShiftUp(b) + ShiftUpRight(b) + ShiftLeft(b) + ShiftRight(b) + ShiftDown(b)) * BB_ALL
    else
      (ShiftDownLeft(b) + ShiftDown(b) + ShiftDownRight(b) + ShiftLeft(b) + ShiftRight(b) + ShiftUp(b)) * BB_ALL
  }

  /** BB_KING_ATTACKS[s]. */
  function KingAttacks(s: Square): Bitboard {
    var b := {s};
    (ShiftLeft(b) + ShiftRight(b) + ShiftUp(b) + ShiftDown(b)
     + ShiftUpLeft(b) + ShiftUpRight(b) + ShiftDownLeft(b) + ShiftDownRight(b)) * BB_ALL
  }

  /** BB_SUI_ATTACKS[c][s]. */
  function SuiAttacks(c: Color, s: Square): Bitboard {
    var b := {s};
    if c == Black then
      (ShiftLeft(b) + ShiftRight(b) + ShiftUp(b)
       + ShiftUpLeft(b) + ShiftUpRight(b) + ShiftDownLeft(b) + ShiftDownRight(b)) * BB_ALL
    else
      (ShiftLeft(b) + ShiftRight(b) + ShiftDown(b)
       + ShiftUpLeft(b) + ShiftUpRight(b) + ShiftDownLeft(b) + ShiftDownRight(b)) * BB_ALL
  }

  /** All one-step shifts of a single square, stated geometrically. */
  lemma SingleShifts(s: Square)
    ensures forall x :: x in ShiftUp({s}) <==> OnBoard(x) && File(x) == File(s) && Rank(x) - Rank(s) == -1
    ensures forall x :: x in ShiftDown({s}) <==> OnBoard(x) && File(x) == File(s) && Rank(x) - Rank(s) == 1
    ensures forall x :: x in ShiftLeft({s}) <==> OnBoard(x) && File(x) - File(s) == -1 && Rank(x) == Rank(s)
    ensures forall x :: x in ShiftRight({s}) * BB_ALL <==> OnBoard(x) && File(x) - File(s) == 1 && Rank(x) == Rank(s)
    ensures forall x :: x in ShiftUpLeft({s}) <==> OnBoard(x) && File(x) - File(s) == -1 && Rank(x) - Rank(s) == -1
    ensures forall x :: x in ShiftUpRight({s}) <==> OnBoard(x) && File(x) - File(s) == 1 && Rank(x) - Rank(s) == -1
    ensures forall x :: x in ShiftDownLeft({s}) * BB_ALL <==> OnBoard(x) && File(x) - File(s) == -1 && Rank(x) - Rank(s) == 1
    ensures forall x :: x in ShiftDownRight({s}) * BB_ALL <==> OnBoard(x) && File(x) - File(s) == 1 && Rank(x) - Rank(s) == 1
  {
    var b := {s};
    ShiftUpMeaning(b);
    ShiftDownMeaning(b);
    ShiftLeftMeaning(b);
    ShiftRightMeaning(b);
    ShiftUpLeftMeaning(b);
    ShiftUpRightMeaning(b);
    ShiftDownLeftMeaning(b);
    ShiftDownRightMeaning(b);
    ArrivesFromSquareAll(s);
  }

  /** BB_KING_ATTACKS[s] is exactly the set of squares at king distance one from `s`. */
  lemma KingAttacksMeaning(s: Square)
    ensures forall t :: t in KingAttacks(s) <==> OnBoard(t) && KingStep(File(t) - File(s), Rank(t) - Rank(s))
  {
    SingleShifts(s);
  }

  lemma PawnAttacksMeaning(c: Color, s: Square)
    ensures forall t :: t in PawnAttacks(c, s) <==> OnBoard(t) && PawnStep(c, File(t) - File(s), Rank(t) - Rank(s))
  {
    SingleShifts(s);
  }

  lemma SilverAttacksMeaning(c: Color, s: Square)
    ensures forall t :: t in SilverAttacks(c, s) <==> OnBoard(t) && SilverStep(c, File(t) - File(s), Rank(t) - Rank(s))
  {
    SingleShifts(s);
  }

  lemma GoldAttacksMeaning(c: Color, s: Square)
    ensures forall t :: t in GoldAttacks(c, s) <==> OnBoard(t) && GoldStep(c, File(t) - File(s), Rank(t) - Rank(s))
  {
    SingleShifts(s);
  }

  lemma SuiAttacksMeaning(c: Color, s: Square)
    ensures forall t :: t in SuiAttacks(c, s) <==> OnBoard(t) && SuiStep(c, File(t) - File(s), Rank(t) - Rank(s))
  {
    SingleShifts(s);
  }

  lemma KnightAttacksMeaning(c: Color, s: Square)
    ensures forall t :: t in KnightAttacks(c, s) <==> OnBoard(t) && KnightStep(c, File(t) - File(s), Rank(t) - Rank(s))
  {
    if c == Black {
      BlackKnightAttacks(s);
    } else {
      WhiteKnightAttacks(s);
    }
  }

  lemma BlackKnightAttacks(s: Square)
    ensures forall t :: t in KnightAttacks(Black, s) <==> OnBoard(t) && KnightStep(Black, File(t) - File(s), Rank(t) - Rank(s))
  {
    var m := Shift2Up({s});
    Shift2UpMeaning({s});
    assert m <= BB_ALL;
    ShiftLeftMeaning(m);
    ShiftRightMeaning(m);
    assert KnightAttacks(Black, s) == (ShiftLeft(m) + ShiftRight(m)) * BB_ALL;
    forall t ensures t in KnightAttacks(Black, s) <==> OnBoard(t) && KnightStep(Black, File(t) - File(s), Rank(t) - Rank(s)) {
      KnightTarget(s, t, m, -2);
    }
  }

  lemma WhiteKnightAttacks(s: Square)
    ensures forall t :: t in KnightAttacks(White, s) <==> OnBoard(t) && KnightStep(White, File(t) - File(s), Rank(t) - Rank(s))
  {
    var m := Shift2Down({s});
    Shift2DownMeaning({s});
    assert m <= BB_ALL;
    ShiftLeftMeaning(m);
    ShiftRightMeaning(m);
    assert KnightAttacks(White, s) == (ShiftLeft(m) + ShiftRight(m)) * BB_ALL;
    forall t ensures t in KnightAttacks(White, s) <==> OnBoard(t) && KnightStep(White, File(t) - File(s), Rank(t) - Rank(s)) {
      KnightTarget(s, t, m, 2);
    }
  }

  /** One knight target: a sideways step from the square two ranks ahead. */
  lemma KnightTarget(s: Square, t: int, m: Bitboard, dr: int)
    requires dr == 2 || dr == -2
    requires t in ShiftLeft(m) <==> ArrivesFrom(t, -1, 0, m)
    requires t in ShiftRight(m) * BB_ALL <==> ArrivesFrom(t, 1, 0, m)
    requires t + 1 in m <==> ArrivesFrom(t + 1, 0, dr, {s})
    requires t - 1 in m <==> ArrivesFrom(t - 1, 0, dr, {s})
    ensures t in (ShiftLeft(m) + ShiftRight(m)) * BB_ALL <==>
      OnBoard(t) && (File(t) - File(s) == 1 || File(t) - File(s) == -1) && Rank(t) - Rank(s) == dr
  {
    ArrivesFromSquare(s, t + 1, 0, dr);
    ArrivesFromSquare(s, t - 1, 0, dr);
    if OnBoard(t) && File(t) < 8 { StepArith(t, 1, 0); }
    if OnBoard(t) && File(t) > 0 { StepArith(t, -1, 0); }
  }
}

=== FILE: hands.dfy ===
/** Pieces in hand: a counter per side from base kind to a positive count;
    a kind whose count reaches zero is deleted from the counter. */
module Hands {
  import opened Results
  import opened Types

  type Hand = map<PieceType, int>

  /** The counter's value for `k` (zero when absent). */
  function Count(h: Hand, k: PieceType): int {
    if k in h then h[k] else 0
  }

  /** A hand holds only droppable base kinds, each with a positive count. */
  predicate ValidHand(h: Hand) {
    forall k :: k in h ==> PAWN <= k <= ROOK && h[k] > 0
  }

  /** The kind a captured piece is counted under: promoted kinds fall back to
      their base kind; `None` where the promotion-table lookup raises. */
  function HandKind(pt: PieceType): (r: Option<PieceType>)
    ensures r.None? <==> pt == SUI
    ensures pt < PROM_PAWN ==> r == Some(pt)
    ensures r.Some? ==> Promoted(r.value) == Some(pt) || r.value == pt
    ensures r.Some? ==> r.value < PROM_PAWN || r.value == SUI
  {
    if pt >= PROM_PAWN then Unpromoted(pt) else Some(pt)
  }

  /** `add_piece_into_hand` (with the default count of one). */
  function AddPieceIntoHand(h: Hand, pt: PieceType): (r: Hand)
    ensures pt == KING || pt == SUI || pt == PROM_SUI ==> r == h
    ensures pt != KING && pt != SUI && pt != PROM_SUI ==>
      HandKind(pt).Some? && Count(r, HandKind(pt).value) == Count(h, HandKind(pt).value) + 1
    ensures forall k :: k != (if HandKind(pt).Some? then HandKind(pt).value else NONE) ==> Count(r, k) == Count(h, k)
  {
    if pt == KING || pt == SUI || pt == PROM_SUI then h
    else
      var k := if pt >= PROM_PAWN then Unpromoted(pt).value else pt;
      h[k := Count(h, k) + 1]
  }

  /** `remove_piece_from_hand`: one fewer of the base kind, the entry deleted
      at zero; an error when there is none to remove. */
  function RemovePieceFromHand(h: Hand, pt: PieceType): (r: Result<Hand>)
    ensures r.Ok? ==> HandKind(pt).Some? && Count(h, HandKind(pt).value) >= 1
    ensures r.Ok? ==> Count(r.value, HandKind(pt).value) == Count(h, HandKind(pt).value) - 1
    ensures r.Ok? ==> forall k :: k != HandKind(pt).value ==> Count(r.value, k) == Count(h, k)
    ensures r.Ok? ==> HandKind(pt).value !in r.value || r.value[HandKind(pt).value] != 0
  {
    if pt >= PROM_PAWN && Unpromoted(pt).None? then Result<Hand>.Err("ValueError: the kind has no unpromoted form")
    else
      var k := if pt >= PROM_PAWN then Unpromoted(pt).value else pt;
      var n := Count(h, k) - 1;
      if n == 0 then Ok(h - {k})
      else if n < 0 then Err("ValueError: the piece is not in hand")
      else Ok(h[k := n])
  }

  /** `has_piece_in_hand`: whether the counter has an entry for the base kind. */
  function HasPieceInHand(h: Hand, pt: PieceType): (r: Result<bool>)
    ensures r.Err? <==> HandKind(pt).None?
    ensures ValidHand(h) && r.Ok? ==> (r.value <==> Count(h, HandKind(pt).value) > 0)
  {
    if pt >= PROM_PAWN && Unpromoted(pt).None? then Err("ValueError: the kind has no unpromoted form")
    else
      var k := if pt >= PROM_PAWN then Unpromoted(pt).value else pt;
      Ok(k in h)
  }

  /** Adding a captured piece keeps a hand valid; removing never breaks it. */
  lemma HandOpsKeepValid(h: Hand, pt: PieceType)
    requires ValidHand(h)
    ensures pt != NONE ==> ValidHand(AddPieceIntoHand(h, pt))
    ensures RemovePieceFromHand(h, pt).Ok? ==> ValidHand(RemovePieceFromHand(h, pt).value)
  {
  }

  /** Removal succeeds exactly when the hand holds the kind. */
  lemma RemoveSucceedsIffHeld(h: Hand, pt: PieceType)
    requires ValidHand(h)
    ensures RemovePieceFromHand(h, pt).Ok? <==> HasPieceInHand(h, pt) == Ok(true)
  {
  }

  /** Royal kinds and the SUI never enter a hand. */
  lemma RoyalsNeverInHand(h: Hand, pt: PieceType)
    requires pt == KING || pt == SUI || pt == PROM_SUI
    ensures AddPieceIntoHand(h, pt) == h
  {
  }

  /** A valid hand never holds a king, a SUI or a promoted SUI, so removing
      one fails. */
  lemma RoyalsNotRemovable(h: Hand, pt: PieceType)
    requires ValidHand(h)
    requires pt == KING || pt == SUI || pt == PROM_SUI
    ensures RemovePieceFromHand(h, pt).Err?
  {
    assert Count(h, KING) == 0 && Count(h, SUI) == 0;
  }

  /** A promoted piece is stored exactly as its base kind would be. */
  lemma PromotedStoredAsBase(h: Hand, pt: PieceType)
    requires PROM_PAWN <= pt <= PROM_ROOK
    ensures Unpromoted(pt).Some?
    ensures AddPieceIntoHand(h, pt) == AddPieceIntoHand(h, Unpromoted(pt).value)
  {
  }

  /** Adding a captured piece and removing it again restores the hand. */
  lemma AddThenRemove(h: Hand, pt: PieceType)
    requires ValidHand(h)
    requires pt != KING && pt != SUI && pt != PROM_SUI
    ensures RemovePieceFromHand(AddPieceIntoHand(h, pt), pt) == Ok(h)
  {
    var k := HandKind(pt).value;
    var h1 := AddPieceIntoHand(h, pt);
    var h2 := RemovePieceFromHand(h1, pt).value;
    assert forall j :: j in h2 <==> j in h;
    assert forall j :: j in h ==> h2[j] == h[j];
    assert h2 == h;
  }

  /** Removing a piece and adding it back restores the hand. */
  lemma RemoveThenAdd(h: Hand, pt: PieceType)
    requires ValidHand(h)
    requires RemovePieceFromHand(h, pt).Ok?
    ensures AddPieceIntoHand(RemovePieceFromHand(h, pt).value, pt) == h
  {
    var k := HandKind(pt).value;
    var h2 := AddPieceIntoHand(RemovePieceFromHand(h, pt).value, pt);
    assert forall j :: j in h2 <==> j in h;
  }
}

=== FILE: legality.dfy ===
/** Attacks on squares, check, the two illegal-move tests run after a
    trial push (`was_suicide`, `was_check_by_dropping_pawn`), the legal
    moves, and the end-of-game tests. */
module Legality {
  import opened Results
  import opened Types
  import opened Geometry
  import opened Attacks
  import opened Hands
  import opened Position
  import opened MakeMove
  import opened MoveGen

  /** `PIECE_TYPES`: every kind, in ascending order. */
  const PIECE_TYPES: seq<PieceType> := [
    PAWN, LANCE, KNIGHT, SILVER, GOLD, BISHOP, ROOK, KING,
    PROM_PAWN, PROM_LANCE, PROM_KNIGHT, PROM_SILVER, PROM_BISHOP, PROM_ROOK, SUI, PROM_SUI]

  /** `PIECE_TYPES_WITHOUT_KING`: every kind but the two royal ones that can
      be captured for a win (KING and promoted SUI). */
  const PIECE_TYPES_WITHOUT_KING: seq<PieceType> := [
    PAWN, LANCE, KNIGHT, SILVER, GOLD, BISHOP, ROOK,
    PROM_PAWN, PROM_LANCE, PROM_KNIGHT, PROM_SILVER, PROM_BISHOP, PROM_ROOK, SUI]

  /** The pieces of kind `pt` and colour `c` that reach `sq`, found as the
      engine finds them: the attacks of such a piece of the other colour
      standing on `sq`, met with the pieces of that kind and colour. */
  function Attackers(b: Board, c: Color, sq: Square, pt: PieceType): Bitboard
    requires Shaped(b)
  {
    AttacksFrom(pt, sq, b.occupied.bits, c.Opp()) * b.pieceBB[pt] * b.occupied.byColor.Get(c)
  }

  /** The loop of `is_attacked_by` over `kinds`: true at the first kind with
      an attacker. */
  function AttackedByKinds(b: Board, c: Color, sq: Square, kinds: seq<PieceType>): (r: bool)
    requires Shaped(b)
    ensures r <==> exists i :: 0 <= i < |kinds| && Attackers(b, c, sq, kinds[i]) != {}
  {
    if kinds == [] then false
    else if Attackers(b, c, sq, kinds[0]) != {} then true
    else
      var r := AttackedByKinds(b, c, sq, kinds[1..]);
      assert forall i :: 1 <= i < |kinds| ==> kinds[i] == kinds[1..][i - 1];
      r
  }

  /** `is_attacked_by`: false for a missing square. */
  function IsAttackedBy(b: Board, c: Color, square: Option<Square>, kinds: seq<PieceType>): bool
    requires Shaped(b)
  {
    square.Some? && AttackedByKinds(b, c, square.value, kinds)
  }

  /** A piece of colour `c` stands on `s` and attacks `sq`. */
  predicate AttacksSquare(b: Board, c: Color, s: Square, sq: Square)
    requires Shaped(b)
  {
    b.pieces[s] != NONE && ColorAt(b, s) == c && sq in AttacksFrom(b.pieces[s], s, b.occupied.bits, c)
  }

  /** On a valid board the attackers found from the target are exactly the
      pieces of that kind and colour whose own attacks reach it. */
  lemma AttackersMeaning(b: Board, c: Color, sq: Square, pt: PieceType, s: Square)
    requires Valid(b)
    ensures s in Attackers(b, c, sq, pt) <==> b.pieces[s] == pt && AttacksSquare(b, c, s, sq)
  {
    AttacksSymmetric(pt, s, sq, b.occupied.bits, c);
    ColorSets(b, s);
    KindOnSquare(b.pieces, pt, s, b.pieceBB[pt]);
    assert c.Opp().Opp() == c;
  }

  /** `is_attacked_by` on a valid board: some piece of colour `c` whose kind
      is listed attacks the square. */
  lemma IsAttackedByMeaning(b: Board, c: Color, sq: Square, kinds: seq<PieceType>)
    requires Valid(b)
    ensures IsAttackedBy(b, c, Some(sq), kinds) <==> exists s: Square :: b.pieces[s] in kinds && AttacksSquare(b, c, s, sq)
  {
    if IsAttackedBy(b, c, Some(sq), kinds) {
      var i :| 0 <= i < |kinds| && Attackers(b, c, sq, kinds[i]) != {};
      var s :| s in Attackers(b, c, sq, kinds[i]);
      AttackersMeaning(b, c, sq, kinds[i], s);
    }
    if exists s: Square :: b.pieces[s] in kinds && AttacksSquare(b, c, s, sq) {
      var s: Square :| b.pieces[s] in kinds && AttacksSquare(b, c, s, sq);
      var i :| 0 <= i < |kinds| && kinds[i] == b.pieces[s];
      AttackersMeaning(b, c, sq, kinds[i], s);
    }
  }

  /** `is_check`: the side to move has exactly one royal piece, and its
      recorded king or promoted-SUI square is attacked. */
  predicate IsCheck(b: Board)
    requires Shaped(b)
  {
    && b.kingsLiving.Get(b.turn) == 1
    && (|| IsAttackedBy(b, b.turn.Opp(), b.kingSquares.Get(b.turn), PIECE_TYPES)
        || IsAttackedBy(b, b.turn.Opp(), b.promsuiSquares.Get(b.turn), PIECE_TYPES))
  }

  /** `was_suicide`: the side that just moved has exactly one royal piece
      and it is attacked. */
  predicate WasSuicide(b: Board)
    requires Shaped(b)
  {
    && b.kingsLiving.Get(b.turn.Opp()) == 1
    && (|| IsAttackedBy(b, b.turn, b.kingSquares.Get(b.turn.Opp()), PIECE_TYPES)
        || IsAttackedBy(b, b.turn, b.promsuiSquares.Get(b.turn.Opp()), PIECE_TYPES))
  }

  /** The squares the royal piece on `ks` may step to: its neighbours not
      held by its own side. */
  function Escapes(b: Board, ks: Square): Bitboard
    requires Shaped(b)
  {
    AttacksFrom(KING, ks, b.occupied.bits, b.turn) - b.occupied.byColor.Get(b.turn)
  }

  /** The royal square `was_check_by_dropping_pawn` looks at: the king's,
      else the promoted SUI's. */
  function DefendedRoyal(b: Board): Option<Square> {
    if b.kingSquares.Get(b.turn).Some? then b.kingSquares.Get(b.turn)
    else b.promsuiSquares.Get(b.turn)
  }

  /** `was_check_by_dropping_pawn`, asked after the push of `m`: `m` dropped
      a pawn, the side now to move has at most one royal piece, the pawn
      attacks the royal square, every escape square is attacked, and no
      piece other than a royal one can take the pawn. */
  predicate WasCheckByDroppingPawn(b: Board, m: Move)
    requires Shaped(b)
  {
    && m.Move? && m.dropPieceType == PAWN
    && b.kingsLiving.Get(b.turn) <= 1
    && DefendedRoyal(b).Some?
    && var ks := DefendedRoyal(b).value;
    && ks in PawnAttacks(b.turn.Opp(), m.toSquare) - b.occupied.byColor.Get(b.turn.Opp())
    && (forall t :: t in Escapes(b, ks) ==> IsAttackedBy(b, b.turn.Opp(), Some(t), PIECE_TYPES))
    && !IsAttackedBy(b, b.turn, Some(m.toSquare), PIECE_TYPES_WITHOUT_KING)
  }

  /** One trial of `is_suicide_or_check_by_dropping_pawn` with the `pop`
      variant `undo`: the trial push (raising where `push` raises), the
      verdict of the two tests on the position it reaches, and the board the
      `pop` that takes the move back leaves behind (raising where that `pop`
      raises). */
  function Trial(b: Board, m: Move, undo: Undo): Result<(bool, Board)>
    requires Shaped(b) && PushRequires(b, m)
  {
    var r :- Push(b, m);
    PushLeavesPopRequires(b, m);
    var verdict := WasSuicide(r) || WasCheckByDroppingPawn(r, m);
    var popped :- PopWith(r, undo);
    Ok((verdict, popped.0))
  }

  /** `is_suicide_or_check_by_dropping_pawn` with the `pop` variant `undo`:
      the verdict of the trial. */
  function TrialTest(b: Board, m: Move, undo: Undo): Result<bool>
    requires Shaped(b) && PushRequires(b, m)
  {
    var t :- Trial(b, m, undo);
    Ok(t.0)
  }

  /** The test as the engine runs it, with its own `pop`. */
  function IsSuicideOrCheckByDroppingPawnAsWritten(b: Board, m: Move): Result<bool>
    requires Shaped(b) && PushRequires(b, m)
  {
    TrialTest(b, m, UndoAsWritten)
  }

  /** The test with the corrected `pop`; the legal moves below use it. */
  function IsSuicideOrCheckByDroppingPawn(b: Board, m: Move): Result<bool>
    requires Shaped(b) && PushRequires(b, m)
  {
    TrialTest(b, m, UndoCorrected)
  }

  // ---- legal moves

  /** A pseudo-legal move on a valid board is one `push` and `pop` can
      play and take back. */
  lemma PseudoLegalIsReversible(b: Board, m: Move)
    requires Valid(b) && m.WellFormed() && IsPseudoLegal(b, m)
    ensures Reversible(b, m)
  {
    if m.fromSquare.Some? {
      ColorSets(b, m.fromSquare.value);
      ColorSets(b, m.toSquare);
    } else {
      assert m.toSquare !in OccupiedSquares(b.pieces);
    }
  }

  /** Every generated move is well formed and pseudo-legal, so `push`
      accepts it. */
  lemma GeneratedArePushable(b: Board)
    requires Valid(b)
    ensures forall m :: m in GeneratePseudoLegalMoves(b) ==> m.WellFormed() && IsPseudoLegal(b, m) && PushRequires(b, m)
  {
    forall m | m in GeneratePseudoLegalMoves(b)
      ensures m.WellFormed() && IsPseudoLegal(b, m)
    {
      GeneratedWellFormed(b, m);
      GeneratedIffPseudoLegal(b, m);
    }
  }

  lemma GeneratedWellFormed(b: Board, m: Move)
    requires Shaped(b) && m in GeneratePseudoLegalMoves(b)
    ensures m.WellFormed()
  {
    BoardMovesMembership(b, PAWN, m);
  }

  /** The moves of `ms` whose trial push neither exposes the mover's royal
      piece nor mates by a pawn drop, in order. */
  function LegalAmong(b: Board, ms: seq<Move>): (r: seq<Move>)
    requires Shaped(b) && forall m :: m in ms ==> PushRequires(b, m)
    ensures forall m :: m in r <==> m in ms && IsSuicideOrCheckByDroppingPawn(b, m) == Ok(false)
  {
    if ms == [] then []
    else
      var rest := LegalAmong(b, ms[1..]);
      assert forall m :: m in ms <==> m == ms[0] || m in ms[1..];
      (if IsSuicideOrCheckByDroppingPawn(b, ms[0]) == Ok(false) then [ms[0]] else []) + rest
  }

  /** `generate_legal_moves` with every kind enabled. */
  function GenerateLegalMoves(b: Board): seq<Move>
    requires Valid(b)
  {
    GeneratedArePushable(b);
    LegalAmong(b, GeneratePseudoLegalMoves(b))
  }

  /** `is_legal`, with the corrected pseudo-legality test. */
  predicate IsLegal(b: Board, m: Move)
    requires Shaped(b)
  {
    IsPseudoLegal(b, m) && IsSuicideOrCheckByDroppingPawn(b, m) == Ok(false)
  }

  /** With the corrected `pop`, the trial test of a pseudo-legal move never
      raises. */
  lemma LegalityTestNeverRaises(b: Board, m: Move)
    requires Valid(b) && m.WellFormed() && IsPseudoLegal(b, m)
    ensures IsSuicideOrCheckByDroppingPawn(b, m).Ok?
  {
    PseudoLegalIsReversible(b, m);
    PopSucceedsAfterPush(b, m);
  }

  /** As the engine runs it, the trial test of a pseudo-legal move raises
      exactly when the move captures a king, SUI or promoted SUI (its `pop`
      cannot take the piece back out of a hand it never entered); otherwise
      it gives the corrected answer. */
  lemma AsWrittenLegalityTest(b: Board, m: Move)
    requires Valid(b) && m.WellFormed() && IsPseudoLegal(b, m)
    ensures IsSuicideOrCheckByDroppingPawnAsWritten(b, m).Err? <==> CapturesRoyal(b, m)
    ensures !CapturesRoyal(b, m) ==> IsSuicideOrCheckByDroppingPawnAsWritten(b, m) == IsSuicideOrCheckByDroppingPawn(b, m)
  {
    PseudoLegalIsReversible(b, m);
    PopSucceedsAfterPush(b, m);
  }

  /** A move naming both an origin and a dropped kind is not well formed:
      `is_pseudo_legal` judges it as a board move, but `push` plays it as a
      drop, so the trial test raises when the mover holds no piece of the
      dropped kind, and so does the engine's `is_legal` once its
      `is_pseudo_legal` accepts the move. */
  lemma IllFormedMoveRaises(b: Board, m: Move)
    requires Valid(b) && m.Move? && m.fromSquare.Some? && m.dropPieceType != NONE
    requires HasPieceInHand(b.hands.Get(b.turn), m.dropPieceType) != Ok(true)
    ensures !m.WellFormed() && PushRequires(b, m)
    ensures IsSuicideOrCheckByDroppingPawn(b, m).Err? && IsSuicideOrCheckByDroppingPawnAsWritten(b, m).Err?
    ensures !IsLegal(b, m)
    ensures IsPseudoLegalAsWritten(b, m) == Ok(true) ==> IsLegalAsWritten(b, m).Err?
  {
    var h := b.hands.Get(b.turn);
    assert ValidHand(h);
    RemoveSucceedsIffHeld(h, m.dropPieceType);
  }

  /** The legal-move generator makes exactly the well-formed legal moves. */
  lemma GeneratedIffLegal(b: Board, m: Move)
    requires Valid(b) && m.WellFormed()
    ensures m in GenerateLegalMoves(b) <==> IsLegal(b, m)
  {
    GeneratedArePushable(b);
    GeneratedIffPseudoLegal(b, m);
  }

  /** No well-formed move is legal. */
  ghost predicate NoMoveLegal(b: Board)
    requires Shaped(b)
  {
    forall m: Move :: m.WellFormed() ==> !IsLegal(b, m)
  }

  /** No legal move is generated exactly when no well-formed move is legal. */
  lemma NoLegalMoves(b: Board)
    requires Valid(b)
    ensures GenerateLegalMoves(b) == [] <==> NoMoveLegal(b)
  {
    var ms := GenerateLegalMoves(b);
    if ms != [] {
      GeneratedArePushable(b);
      assert ms[0] in ms;
      GeneratedIffLegal(b, ms[0]);
    } else {
      forall m: Move | m.WellFormed() ensures !IsLegal(b, m) {
        GeneratedIffLegal(b, m);
      }
      assert NoMoveLegal(b);
    }
  }

  /** `is_legal` as the engine runs it: its own `is_pseudo_legal`, then the
      trial test with its own `pop`. */
  function IsLegalAsWritten(b: Board, m: Move): Result<bool>
    requires Shaped(b)
  {
    var pseudo :- IsPseudoLegalAsWritten(b, m);
    if !pseudo then Ok(false)
    else
      var bad :- IsSuicideOrCheckByDroppingPawnAsWritten(b, m);
      Ok(!bad)
  }

  /** Away from the moves on which `is_pseudo_legal` as written errs,
      `is_legal` as the engine runs it raises exactly on a pseudo-legal
      capture of a king, SUI or promoted SUI, and otherwise answers as the
      corrected `IsLegal`. */
  lemma LegalAsWritten(b: Board, m: Move)
    requires Valid(b) && m.WellFormed()
    requires !PromotesSui(b, m) && !DropsOnOpponent(b, m) && !DropsPromotedKind(m) && !DropsSui(m)
    ensures IsLegalAsWritten(b, m).Err? <==> IsPseudoLegal(b, m) && CapturesRoyal(b, m)
    ensures IsLegalAsWritten(b, m).Ok? ==> IsLegalAsWritten(b, m).value == IsLegal(b, m)
  {
    AsWrittenAgrees(b, m);
    if IsPseudoLegal(b, m) {
      AsWrittenLegalityTest(b, m);
      LegalityTestNeverRaises(b, m);
    }
  }

  /** `next` on the engine's `generate_legal_moves` over the moves `ms`: the
      first move whose trial test (as the engine runs it) answers false,
      `None` once `ms` runs out (StopIteration), or the error of a test
      that raises before that. */
  function FirstLegalAsWritten(b: Board, ms: seq<Move>): Result<Option<Move>>
    requires Shaped(b) && forall m :: m in ms ==> PushRequires(b, m)
  {
    if ms == [] then Ok(None)
    else
      var bad :- IsSuicideOrCheckByDroppingPawnAsWritten(b, ms[0]);
      if !bad then Ok(Some(ms[0])) else FirstLegalAsWritten(b, ms[1..])
  }

  /** Some move of `ms` captures a king, SUI or promoted SUI, and no move
      before it is legal. */
  predicate RaisesBeforeLegal(b: Board, ms: seq<Move>)
    requires Shaped(b)
  {
    exists i :: 0 <= i < |ms| && CapturesRoyal(b, ms[i]) && forall j :: 0 <= j < i ==> !IsLegal(b, ms[j])
  }

  /** How the engine's trial test of `m` behaves on a pseudo-legal move: it
      raises on a capture of a king, SUI or promoted SUI and otherwise
      answers whether `m` is not legal, which the corrected test decides. */
  predicate TestBehaves(b: Board, m: Move)
    requires Shaped(b) && PushRequires(b, m)
  {
    && (IsLegal(b, m) <==> IsSuicideOrCheckByDroppingPawn(b, m) == Ok(false))
    && (if CapturesRoyal(b, m) then IsSuicideOrCheckByDroppingPawnAsWritten(b, m).Err?
        else IsSuicideOrCheckByDroppingPawnAsWritten(b, m) == Ok(!IsLegal(b, m)))
  }

  lemma PseudoLegalTestBehaves(b: Board, m: Move)
    requires Valid(b) && m.WellFormed() && IsPseudoLegal(b, m) && PushRequires(b, m)
    ensures TestBehaves(b, m)
  {
    AsWrittenLegalityTest(b, m);
    LegalityTestNeverRaises(b, m);
    BehavesByCases(b, m);
  }

  lemma BehavesByCases(b: Board, m: Move)
    requires Shaped(b) && PushRequires(b, m) && IsPseudoLegal(b, m)
    requires IsSuicideOrCheckByDroppingPawn(b, m).Ok?
    requires IsSuicideOrCheckByDroppingPawnAsWritten(b, m).Err? <==> CapturesRoyal(b, m)
    requires !CapturesRoyal(b, m) ==> IsSuicideOrCheckByDroppingPawnAsWritten(b, m) == IsSuicideOrCheckByDroppingPawn(b, m)
    ensures TestBehaves(b, m)
  {
  }

  /** Over pseudo-legal moves, the engine's walk raises exactly when it
      reaches a capture of a king, SUI or promoted SUI before any legal
      move; when it answers, it yields the first move the corrected filter
      keeps, or `None` when that filter keeps nothing. */
  lemma FirstLegalAsWrittenMeaning(b: Board, ms: seq<Move>)
    requires Valid(b) && forall m :: m in ms ==> m.WellFormed() && IsPseudoLegal(b, m) && PushRequires(b, m)
    ensures FirstLegalAsWritten(b, ms).Err? <==> RaisesBeforeLegal(b, ms)
    ensures FirstLegalAsWritten(b, ms).Ok? ==>
      FirstLegalAsWritten(b, ms).value == (if LegalAmong(b, ms) == [] then None else Some(LegalAmong(b, ms)[0]))
  {
    forall m | m in ms
      ensures TestBehaves(b, m)
    {
      PseudoLegalTestBehaves(b, m);
    }
    FirstLegalWalk(b, ms);
  }

  lemma {:induction false} FirstLegalWalk(b: Board, ms: seq<Move>)
    requires Shaped(b) && forall m :: m in ms ==> PushRequires(b, m) && TestBehaves(b, m)
    ensures FirstLegalAsWritten(b, ms).Err? <==> RaisesBeforeLegal(b, ms)
    ensures FirstLegalAsWritten(b, ms).Ok? ==>
      FirstLegalAsWritten(b, ms).value == (if LegalAmong(b, ms) == [] then None else Some(LegalAmong(b, ms)[0]))
  {
    if ms != [] {
      var rest := ms[1..];
      assert forall m :: m in rest ==> m in ms;
      assert TestBehaves(b, ms[0]);
      FirstLegalWalk(b, rest);
      if !CapturesRoyal(b, ms[0]) && !IsLegal(b, ms[0]) {
        RaisesPastSkipped(b, ms);
      } else if CapturesRoyal(b, ms[0]) {
        assert RaisesBeforeLegal(b, ms);
      } else {
        assert !RaisesBeforeLegal(b, ms);
      }
    }
  }

  /** A first move that is neither a capture of a royal piece nor legal
      does not change whether the walk raises. */
  lemma RaisesPastSkipped(b: Board, ms: seq<Move>)
    requires Shaped(b) && ms != [] && !CapturesRoyal(b, ms[0]) && !IsLegal(b, ms[0])
    ensures RaisesBeforeLegal(b, ms) <==> RaisesBeforeLegal(b, ms[1..])
  {
    var rest := ms[1..];
    if RaisesBeforeLegal(b, ms) {
      var i :| 0 <= i < |ms| && CapturesRoyal(b, ms[i]) && forall j :: 0 <= j < i ==> !IsLegal(b, ms[j]);
      assert i > 0 && rest[i - 1] == ms[i];
      assert forall j :: 0 <= j < i - 1 ==> rest[j] == ms[j + 1];
    }
    if RaisesBeforeLegal(b, rest) {
      var i :| 0 <= i < |rest| && CapturesRoyal(b, rest[i]) && forall j :: 0 <= j < i ==> !IsLegal(b, rest[j]);
      assert ms[i + 1] == rest[i];
      assert forall j :: 1 <= j < i + 1 ==> ms[j] == rest[j - 1];
    }
  }

  // ---- the trials on one board

  /** The board the trial of a SUI promotion leaves behind: the mover's
      promoted-SUI record stays on the destination. */
  function StaleRecord(b: Board, sq: Square): Board {
    b.(promsuiSquares := b.promsuiSquares.Set(b.turn, Some(sq)))
  }

  /** A move that neither moves a promoted SUI nor promotes a SUI. */
  predicate KeepsPromSuiRecords(b: Board, m: Move)
    requires Shaped(b)
  {
    !PromotesSui(b, m) && (m.Move? && m.fromSquare.Some? ==> b.pieces[m.fromSquare.value] != PROM_SUI)
  }

  /** After `m` the mover has exactly one royal piece and the opponent
      attacks `sq`. */
  predicate ExposesAfter(b: Board, m: Move, sq: Square)
    requires Shaped(b) && PushRequires(b, m)
  {
    && Push(b, m).Ok?
    && Push(b, m).value.kingsLiving.Get(b.turn) == 1
    && IsAttackedBy(Push(b, m).value, b.turn.Opp(), Some(sq), PIECE_TYPES)
  }

  /** A trial (as the engine runs it) of a pseudo-legal move that does not
      raise leaves a valid board with the same pieces, hands and king
      records, on which the same moves are pseudo-legal; only the repetition
      counts and the promoted-SUI records may differ. */
  lemma TrialKeepsBoard(b: Board, m: Move)
    requires Valid(b) && KingsTracked(b) && m.WellFormed() && IsPseudoLegal(b, m)
    ensures PushRequires(b, m)
    ensures Trial(b, m, UndoAsWritten).Ok? ==>
      var p := Trial(b, m, UndoAsWritten).value.1;
      && Valid(p) && KingsTracked(p)
      && p == b.(transpositions := p.transpositions, promsuiSquares := PromSuiAfterUndo(b, m))
      && forall m' :: IsPseudoLegal(b, m') ==> IsPseudoLegal(p, m')
  {
    PseudoLegalIsReversible(b, m);
    PopSucceedsAfterPush(b, m);
    if !CapturesRoyal(b, m) {
      PushThenPopRecords(b, m);
      var p := Trial(b, m, UndoAsWritten).value.1;
      RecordsIgnored(b, p);
    }
  }

  /** Pseudo-legality and the king records' agreement with the pieces do
      not depend on the repetition counts or the promoted-SUI records. */
  lemma RecordsIgnored(b: Board, p: Board)
    requires Shaped(b) && p == b.(transpositions := p.transpositions, promsuiSquares := p.promsuiSquares)
    ensures KingsTracked(p) == KingsTracked(b)
    ensures forall m :: IsPseudoLegal(p, m) == IsPseudoLegal(b, m)
  {
  }

  /** `list(generate_legal_moves())` as the engine runs it, and so
      `len(legal_moves)` and iteration over `legal_moves`: every trial runs
      on the board the previous trial's `pop` left, the moves whose trial
      answers false are kept in order, and the walk raises with the first
      trial that raises. */
  function LegalMovesAsWritten(b: Board, ms: seq<Move>): Result<seq<Move>>
    requires Valid(b) && KingsTracked(b)
    requires forall m :: m in ms ==> m.WellFormed() && IsPseudoLegal(b, m)
    decreases |ms|
  {
    if ms == [] then Ok([])
    else
      TrialKeepsBoard(b, ms[0]);
      var t :- Trial(b, ms[0], UndoAsWritten);
      assert forall m :: m in ms[1..] ==> m in ms;
      var rest :- LegalMovesAsWritten(t.1, ms[1..]);
      Ok((if t.0 then [] else [ms[0]]) + rest)
  }

  /** With the records kept, the engine's trial of a pseudo-legal move
      raises exactly on a capture of a king, SUI or promoted SUI; otherwise
      its verdict is the corrected test's, and it leaves the board it
      started from, except that after a SUI promotion the mover's
      promoted-SUI record stays on the destination. */
  lemma TrialRestores(b: Board, m: Move)
    requires Valid(b) && RoyalsTracked(b) && NonZeroCounts(b.transpositions)
    requires m.WellFormed() && IsPseudoLegal(b, m)
    ensures PushRequires(b, m)
    ensures Trial(b, m, UndoAsWritten).Err? <==> CapturesRoyal(b, m)
    ensures Trial(b, m, UndoAsWritten).Ok? ==>
      && IsSuicideOrCheckByDroppingPawn(b, m) == Ok(Trial(b, m, UndoAsWritten).value.0)
      && Trial(b, m, UndoAsWritten).value.1 == (if PromotesSui(b, m) then StaleRecord(b, m.toSquare) else b)
  {
    PseudoLegalIsReversible(b, m);
    PopSucceedsAfterPush(b, m);
    if !CapturesRoyal(b, m) {
      PushThenPopRecords(b, m);
      PushThenPopCounter(b, m);
      TrackedAfterUndo(b, m);
    }
  }

  /** When no trial but perhaps the last promotes a SUI, the trials on one
      board give what testing every move on the unchanged board gives: the
      walk raises exactly when some move captures a king, SUI or promoted
      SUI, and otherwise yields the moves the corrected filter keeps. */
  lemma {:induction false} LegalMovesAsWrittenAgree(b: Board, ms: seq<Move>)
    requires Valid(b) && RoyalsTracked(b) && NonZeroCounts(b.transpositions)
    requires forall m :: m in ms ==> m.WellFormed() && IsPseudoLegal(b, m)
    requires forall i :: 0 <= i < |ms| - 1 ==> !PromotesSui(b, ms[i])
    ensures KingsTracked(b) && forall m :: m in ms ==> PushRequires(b, m)
    ensures LegalMovesAsWritten(b, ms).Err? <==> exists m :: m in ms && CapturesRoyal(b, m)
    ensures LegalMovesAsWritten(b, ms).Ok? ==> LegalMovesAsWritten(b, ms).value == LegalAmong(b, ms)
  {
    if ms != [] {
      var rest := ms[1..];
      assert forall x :: x in ms <==> x == ms[0] || x in rest;
      if CapturesRoyal(b, ms[0]) {
        WalkRaisesAtRoyalCapture(b, ms);
      } else {
        WalkStep(b, ms);
        assert forall i :: 0 <= i < |rest| - 1 ==> rest[i] == ms[i + 1];
        LegalMovesAsWrittenAgree(b, rest);
      }
    }
  }

  /** The walk raises at once when its first move captures a king, SUI or
      promoted SUI. */
  lemma WalkRaisesAtRoyalCapture(b: Board, ms: seq<Move>)
    requires Valid(b) && KingsTracked(b) && forall m :: m in ms ==> m.WellFormed() && IsPseudoLegal(b, m)
    requires ms != [] && CapturesRoyal(b, ms[0])
    ensures LegalMovesAsWritten(b, ms).Err?
  {
    PseudoLegalIsReversible(b, ms[0]);
    PopSucceedsAfterPush(b, ms[0]);
  }

  /** One step of the walk past a trial that leaves the board as it was:
      the move is kept when the corrected test keeps it, and the walk goes
      on over the rest on the same board. */
  lemma WalkStep(b: Board, ms: seq<Move>)
    requires Valid(b) && RoyalsTracked(b) && NonZeroCounts(b.transpositions)
    requires forall m :: m in ms ==> m.WellFormed() && IsPseudoLegal(b, m)
    requires ms != [] && !CapturesRoyal(b, ms[0]) && (|ms| > 1 ==> !PromotesSui(b, ms[0]))
    ensures KingsTracked(b) && PushRequires(b, ms[0])
    ensures LegalMovesAsWritten(b, ms) ==
      var rest :- LegalMovesAsWritten(b, ms[1..]);
      Ok((if IsSuicideOrCheckByDroppingPawn(b, ms[0]) == Ok(false) then [ms[0]] else []) + rest)
  {
    TrialRestores(b, ms[0]);
    if |ms| > 1 {
      assert Trial(b, ms[0], UndoAsWritten).value.1 == b;
    }
  }

  /** A board move or drop that puts no promoted SUI on the board plays the
      same on a board whose mover's promoted-SUI record was moved to `sq`,
      and the record stays there. */
  lemma PushKeepsStaleRecord(b: Board, m: Move, sq: Square)
    requires Valid(b) && m.Move? && Reversible(b, m) && Arrived(b, m) != PROM_SUI
    ensures Valid(StaleRecord(b, sq)) && Reversible(StaleRecord(b, sq), m)
    ensures PushRequires(b, m) && Push(b, m).Ok? && Push(StaleRecord(b, sq), m).Ok?
    ensures var r, r2 := Push(b, m).value, Push(StaleRecord(b, sq), m).value;
      && r2.occupied == r.occupied && r2.pieceBB == r.pieceBB && r2.kingsLiving == r.kingsLiving
      && r2.turn == b.turn.Opp() && r2.promsuiSquares.Get(b.turn) == Some(sq)
  {
    var b2 := StaleRecord(b, sq);
    ValidTransfers(b, b2);
    PushedAlike(b, b2, m);
  }

  /** Two valid boards with the same pieces, hands and side to move hold the
      same pieces after the same reversible move; the second keeps its
      promoted-SUI records when the move puts no promoted SUI on the
      board. */
  lemma PushedAlike(b: Board, b2: Board, m: Move)
    requires Valid(b) && Valid(b2) && m.Move? && Reversible(b, m) && Arrived(b, m) != PROM_SUI
    requires b2.pieces == b.pieces && b2.occupied == b.occupied && b2.hands == b.hands && b2.turn == b.turn
    ensures Reversible(b2, m) && PushRequires(b, m) && Push(b, m).Ok? && Push(b2, m).Ok?
    ensures var r, r2 := Push(b, m).value, Push(b2, m).value;
      && r2.occupied == r.occupied && r2.pieceBB == r.pieceBB && r2.kingsLiving == r.kingsLiving
      && r2.turn == b.turn.Opp() && r2.promsuiSquares == b2.promsuiSquares
  {
    assert Reversible(b2, m);
    PushLayout(b, m);
    PushLayout(b2, m);
    var r, r2 := Push(b, m).value, Push(b2, m).value;
    MovedAlike(b, b2, m, r, r2);
    Determined(r2, r);
  }

  /** The piece moves of one move on two boards with the same pieces leave
      the same pieces. */
  lemma MovedAlike(b: Board, b2: Board, m: Move, r: Board, r2: Board)
    requires Valid(b) && Valid(b2) && m.Move? && Reversible(b, m) && Reversible(b2, m)
    requires b2.pieces == b.pieces && b2.occupied == b.occupied && b2.turn == b.turn
    requires Shaped(r) && Shaped(r2) && Moved(b, m, r) && Moved(b2, m, r2)
    ensures forall s: Square :: PieceAt(r2, s) == PieceAt(r, s)
    ensures Arrived(b, m) != PROM_SUI ==> r2.promsuiSquares == b2.promsuiSquares
  {
    assert Arrived(b2, m) == Arrived(b, m);
    forall s: Square
      ensures PieceAt(r2, s) == PieceAt(r, s)
    {
      assert PieceAt(b2, s) == PieceAt(b, s);
    }
  }

  /** As the engine runs it, the trial of a SUI promotion leaves the mover's
      promoted-SUI record on the destination, so a later legal move that
      leaves the mover one royal piece is refused when the opponent then
      attacks that square, though the filter that tests every move on the
      unchanged board keeps it. */
  lemma AsWrittenRefusesAfterSuiPromotion(b: Board, m: Move, m2: Move)
    requires Valid(b) && RoyalsTracked(b) && NonZeroCounts(b.transpositions)
    requires m.WellFormed() && IsPseudoLegal(b, m) && PromotesSui(b, m) && !CapturesRoyal(b, m)
    requires m2.WellFormed() && IsPseudoLegal(b, m2) && !CapturesRoyal(b, m2) && IsLegal(b, m2)
    requires KeepsPromSuiRecords(b, m2) && ExposesAfter(b, m2, m.toSquare)
    ensures KingsTracked(b) && forall x :: x in [m, m2] ==> x.WellFormed() && IsPseudoLegal(b, x) && PushRequires(b, x)
    ensures m2 in LegalAmong(b, [m, m2])
    ensures LegalMovesAsWritten(b, [m, m2]).Ok? && m2 !in LegalMovesAsWritten(b, [m, m2]).value
  {
    RoyalsTrackedKings(b);
    PairWalkable(b, m, m2);
    SuiPromotionLeavesStaleRecord(b, m);
    StaleRecordRefuses(b, m2, m.toSquare);
    WalkOfTwo(b, m, m2);
  }

  lemma PairWalkable(b: Board, m: Move, m2: Move)
    requires Shaped(b) && m.WellFormed() && IsPseudoLegal(b, m) && m2.WellFormed() && IsPseudoLegal(b, m2)
    ensures forall x :: x in [m, m2] ==> x.WellFormed() && IsPseudoLegal(b, x) && PushRequires(b, x)
  {
    assert forall x :: x in [m, m2] <==> x == m || x == m2;
  }

  /** The engine's trial of a SUI promotion that captures no royal piece
      leaves the board as it was but for the mover's promoted-SUI record,
      which stays on the destination. */
  lemma SuiPromotionLeavesStaleRecord(b: Board, m: Move)
    requires Valid(b) && RoyalsTracked(b) && NonZeroCounts(b.transpositions)
    requires m.WellFormed() && IsPseudoLegal(b, m) && PromotesSui(b, m) && !CapturesRoyal(b, m)
    ensures PushRequires(b, m) && Trial(b, m, UndoAsWritten).Ok?
    ensures Trial(b, m, UndoAsWritten).value.1 == StaleRecord(b, m.toSquare)
  {
    TrialRestores(b, m);
  }

  /** The walk over two moves: the trial of the first, then the walk over
      the second on the board that trial left. */
  lemma WalkOfTwo(b: Board, m: Move, m2: Move)
    requires Valid(b) && KingsTracked(b)
    requires forall x :: x in [m, m2] ==> x.WellFormed() && IsPseudoLegal(b, x) && PushRequires(b, x)
    ensures Trial(b, m, UndoAsWritten).Ok? ==>
      var t := Trial(b, m, UndoAsWritten).value;
      && Valid(t.1) && KingsTracked(t.1) && IsPseudoLegal(t.1, m2)
      && (LegalMovesAsWritten(t.1, [m2]) == Ok([]) ==> LegalMovesAsWritten(b, [m, m2]) == Ok(if t.0 then [] else [m]))
  {
    WalkCons(b, [m, m2]);
    assert [m, m2][1..] == [m2] && m2 in [m2];
    var v := if Trial(b, m, UndoAsWritten).Ok? && Trial(b, m, UndoAsWritten).value.0 then [] else [m];
    assert v + [] == v;
  }

  /** One step of the walk: the trial of the first move, then the walk
      over the rest on the board that trial left. */
  lemma WalkCons(b: Board, ms: seq<Move>)
    requires Valid(b) && KingsTracked(b) && forall m :: m in ms ==> m.WellFormed() && IsPseudoLegal(b, m)
    requires ms != []
    ensures PushRequires(b, ms[0])
    ensures Trial(b, ms[0], UndoAsWritten).Ok? ==>
      var t := Trial(b, ms[0], UndoAsWritten).value;
      && Valid(t.1) && KingsTracked(t.1) && (forall m :: m in ms[1..] ==> m.WellFormed() && IsPseudoLegal(t.1, m))
      && LegalMovesAsWritten(b, ms) ==
           var rest :- LegalMovesAsWritten(t.1, ms[1..]);
           Ok((if t.0 then [] else [ms[0]]) + rest)
  {
    TrialKeepsBoard(b, ms[0]);
    assert forall m :: m in ms[1..] ==> m in ms;
  }

  /** On the board a SUI promotion's trial left, with the record on `sq`,
      the trial of a move that leaves the mover one royal piece, with `sq`
      attacked by the opponent, answers that the move is not legal. */
  lemma StaleRecordRefuses(b: Board, m: Move, sq: Square)
    requires Valid(b) && RoyalsTracked(b)
    requires m.WellFormed() && IsPseudoLegal(b, m) && !CapturesRoyal(b, m)
    requires KeepsPromSuiRecords(b, m) && ExposesAfter(b, m, sq)
    ensures Valid(StaleRecord(b, sq)) && KingsTracked(StaleRecord(b, sq))
    ensures m.WellFormed() && IsPseudoLegal(StaleRecord(b, sq), m)
    ensures LegalMovesAsWritten(StaleRecord(b, sq), [m]) == Ok([])
  {
    var b2 := StaleRecord(b, sq);
    RecordsIgnored(b, b2);
    PseudoLegalIsReversible(b, m);
    ArrivesPlain(b, m);
    PushKeepsStaleRecord(b, m, sq);
    var r2 := Push(b2, m).value;
    assert IsAttackedBy(r2, r2.turn, Some(sq), PIECE_TYPES);
    assert WasSuicide(r2);
    PopSucceedsAfterPush(b2, m);
    assert Trial(b2, m, UndoAsWritten).Ok? && Trial(b2, m, UndoAsWritten).value.0;
    WalkOfOne(b2, m);
  }

  /** The walk over one move keeps it exactly when its trial answers false. */
  lemma WalkOfOne(b: Board, m: Move)
    requires Valid(b) && KingsTracked(b) && m.WellFormed() && IsPseudoLegal(b, m)
    ensures PushRequires(b, m)
    ensures Trial(b, m, UndoAsWritten).Ok? ==>
      LegalMovesAsWritten(b, [m]) == Ok(if Trial(b, m, UndoAsWritten).value.0 then [] else [m])
  {
    WalkCons(b, [m]);
    assert [m][1..] == [];
    var v := if Trial(b, m, UndoAsWritten).Ok? && Trial(b, m, UndoAsWritten).value.0 then [] else [m];
    assert v + [] == v;
  }

  /** A move that neither moves a promoted SUI nor promotes a SUI puts no
      promoted SUI on the board. */
  lemma ArrivesPlain(b: Board, m: Move)
    requires Shaped(b) && m.Move? && Reversible(b, m) && KeepsPromSuiRecords(b, m)
    ensures Arrived(b, m) != PROM_SUI
  {
    if m.dropPieceType == NONE && m.promotion {
      var pt := b.pieces[m.fromSquare.value];
      assert pt != SUI;
    }
  }

  // ---- end of game

  /** `is_checkmate`: in check with no legal move. */
  predicate IsCheckmate(b: Board)
    requires Valid(b)
  {
    IsCheck(b) && GenerateLegalMoves(b) == []
  }

  /** `is_stalemate`: not in check and no legal move. */
  predicate IsStalemate(b: Board)
    requires Valid(b)
  {
    !IsCheck(b) && GenerateLegalMoves(b) == []
  }

  /** `is_fourfold_repetition`: the current position has been reached at
      least four times. */
  predicate IsFourfoldRepetition(b: Board) {
    TCount(b.transpositions, FullHash(b)) >= 4
  }

  /** `is_game_over`: no legal move, or a fourfold repetition. */
  predicate IsGameOver(b: Board)
    requires Valid(b)
  {
    GenerateLegalMoves(b) == [] || IsFourfoldRepetition(b)
  }

  /** The game is over exactly by checkmate, stalemate or fourfold
      repetition, and checkmate and stalemate never hold together. */
  lemma GameOverCases(b: Board)
    requires Valid(b)
    ensures IsGameOver(b) <==> IsCheckmate(b) || IsStalemate(b) || IsFourfoldRepetition(b)
    ensures !(IsCheckmate(b) && IsStalemate(b))
  {
    var none := GenerateLegalMoves(b) == [];
    assert IsCheckmate(b) == (IsCheck(b) && none);
    assert IsStalemate(b) == (!IsCheck(b) && none);
  }

  /** Checkmate: in check, and no well-formed move is legal. */
  lemma CheckmateMeaning(b: Board)
    requires Valid(b)
    ensures IsCheckmate(b) <==> IsCheck(b) && NoMoveLegal(b)
  {
    NoLegalMoves(b);
  }

  /** Stalemate: not in check, and no well-formed move is legal. */
  lemma StalemateMeaning(b: Board)
    requires Valid(b)
    ensures IsStalemate(b) <==> !IsCheck(b) && NoMoveLegal(b)
  {
    NoLegalMoves(b);
  }

  /** `is_checkmate` as the engine runs it: not in check, or the walk over
      the generated moves, raising where it raises. */
  function IsCheckmateAsWritten(b: Board): Result<bool>
    requires Valid(b)
  {
    if !IsCheck(b) then Ok(false)
    else
      GeneratedArePushable(b);
      var first :- FirstLegalAsWritten(b, GeneratePseudoLegalMoves(b));
      Ok(first.None?)
  }

  /** `is_stalemate` as the engine runs it. */
  function IsStalemateAsWritten(b: Board): Result<bool>
    requires Valid(b)
  {
    if IsCheck(b) then Ok(false)
    else
      GeneratedArePushable(b);
      var first :- FirstLegalAsWritten(b, GeneratePseudoLegalMoves(b));
      Ok(first.None?)
  }

  /** `is_game_over` as the engine runs it: the walk first, then the
      repetition count. */
  function IsGameOverAsWritten(b: Board): Result<bool>
    requires Valid(b)
  {
    GeneratedArePushable(b);
    var first :- FirstLegalAsWritten(b, GeneratePseudoLegalMoves(b));
    Ok(first.None? || IsFourfoldRepetition(b))
  }

  /** The engine's walk over the generated moves raises exactly when it
      reaches a capture of a king, SUI or promoted SUI before any legal move;
      when it answers, it finds nothing exactly when no legal move is
      generated. */
  lemma GeneratedWalk(b: Board)
    requires Valid(b)
    ensures forall m :: m in GeneratePseudoLegalMoves(b) ==> PushRequires(b, m)
    ensures FirstLegalAsWritten(b, GeneratePseudoLegalMoves(b)).Err? <==> RaisesBeforeLegal(b, GeneratePseudoLegalMoves(b))
    ensures FirstLegalAsWritten(b, GeneratePseudoLegalMoves(b)).Ok? ==>
      (FirstLegalAsWritten(b, GeneratePseudoLegalMoves(b)).value.None? <==> GenerateLegalMoves(b) == [])
  {
    GeneratedArePushable(b);
    FirstLegalAsWrittenMeaning(b, GeneratePseudoLegalMoves(b));
  }

  /** The engine's `is_checkmate` raises exactly when in check and its walk
      reaches a capture of a king, SUI or promoted SUI before any legal
      move; when it answers, it answers as `IsCheckmate`. */
  lemma CheckmateAsWritten(b: Board)
    requires Valid(b)
    ensures IsCheckmateAsWritten(b).Err? <==> IsCheck(b) && RaisesBeforeLegal(b, GeneratePseudoLegalMoves(b))
    ensures IsCheckmateAsWritten(b).Ok? ==> IsCheckmateAsWritten(b).value == IsCheckmate(b)
  {
    GeneratedWalk(b);
  }

  /** The engine's `is_stalemate` raises exactly when not in check and its
      walk reaches such a capture first; when it answers, it answers as
      `IsStalemate`. */
  lemma StalemateAsWritten(b: Board)
    requires Valid(b)
    ensures IsStalemateAsWritten(b).Err? <==> !IsCheck(b) && RaisesBeforeLegal(b, GeneratePseudoLegalMoves(b))
    ensures IsStalemateAsWritten(b).Ok? ==> IsStalemateAsWritten(b).value == IsStalemate(b)
  {
    GeneratedWalk(b);
  }

  /** The engine's `is_game_over` raises exactly when its walk reaches such
      a capture first; when it answers, it answers as `IsGameOver`. */
  lemma GameOverAsWritten(b: Board)
    requires Valid(b)
    ensures IsGameOverAsWritten(b).Err? <==> RaisesBeforeLegal(b, GeneratePseudoLegalMoves(b))
    ensures IsGameOverAsWritten(b).Ok? ==> IsGameOverAsWritten(b).value == IsGameOver(b)
  {
    GeneratedWalk(b);
  }

  /** After a null move, `was_suicide` asks exactly whether the side that
      passed was in check. */
  lemma SuicideAfterPassIsCheck(b: Board)
    requires Shaped(b)
    ensures Push(b, NullMove).Ok? && (WasSuicide(Push(b, NullMove).value) <==> IsCheck(b))
  {
    var r := Push(b, NullMove).value;
    assert r.turn.Opp() == b.turn;
    assert forall c, sq, kinds :: AttackedByKinds(r, c, sq, kinds) == AttackedByKinds(b, c, sq, kinds);
  }

  /** A pawn-drop mate is a check: the dropped pawn attacks the royal
      square it names. */
  lemma PawnDropMateIsCheck(r: Board, m: Move)
    requires Valid(r) && m.Move? && r.pieces[m.toSquare] == PAWN && ColorAt(r, m.toSquare) == r.turn.Opp()
    requires r.kingsLiving.Get(r.turn) == 1 && WasCheckByDroppingPawn(r, m)
    ensures IsCheck(r)
  {
    var ks := DefendedRoyal(r).value;
    var to := m.toSquare;
    PawnAttacksMeaning(r.turn.Opp(), to);
    PawnAttacksMeaning(r.turn, ks);
    ColorSets(r, to);
    assert to in Attackers(r, r.turn.Opp(), ks, PAWN);
    assert PIECE_TYPES[0] == PAWN;
  }

  /** With no royal piece left, the side to move is never in check, and a
      pawn-drop mate can only be found through a stale king or promoted-SUI
      record: the square the rule defends holds no royal piece of that side. */
  lemma PawnDropMateWithoutRoyal(r: Board, m: Move)
    requires Valid(r) && r.kingsLiving.Get(r.turn) == 0
    ensures !IsCheck(r)
    ensures WasCheckByDroppingPawn(r, m) ==> DefendedRoyal(r).value !in RoyalSquares(r, r.turn)
  {
    assert RoyalSquares(r, r.turn) == {};
  }
}

=== FILE: makemove.dfy ===
/** Making and unmaking moves (`Board.push`, `Board.pop`) with the
    repetition counter they maintain. */
module MakeMove {
  import opened Results
  import opened Types
  import opened Hands
  import opened Zobrist
  import opened Position

  /** `zobrist_hash` of a board, with the engine's key layout (whose turn
      and hand keys collide with piece keys). */
  function FullHash(b: Board): Hash {
    PositionHash(AsWritten, b.zobrist, b.turn, b.hands.black)
  }

  /** `Counter.update` / `Counter.subtract` for one hash. The engine reads
      the counter only by indexing, where an absent hash counts zero, so a
      count brought down to zero is dropped rather than kept. */
  function Bump(t: Transpositions, h: Hash, d: int): (r: Transpositions)
    ensures forall x :: TCount(r, x) == TCount(t, x) + (if x == h then d else 0)
    ensures NonZeroCounts(t) ==> NonZeroCounts(r)
  {
    var n := TCount(t, h) + d;
    if n == 0 then t - {h} else t[h := n]
  }

  /** What `push` demands without checking: a board move's origin holds a
      piece (otherwise the engine writes the empty kind into its tables). */
  predicate PushRequires(b: Board, m: Move)
    requires Shaped(b)
  {
    m.Move? && m.dropPieceType == NONE && m.fromSquare.Some? ==> b.pieces[m.fromSquare.value] != NONE
  }

  /** The kind that stands on the destination after `push`. */
  function MovedKind(b: Board, m: Move): Result<PieceType>
    requires Shaped(b) && m.Move? && m.fromSquare.Some?
  {
    var pt := b.pieces[m.fromSquare.value];
    if !m.promotion then Ok(pt)
    else if Promoted(pt).Some? then Ok(Promoted(pt).value)
    else Err("TypeError: the kind has no promoted form")
  }

  /** The piece moves of `push`: a drop takes the piece from the hand; a
      board move lifts the piece, promotes it if asked, and captures into the
      mover's hand. */
  function PutPiece(b: Board, m: Move): (r: Result<Board>)
    requires Shaped(b) && m.Move? && PushRequires(b, m)
    ensures r.Ok? ==> Shaped(r.value) && SameHistory(b, r.value)
    ensures r.Ok? ==> r.value.pieces[m.toSquare] != NONE
  {
    if m.dropPieceType != NONE then
      SetPieceAt(b, m.toSquare, Piece(m.dropPieceType, b.turn), true, true)
    else if m.fromSquare.None? then
      Err("TypeError: a move needs an origin square or a dropped kind")
    else
      var pt :- MovedKind(b, m);
      SetPieceAt(RemovePieceAt(b, m.fromSquare.value, false), m.toSquare, Piece(pt, b.turn), false, true)
  }

  /** `push`: records the captured kind and the move, advances the move
      number, moves the piece, hands the turn over and counts the new
      position; a null move only hands the turn over. */
  function Push(b: Board, m: Move): (r: Result<Board>)
    requires Shaped(b) && PushRequires(b, m)
    ensures r.Ok? ==> Shaped(r.value)
  {
    var captured := if m.Move? then b.pieces[m.toSquare] else NONE;
    var b0 := b.(moveNumber := b.moveNumber + 1,
                 capturedStack := b.capturedStack + [captured],
                 moveStack := b.moveStack + [m]);
    if m.NullMove? then Ok(b0.(turn := b.turn.Opp()))
    else
      var placed :- PutPiece(b0, m);
      var flipped := placed.(turn := placed.turn.Opp());
      Ok(flipped.(transpositions := Bump(flipped.transpositions, FullHash(flipped), 1)))
  }

  /** How `pop` is modelled: as the engine does it, or with its two defects
      repaired (a captured king, SUI or promoted SUI is not taken back out of
      a hand it never entered; a null move is not uncounted). */
  datatype Undo = UndoAsWritten | UndoCorrected

  /** What `pop` demands without checking: the destination of the last
      (non-null) move holds a piece. */
  predicate PopRequires(b: Board)
    requires Shaped(b)
  {
    |b.moveStack| > 0 && b.moveStack[|b.moveStack| - 1].Move? ==>
      b.pieces[b.moveStack[|b.moveStack| - 1].toSquare] != NONE
  }

  /** The hand a captured piece is taken back from when undoing a capture. */
  function TakeBack(undo: Undo, h: Hand, captured: PieceType): Result<Hand> {
    if undo == UndoCorrected && (captured == KING || captured == SUI || captured == PROM_SUI) then Ok(h)
    else RemovePieceFromHand(h, captured)
  }

  /** The history half of `pop`: uncounts the current position (except,
      when corrected, after a null move), steps the move number back and
      drops the last move and captured kind. */
  function Rewind(b: Board, undo: Undo): (r: Board)
    requires |b.moveStack| > 0 && |b.capturedStack| > 0
    ensures r.moveStack == b.moveStack[..|b.moveStack| - 1] && r.capturedStack == b.capturedStack[..|b.capturedStack| - 1]
    ensures r.moveNumber == b.moveNumber - 1
    ensures r.(transpositions := b.transpositions, moveNumber := b.moveNumber,
               moveStack := b.moveStack, capturedStack := b.capturedStack) == b
  {
    var m := b.moveStack[|b.moveStack| - 1];
    b.(transpositions := if undo == UndoCorrected && m.NullMove? then b.transpositions
                         else Bump(b.transpositions, FullHash(b), -1),
       moveNumber := b.moveNumber - 1,
       moveStack := b.moveStack[..|b.moveStack| - 1],
       capturedStack := b.capturedStack[..|b.capturedStack| - 1])
  }

  /** `pop` putting the moved piece back (the turn still being the
      opponent's): the kind on the destination, unpromoted if the move
      promoted (raising if it is not a promoted kind), goes back into the
      mover's hand for a drop and onto the origin otherwise. */
  function Unmove(b: Board, m: Move): (r: Result<Board>)
    requires Shaped(b) && m.Move? && b.pieces[m.toSquare] != NONE
    ensures r.Ok? ==> Shaped(r.value) && SameHistory(b, r.value)
  {
    var pt := b.pieces[m.toSquare];
    var original :- if !m.promotion then Ok(pt)
                    else if Unpromoted(pt).Some? then Ok(Unpromoted(pt).value)
                    else Err("ValueError: the kind is not a promoted kind");
    var mover := b.turn.Opp();
    if m.fromSquare.None? then Ok(b.(hands := b.hands.Set(mover, AddPieceIntoHand(b.hands.Get(mover), original))))
    else SetPieceAt(b, m.fromSquare.value, Piece(original, mover), false, false)
  }

  /** `pop` putting the captured piece back on `to`, in the colour of the
      side that lost it, after taking it back out of the capturer's hand;
      with nothing captured it empties `to`. */
  function Uncapture(b: Board, to: Square, captured: PieceType, capturedColor: Color, undo: Undo): (r: Result<Board>)
    requires Shaped(b)
    ensures r.Ok? ==> Shaped(r.value) && SameHistory(b, r.value)
  {
    if captured == NONE then Ok(RemovePieceAt(b, to, false))
    else
      var mover := b.turn.Opp();
      var hand :- TakeBack(undo, b.hands.Get(mover), captured);
      SetPieceAt(b.(hands := b.hands.Set(mover, hand)), to, Piece(captured, capturedColor), false, false)
  }

  /** `pop`: takes the last move off the stack, uncounts the position, and
      restores the moved piece and the captured piece, handing the turn
      back. Raises on an empty stack. */
  function PopWith(b: Board, undo: Undo): (r: Result<(Board, Move)>)
    requires Shaped(b) && PopRequires(b)
    ensures r.Ok? ==> Shaped(r.value.0)
  {
    if |b.moveStack| == 0 || |b.capturedStack| == 0 then Err("IndexError: pop from an empty deque")
    else
      var m := b.moveStack[|b.moveStack| - 1];
      var captured := b.capturedStack[|b.capturedStack| - 1];
      var b0 := Rewind(b, undo);
      if m.NullMove? then Ok((b0.(turn := b.turn.Opp()), m))
      else
        var b1 :- Unmove(b0, m);
        var b2 :- Uncapture(b1, m.toSquare, captured, b.turn, undo);
        Ok((b2.(turn := b2.turn.Opp()), m))
  }

  function Pop(b: Board): (r: Result<(Board, Move)>)
    requires Shaped(b) && PopRequires(b)
    ensures r.Ok? ==> Shaped(r.value.0)
  {
    PopWith(b, UndoCorrected)
  }

  function PopAsWritten(b: Board): Result<(Board, Move)>
    requires Shaped(b) && PopRequires(b)
  {
    PopWith(b, UndoAsWritten)
  }

  // ---- push keeps the board consistent

  /** The piece moves of `push` keep the board valid and touch neither the
      side to move nor the history. */
  lemma PutPieceKeepsValid(b: Board, m: Move)
    requires Valid(b) && m.Move? && PushRequires(b, m) && PutPiece(b, m).Ok?
    ensures Valid(PutPiece(b, m).value) && SameHistory(b, PutPiece(b, m).value)
  {
    if m.dropPieceType != NONE {
      SetPieceAtEffect(b, m.toSquare, Piece(m.dropPieceType, b.turn), true, true);
    } else {
      var from := m.fromSquare.value;
      RemovePieceAtEffect(b, from, false);
      var r1 := RemovePieceAt(b, from, false);
      SetPieceAtEffect(r1, m.toSquare, Piece(MovedKind(b, m).value, b.turn), false, true);
    }
  }

  /** The board a non-null `push` produces from what its piece moves left. */
  lemma PushShape(b: Board, m: Move)
    requires Shaped(b) && PushRequires(b, m) && Push(b, m).Ok? && m.Move?
    ensures var b0 := b.(moveNumber := b.moveNumber + 1,
                         capturedStack := b.capturedStack + [b.pieces[m.toSquare]],
                         moveStack := b.moveStack + [m]);
      && PutPiece(b0, m).Ok?
      && var flipped := PutPiece(b0, m).value.(turn := PutPiece(b0, m).value.turn.Opp());
      Push(b, m).value == flipped.(transpositions := Bump(flipped.transpositions, FullHash(flipped), 1))
  {
  }

  /** After a successful `push` the destination of the move holds a piece,
      which is what `pop` needs. */
  lemma PushLeavesPopRequires(b: Board, m: Move)
    requires Shaped(b) && PushRequires(b, m) && Push(b, m).Ok?
    ensures PopRequires(Push(b, m).value)
  {
    if m.Move? {
      PushShape(b, m);
    }
  }

  lemma PushValid(b: Board, m: Move)
    requires Valid(b) && PushRequires(b, m) && Push(b, m).Ok?
    ensures Valid(Push(b, m).value)
  {
    var captured := if m.Move? then b.pieces[m.toSquare] else NONE;
    var b0 := b.(moveNumber := b.moveNumber + 1,
                 capturedStack := b.capturedStack + [captured],
                 moveStack := b.moveStack + [m]);
    ValidTransfers(b, b0);
    if m.Move? {
      PushShape(b, m);
      PutPieceKeepsValid(b0, m);
      var placed := PutPiece(b0, m).value;
      ValidTransfers(placed, Push(b, m).value);
    } else {
      ValidTransfers(b0, Push(b, m).value);
    }
  }

  /** Every successful `push` keeps the board valid, hands the turn over,
      advances the move number, records the move and the captured kind, and
      counts the new position once (a null move counts nothing). */
  lemma PushKeepsValid(b: Board, m: Move)
    requires Valid(b) && PushRequires(b, m) && Push(b, m).Ok?
    ensures Valid(Push(b, m).value)
    ensures Push(b, m).value.turn == b.turn.Opp()
    ensures Push(b, m).value.moveNumber == b.moveNumber + 1
    ensures Push(b, m).value.moveStack == b.moveStack + [m]
    ensures Push(b, m).value.capturedStack == b.capturedStack + [if m.Move? then b.pieces[m.toSquare] else NONE]
    ensures forall x :: (TCount(Push(b, m).value.transpositions, x)
      == TCount(b.transpositions, x) + (if m.Move? && x == FullHash(Push(b, m).value) then 1 else 0))
  {
    PushValid(b, m);
    if m.Move? {
      PushShape(b, m);
      var b0 := b.(moveNumber := b.moveNumber + 1,
                   capturedStack := b.capturedStack + [b.pieces[m.toSquare]],
                   moveStack := b.moveStack + [m]);
      ValidTransfers(b, b0);
      PutPieceKeepsValid(b0, m);
    }
  }

  // ---- pop undoes push

  /** The moves `push` can take back without loss: a drop of a base kind held
      in hand onto an empty square, or a move of the side to move's piece to
      another square not holding its own piece, promoting only a kind that
      has a promoted form. Every pseudo-legal move is one. */
  predicate Reversible(b: Board, m: Move)
    requires Shaped(b)
  {
    match m
    case NullMove => true
    case Move(from, to, promotion, drop) =>
      if drop != NONE then
        && from.None? && !promotion && PAWN <= drop <= ROOK
        && b.pieces[to] == NONE
        && HasPieceInHand(b.hands.Get(b.turn), drop) == Ok(true)
      else
        && from.Some? && from.value != to
        && b.pieces[from.value] != NONE && ColorAt(b, from.value) == b.turn
        && (b.pieces[to] != NONE ==> ColorAt(b, to) != b.turn)
        && (promotion ==> Promoted(b.pieces[from.value]).Some?)
  }

  /** The kind arriving on the destination of a reversible move. */
  function Arrived(b: Board, m: Move): (r: PieceType)
    requires Shaped(b) && m.Move? && Reversible(b, m)
    ensures r != NONE
  {
    if m.dropPieceType != NONE then m.dropPieceType
    else
      var pt := b.pieces[m.fromSquare.value];
      if m.promotion then Promoted(pt).value else pt
  }

  /** The hands after a reversible move: a dropped piece leaves the mover's
      hand, a captured piece enters it. */
  function HandsAfterPush(b: Board, m: Move): ByColor<Hand>
    requires Valid(b) && m.Move? && Reversible(b, m)
  {
    var h := b.hands.Get(b.turn);
    if m.dropPieceType != NONE then
      RemoveSucceedsIffHeld(h, m.dropPieceType);
      b.hands.Set(b.turn, RemovePieceFromHand(h, m.dropPieceType).value)
    else if b.pieces[m.toSquare] != NONE then b.hands.Set(b.turn, AddPieceIntoHand(h, b.pieces[m.toSquare]))
    else b.hands
  }

  /** `r` holds the pieces, hands and royal records `b` has after the piece
      moves of `m`: the destination holds the mover's arriving piece, the
      origin is empty, every other square is as before, and the royal
      records follow the arriving piece. */
  predicate Moved(b: Board, m: Move, r: Board)
    requires Valid(b) && Shaped(r) && m.Move? && Reversible(b, m)
  {
    && (forall t: Square :: PieceAt(r, t) ==
          if t == m.toSquare then Some(Piece(Arrived(b, m), b.turn))
          else if m.fromSquare == Some(t) then None
          else PieceAt(b, t))
    && r.hands == HandsAfterPush(b, m)
    && r.kingSquares == (if Arrived(b, m) == KING then b.kingSquares.Set(b.turn, Some(m.toSquare)) else b.kingSquares)
    && r.promsuiSquares == (if Arrived(b, m) == PROM_SUI then b.promsuiSquares.Set(b.turn, Some(m.toSquare)) else b.promsuiSquares)
  }

  /** The piece moves of a reversible move: the destination holds the
      mover's arriving piece, the origin is empty, every other square is as
      before, and the royal records follow the arriving piece. */
  lemma PutPieceLayout(b: Board, m: Move)
    requires Valid(b) && m.Move? && Reversible(b, m)
    ensures PushRequires(b, m) && PutPiece(b, m).Ok?
    ensures Moved(b, m, PutPiece(b, m).value)
  {
    if m.dropPieceType != NONE {
      PutDropLayout(b, m);
    } else {
      PutBoardLayout(b, m);
    }
  }

  lemma PutDropLayout(b: Board, m: Move)
    requires Valid(b) && m.Move? && Reversible(b, m) && m.dropPieceType != NONE
    ensures PutPiece(b, m).Ok? && Moved(b, m, PutPiece(b, m).value)
  {
    var to := m.toSquare;
    var piece := Piece(m.dropPieceType, b.turn);
    RemoveSucceedsIffHeld(b.hands.Get(b.turn), m.dropPieceType);
    SetPieceAtEffect(b, to, piece, true, true);
    var r := SetPieceAt(b, to, piece, true, true).value;
    assert PutPiece(b, m) == Ok(r);
    DropComposes(b, m, r);
  }

  /** Setting the dropped piece on the destination, taking it from the
      hand, is the drop. */
  lemma DropComposes(b: Board, m: Move, r: Board)
    requires Valid(b) && m.Move? && Reversible(b, m) && m.dropPieceType != NONE && Shaped(r)
    requires TakeFromHand(b, m.dropPieceType, true).Ok?
    requires Settled(b, m.toSquare, Piece(m.dropPieceType, b.turn),
                     HandsAfterSet(b, m.toSquare, TakeFromHand(b, m.dropPieceType, true).value, true), r)
    ensures Moved(b, m, r)
  {
    StepLayout(b, r, m.toSquare, Piece(m.dropPieceType, b.turn));
  }

  lemma PutBoardLayout(b: Board, m: Move)
    requires Valid(b) && m.Move? && Reversible(b, m) && m.dropPieceType == NONE
    ensures PutPiece(b, m).Ok? && Moved(b, m, PutPiece(b, m).value)
  {
    var to, from := m.toSquare, m.fromSquare.value;
    var piece := Piece(Arrived(b, m), b.turn);
    RemovePieceAtEffect(b, from, false);
    var r1 := RemovePieceAt(b, from, false);
    SetPieceAtEffect(r1, to, piece, false, true);
    var r := SetPieceAt(r1, to, piece, false, true).value;
    assert PutPiece(b, m) == Ok(r);
    BoardMoveComposes(b, m, r1, r);
  }

  /** Emptying the origin and then setting the arriving piece on the
      destination, capturing into the hand, is the board move. */
  lemma BoardMoveComposes(b: Board, m: Move, r1: Board, r: Board)
    requires Valid(b) && m.Move? && Reversible(b, m) && m.dropPieceType == NONE && Shaped(r1) && Shaped(r)
    requires Removed(b, m.fromSquare.value, false, r1)
    requires Settled(r1, m.toSquare, Piece(Arrived(b, m), b.turn), HandsAfterSet(r1, m.toSquare, r1.hands.Get(r1.turn), true), r)
    ensures Moved(b, m, r)
  {
    var to, from := m.toSquare, m.fromSquare.value;
    TwoStepLayout(b, r1, r, from, to, Piece(Arrived(b, m), b.turn));
    assert r1.pieces[to] == b.pieces[to] by {
      assert PieceAt(r1, to) == PieceAt(b, to);
    }
  }

  /** `r` is what a reversible non-null move `m` makes of `b`. */
  predicate PushedFrom(b: Board, m: Move, r: Board)
    requires Valid(b) && m.Move? && Reversible(b, m)
  {
    && Valid(r)
    && r.turn == b.turn.Opp() && r.moveNumber == b.moveNumber + 1
    && r.moveStack == b.moveStack + [m] && r.capturedStack == b.capturedStack + [b.pieces[m.toSquare]]
    && Moved(b, m, r)
  }

  /** A reversible move goes through `push`, moving exactly its piece. */
  lemma PushLayout(b: Board, m: Move)
    requires Valid(b) && m.Move? && Reversible(b, m)
    ensures PushRequires(b, m) && Push(b, m).Ok?
    ensures PushedFrom(b, m, Push(b, m).value)
    ensures forall x :: (TCount(Push(b, m).value.transpositions, x)
      == TCount(b.transpositions, x) + (if x == FullHash(Push(b, m).value) then 1 else 0))
  {
    var b0 := b.(moveNumber := b.moveNumber + 1,
                 capturedStack := b.capturedStack + [b.pieces[m.toSquare]],
                 moveStack := b.moveStack + [m]);
    assert Valid(b0) && Reversible(b0, m) by {
      ValidTransfers(b, b0);
    }
    assert PutPiece(b0, m).Ok? && Moved(b0, m, PutPiece(b0, m).value) by {
      PutPieceLayout(b0, m);
    }
    var placed := PutPiece(b0, m).value;
    assert Push(b, m).Ok? && Push(b, m).value.(transpositions := placed.transpositions, turn := placed.turn) == placed by {
      PushShape(b, m);
    }
    PushKeepsValid(b, m);
    MovedIgnoresHistory(b, m, b0, placed, Push(b, m).value);
  }

  /** The layout of a move depends on neither the history nor the side to
      move of the boards compared. */
  lemma MovedIgnoresHistory(b: Board, m: Move, b0: Board, placed: Board, r: Board)
    requires Valid(b) && m.Move? && Reversible(b, m) && Shaped(placed)
    requires b0 == b.(moveNumber := b0.moveNumber, capturedStack := b0.capturedStack, moveStack := b0.moveStack)
    requires Valid(b0) && Reversible(b0, m) && Moved(b0, m, placed)
    requires r.(transpositions := placed.transpositions, turn := placed.turn) == placed
    ensures Moved(b, m, r)
  {
    assert Arrived(b0, m) == Arrived(b, m);
    assert HandsAfterPush(b0, m) == HandsAfterPush(b, m);
    forall t: Square
      ensures PieceAt(r, t) == PieceAt(placed, t)
      ensures PieceAt(b0, t) == PieceAt(b, t)
    {
    }
  }

  /** The move changes nothing of the board that `pop` restores, apart from
      the promoted-SUI records, which follow the promoted SUIs `pop` puts
      back. */
  predicate Undone(b: Board, m: Move, p: Board)
    requires Shaped(b) && Shaped(p) && m.Move?
  {
    && (forall t: Square :: PieceAt(p, t) == PieceAt(b, t))
    && p.hands == b.hands && p.turn == b.turn && p.moveNumber == b.moveNumber
    && p.moveStack == b.moveStack && p.capturedStack == b.capturedStack
    && p.kingSquares == b.kingSquares
    && p.promsuiSquares == PromSuiAfterUndo(b, m)
  }

  /** A board move promoting a SUI. */
  predicate SuiPromotion(b: Board, m: Move)
    requires Shaped(b) && m.Move?
  {
    m.promotion && m.fromSquare.Some? && b.pieces[m.fromSquare.value] == SUI
  }

  /** The promoted-SUI records once `pop` has undone `m`. Only
      `set_piece_at` writes a record, wherever it puts a promoted SUI: a
      promoted SUI that moved is recorded on its origin again, a captured
      one put back is recorded on the destination, and after a SUI
      promotion the record stays on the destination, because the piece put
      back on the origin is a plain SUI. */
  function PromSuiAfterUndo(b: Board, m: Move): ByColor<Option<Square>>
    requires Shaped(b) && m.Move?
  {
    if m.fromSquare.None? then b.promsuiSquares
    else
      var c, from, to := b.turn, m.fromSquare.value, m.toSquare;
      var mover := if SuiPromotion(b, m) then b.promsuiSquares.Set(c, Some(to))
                   else if b.pieces[from] == PROM_SUI then b.promsuiSquares.Set(c, Some(from))
                   else b.promsuiSquares;
      if b.pieces[to] == PROM_SUI then mover.Set(c.Opp(), Some(to)) else mover
  }

  /** With every royal piece recorded, only a SUI promotion moves a
      promoted-SUI record for good. */
  lemma TrackedAfterUndo(b: Board, m: Move)
    requires Valid(b) && RoyalsTracked(b) && m.Move? && Reversible(b, m)
    ensures PromSuiAfterUndo(b, m) == (if SuiPromotion(b, m) then b.promsuiSquares.Set(b.turn, Some(m.toSquare)) else b.promsuiSquares)
  {
    if m.fromSquare.Some? {
      var c, from, to := b.turn, m.fromSquare.value, m.toSquare;
      assert ColorAt(b, from) == c;
      if b.pieces[from] == PROM_SUI {
        assert b.promsuiSquares.Get(c) == Some(from);
        assert b.promsuiSquares.Set(c, Some(from)) == b.promsuiSquares;
      }
      if b.pieces[to] == PROM_SUI {
        ColorSets(b, to);
        assert ColorAt(b, to) == c.Opp();
        assert b.promsuiSquares.Get(c.Opp()) == Some(to);
      }
    }
  }

  /** After a reversible push, rewinding the history gives back `b`'s
      history, uncounts the reached position, and keeps the pieces. */
  lemma RewindAfterPush(b: Board, m: Move, r: Board)
    requires Valid(b) && m.Move? && Reversible(b, m) && PushedFrom(b, m, r)
    ensures |r.moveStack| > 0 && r.moveStack[|r.moveStack| - 1] == m
    ensures |r.capturedStack| > 0 && r.capturedStack[|r.capturedStack| - 1] == b.pieces[m.toSquare]
    ensures PopRequires(r)
    ensures var b0 := Rewind(r, UndoCorrected);
      && Valid(b0) && Moved(b, m, b0) && b0.turn == b.turn.Opp()
      && b0.moveNumber == b.moveNumber && b0.moveStack == b.moveStack && b0.capturedStack == b.capturedStack
      && (forall x :: TCount(b0.transpositions, x) == TCount(r.transpositions, x) - (if x == FullHash(r) then 1 else 0))
  {
    assert r.moveStack[..|r.moveStack| - 1] == b.moveStack;
    assert r.capturedStack[..|r.capturedStack| - 1] == b.capturedStack;
    var b0 := Rewind(r, UndoCorrected);
    ValidTransfers(r, b0);
    forall t: Square
      ensures PieceAt(b0, t) == PieceAt(r, t)
    {
    }
    assert PieceAt(r, m.toSquare).Some?;
  }

  /** Undoing a drop puts the dropped piece back into the mover's hand. */
  lemma UnmoveDrop(b: Board, m: Move, b0: Board)
    requires Valid(b) && m.Move? && Reversible(b, m) && m.dropPieceType != NONE
    requires Valid(b0) && Moved(b, m, b0) && b0.turn == b.turn.Opp()
    ensures b0.pieces[m.toSquare] != NONE
    ensures Unmove(b0, m) == Ok(b0.(hands := b.hands))
    ensures Valid(b0.(hands := b.hands))
  {
    var c, d := b.turn, m.dropPieceType;
    assert PieceAt(b0, m.toSquare) == Some(Piece(d, c));
    RemoveSucceedsIffHeld(b.hands.Get(c), d);
    RemoveThenAdd(b.hands.Get(c), d);
    assert b0.hands.Set(c, AddPieceIntoHand(b0.hands.Get(c), d)) == b.hands;
    ValidTransfers(b0, b0.(hands := b.hands));
  }

  /** Undoing a board move sets the mover's original piece back on the
      origin (the promoted kind is unpromoted back to it). */
  lemma UnmoveBoard(b: Board, m: Move, b0: Board)
    requires Valid(b) && m.Move? && Reversible(b, m) && m.dropPieceType == NONE
    requires Valid(b0) && Moved(b, m, b0) && b0.turn == b.turn.Opp()
    ensures b0.pieces[m.toSquare] != NONE && Unmove(b0, m).Ok?
    ensures Settled(b0, m.fromSquare.value, Piece(b.pieces[m.fromSquare.value], b.turn), b0.hands, Unmove(b0, m).value)
  {
    var from := m.fromSquare.value;
    var piece := Piece(b.pieces[from], b.turn);
    assert PieceAt(b0, m.toSquare) == Some(Piece(Arrived(b, m), b.turn));
    if m.promotion {
      UnpromotedInvertsPromoted(Arrived(b, m), b.pieces[from]);
    }
    assert Unmove(b0, m) == SetPieceAt(b0, from, piece, false, false);
    SetPieceAtEffect(b0, from, piece, false, false);
    assert HandsAfterSet(b0, from, b0.hands.Get(b0.turn), false) == b0.hands;
  }

  /** With nothing captured, `pop` empties the destination. */
  lemma UncaptureQuiet(b1: Board, to: Square, col: Color)
    requires Valid(b1)
    ensures Uncapture(b1, to, NONE, col, UndoCorrected) == Ok(RemovePieceAt(b1, to, false))
    ensures Removed(b1, to, false, RemovePieceAt(b1, to, false))
  {
    RemovePieceAtEffect(b1, to, false);
  }

  /** A captured piece is taken back out of the capturer's hand (a royal
      piece or a SUI never entered it) and set back on the destination. */
  lemma UncaptureTaken(b1: Board, to: Square, captured: PieceType, col: Color, h: Hand)
    requires Valid(b1) && captured != NONE && b1.turn == col
    requires ValidHand(h) && b1.hands.Get(col.Opp()) == AddPieceIntoHand(h, captured)
    ensures Uncapture(b1, to, captured, col, UndoCorrected).Ok?
    ensures var b1h := b1.(hands := b1.hands.Set(col.Opp(), h));
      && Valid(b1h)
      && Settled(b1h, to, Piece(captured, col), b1h.hands, Uncapture(b1, to, captured, col, UndoCorrected).value)
  {
    if captured == KING || captured == SUI || captured == PROM_SUI {
      RoyalsNeverInHand(h, captured);
    } else {
      AddThenRemove(h, captured);
    }
    var b1h := b1.(hands := b1.hands.Set(col.Opp(), h));
    ValidTransfers(b1, b1h);
    assert Uncapture(b1, to, captured, col, UndoCorrected) == SetPieceAt(b1h, to, Piece(captured, col), false, false);
    SetPieceAtEffect(b1h, to, Piece(captured, col), false, false);
    assert HandsAfterSet(b1h, to, b1h.hands.Get(b1h.turn), false) == b1h.hands;
  }

  /** Rewound history and the restoring steps after a drop give back `b`. */
  lemma DropUndone(b: Board, m: Move, b0: Board, b2: Board, p: Board)
    requires Valid(b) && m.Move? && Reversible(b, m) && m.dropPieceType != NONE
    requires Shaped(b0) && Moved(b, m, b0)
    requires b0.moveNumber == b.moveNumber && b0.moveStack == b.moveStack && b0.capturedStack == b.capturedStack
    requires Shaped(b2) && Removed(b0.(hands := b.hands), m.toSquare, false, b2)
    requires p == b2.(turn := b.turn)
    ensures Valid(p) && Undone(b, m, p)
  {
    ValidTransfers(b2, p);
    var b1 := b0.(hands := b.hands);
    forall t: Square
      ensures PieceAt(p, t) == PieceAt(b, t)
    {
      if t != m.toSquare {
        assert PieceAt(b2, t) == PieceAt(b1, t);
        assert PieceAt(b1, t) == PieceAt(b0, t);
      }
    }
  }

  /** The king records after setting the mover's piece back on the origin
      are `b`'s; the mover's promoted-SUI record follows the piece it put
      back. */
  lemma UnmovedRoyals(b: Board, m: Move, b0: Board, b1: Board)
    requires Valid(b) && KingsTracked(b) && m.Move? && Reversible(b, m) && m.dropPieceType == NONE
    requires Shaped(b0) && Moved(b, m, b0)
    requires Shaped(b1) && Settled(b0, m.fromSquare.value, Piece(b.pieces[m.fromSquare.value], b.turn), b0.hands, b1)
    ensures b1.kingSquares == b.kingSquares
    ensures b1.promsuiSquares == (if SuiPromotion(b, m) then b.promsuiSquares.Set(b.turn, Some(m.toSquare))
                                  else if b.pieces[m.fromSquare.value] == PROM_SUI then b.promsuiSquares.Set(b.turn, m.fromSquare)
                                  else b.promsuiSquares)
  {
    var from, c := m.fromSquare.value, b.turn;
    var pt := b.pieces[from];
    assert ColorAt(b, from) == c;
    if pt == KING {
      assert b.kingSquares.Get(c) == Some(from);
      assert b.kingSquares.Set(c, Some(m.toSquare)).Set(c, Some(from)) == b.kingSquares;
    }
    if pt == PROM_SUI {
      assert b.promsuiSquares.Set(c, Some(m.toSquare)).Set(c, Some(from)) == b.promsuiSquares.Set(c, Some(from));
    }
  }

  /** Rewound history and the restoring steps after a quiet board move give
      back `b`. */
  lemma BoardUndoneQuiet(b: Board, m: Move, b0: Board, b1: Board, b2: Board, p: Board)
    requires Valid(b) && KingsTracked(b) && m.Move? && Reversible(b, m) && m.dropPieceType == NONE
    requires b.pieces[m.toSquare] == NONE
    requires Shaped(b0) && Moved(b, m, b0)
    requires b0.moveNumber == b.moveNumber && b0.moveStack == b.moveStack && b0.capturedStack == b.capturedStack
    requires Shaped(b1) && Settled(b0, m.fromSquare.value, Piece(b.pieces[m.fromSquare.value], b.turn), b0.hands, b1)
    requires Shaped(b2) && Removed(b1, m.toSquare, false, b2)
    requires p == b2.(turn := b.turn)
    ensures Valid(p) && Undone(b, m, p)
  {
    ValidTransfers(b2, p);
    UnmovedRoyals(b, m, b0, b1);
    assert PieceAt(b1, m.fromSquare.value) == PieceAt(b, m.fromSquare.value) by {
      assert ColorAt(b, m.fromSquare.value) == b.turn;
    }
    RestoredLayout(b, b0, b1, b2, m.fromSquare.value, m.toSquare);
    forall t: Square
      ensures PieceAt(p, t) == PieceAt(b, t)
    {
      assert PieceAt(p, t) == PieceAt(b2, t);
    }
  }

  /** Rewound history and the restoring steps after a capture give back
      `b`. */
  lemma BoardUndoneCapture(b: Board, m: Move, b0: Board, b1: Board, b2: Board, p: Board)
    requires Valid(b) && KingsTracked(b) && m.Move? && Reversible(b, m) && m.dropPieceType == NONE
    requires b.pieces[m.toSquare] != NONE
    requires Shaped(b0) && Moved(b, m, b0)
    requires b0.moveNumber == b.moveNumber && b0.moveStack == b.moveStack && b0.capturedStack == b.capturedStack
    requires Shaped(b1) && Settled(b0, m.fromSquare.value, Piece(b.pieces[m.fromSquare.value], b.turn), b0.hands, b1)
    requires Shaped(b2)
    requires var b1h := b1.(hands := b1.hands.Set(b.turn, b.hands.Get(b.turn)));
      Settled(b1h, m.toSquare, Piece(b.pieces[m.toSquare], b.turn.Opp()), b1h.hands, b2)
    requires p == b2.(turn := b.turn)
    ensures Valid(p) && Undone(b, m, p)
  {
    var to, c := m.toSquare, b.turn;
    var b1h := b1.(hands := b1.hands.Set(c, b.hands.Get(c)));
    ValidTransfers(b2, p);
    UnmovedRoyals(b, m, b0, b1);
    assert ColorAt(b, to) == c.Opp();
    assert PieceAt(b1, m.fromSquare.value) == PieceAt(b, m.fromSquare.value) by {
      assert ColorAt(b, m.fromSquare.value) == c;
    }
    assert SameExcept(b1, b2, to) by {
      forall t: Square | t != to
        ensures PieceAt(b1, t) == PieceAt(b2, t)
      {
        assert PieceAt(b1, t) == PieceAt(b1h, t);
      }
    }
    RestoredLayout(b, b0, b1, b2, m.fromSquare.value, to);
    forall t: Square
      ensures PieceAt(p, t) == PieceAt(b, t)
    {
      assert PieceAt(p, t) == PieceAt(b2, t);
    }
    assert b2.hands == b.hands;
    if b.pieces[to] == KING {
      assert b.kingSquares.Get(c.Opp()) == Some(to);
      assert b1.kingSquares.Set(c.Opp(), Some(to)) == b.kingSquares;
    }
  }

  /** `p`, with the history `r` had before its last push of `m` from `b`,
      is `b` again: the pieces, hands, side to move and history of `b`, the
      reached position uncounted once. */
  ghost predicate Unpushed(b: Board, m: Move, r: Board, p: Board)
    requires Shaped(b) && Shaped(r) && Shaped(p) && m.Move?
  {
    && Valid(p) && Undone(b, m, p)
    && (forall x :: TCount(p.transpositions, x) == TCount(r.transpositions, x) - (if x == FullHash(r) then 1 else 0))
  }

  lemma PopUndoesDrop(b: Board, m: Move, r: Board)
    requires Valid(b) && m.Move? && Reversible(b, m) && m.dropPieceType != NONE && PushedFrom(b, m, r)
    ensures PopRequires(r) && Pop(r).Ok? && Pop(r).value.1 == m && Unpushed(b, m, r, Pop(r).value.0)
  {
    RewindAfterPush(b, m, r);
    var b0 := Rewind(r, UndoCorrected);
    UnmoveDrop(b, m, b0);
    var b1 := b0.(hands := b.hands);
    UncaptureQuiet(b1, m.toSquare, r.turn);
    var b2 := RemovePieceAt(b1, m.toSquare, false);
    var p := b2.(turn := b.turn);
    assert Pop(r) == Ok((p, m));
    DropUndone(b, m, b0, b2, p);
  }

  lemma PopUndoesQuiet(b: Board, m: Move, r: Board)
    requires Valid(b) && KingsTracked(b) && m.Move? && Reversible(b, m) && m.dropPieceType == NONE
    requires b.pieces[m.toSquare] == NONE && PushedFrom(b, m, r)
    ensures PopRequires(r) && Pop(r).Ok? && Pop(r).value.1 == m && Unpushed(b, m, r, Pop(r).value.0)
  {
    RewindAfterPush(b, m, r);
    var b0 := Rewind(r, UndoCorrected);
    UnmoveBoard(b, m, b0);
    var b1 := Unmove(b0, m).value;
    UncaptureQuiet(b1, m.toSquare, r.turn);
    var b2 := RemovePieceAt(b1, m.toSquare, false);
    var p := b2.(turn := b.turn);
    assert Pop(r) == Ok((p, m));
    BoardUndoneQuiet(b, m, b0, b1, b2, p);
  }

  lemma PopUndoesCapture(b: Board, m: Move, r: Board)
    requires Valid(b) && KingsTracked(b) && m.Move? && Reversible(b, m) && m.dropPieceType == NONE
    requires b.pieces[m.toSquare] != NONE && PushedFrom(b, m, r)
    ensures PopRequires(r) && Pop(r).Ok? && Pop(r).value.1 == m && Unpushed(b, m, r, Pop(r).value.0)
  {
    var c, captured := b.turn, b.pieces[m.toSquare];
    RewindAfterPush(b, m, r);
    var b0 := Rewind(r, UndoCorrected);
    UnmoveBoard(b, m, b0);
    var b1 := Unmove(b0, m).value;
    assert b1.hands.Get(c) == AddPieceIntoHand(b.hands.Get(c), captured);
    UncaptureTaken(b1, m.toSquare, captured, c.Opp(), b.hands.Get(c));
    var b2 := Uncapture(b1, m.toSquare, captured, c.Opp(), UndoCorrected).value;
    var p := b2.(turn := c);
    assert Pop(r) == Ok((p, m));
    BoardUndoneCapture(b, m, b0, b1, b2, p);
  }

  /** A valid board undone to `b`'s pieces, hands and history is `b` in
      every field but the repetition counter and the promoted-SUI record. */
  lemma UndoneRestores(b: Board, m: Move, p: Board)
    requires Valid(b) && Valid(p) && m.Move? && Undone(b, m, p)
    ensures p == b.(transpositions := p.transpositions, promsuiSquares := p.promsuiSquares)
  {
    Determined(b, p);
  }

  /** `pop` undoes `push`. For every reversible move on a valid board whose
      royal records are up to date, `push` and then `pop` succeed, `pop`
      returns the move, and the board is given back: every field as before,
      every position counted as often as before, and the promoted-SUI record
      as before except after a SUI promotion, where it is left on the
      destination. */
  lemma PushThenPop(b: Board, m: Move)
    requires Valid(b) && RoyalsTracked(b) && Reversible(b, m)
    ensures PushRequires(b, m) && Push(b, m).Ok?
    ensures var r := Push(b, m).value;
      && PopRequires(r) && Pop(r).Ok? && Pop(r).value.1 == m
      && var p := Pop(r).value.0;
      && p == b.(transpositions := p.transpositions, promsuiSquares := p.promsuiSquares)
      && (forall x :: TCount(p.transpositions, x) == TCount(b.transpositions, x))
      && p.promsuiSquares == (if m.Move? && SuiPromotion(b, m) then b.promsuiSquares.Set(b.turn, Some(m.toSquare)) else b.promsuiSquares)
  {
    if m.NullMove? {
      NullPushThenPop(b, m);
    } else {
      PushLayout(b, m);
      PopAfterPush(b, m, Push(b, m).value);
    }
  }

  lemma NullPushThenPop(b: Board, m: Move)
    requires Valid(b) && m.NullMove?
    ensures PushRequires(b, m) && Push(b, m).Ok?
    ensures PopRequires(Push(b, m).value) && Pop(Push(b, m).value) == Ok((b, m))
  {
    var r := Push(b, m).value;
    assert r.moveStack[..|r.moveStack| - 1] == b.moveStack;
    assert r.capturedStack[..|r.capturedStack| - 1] == b.capturedStack;
  }

  /** `pop` undoes `push` for a board move even when a promoted-SUI record
      is out of date: every field comes back but those records, which end
      as `PromSuiAfterUndo` says, and the repetition counter, which counts
      every position as before. */
  lemma PushThenPopRecords(b: Board, m: Move)
    requires Valid(b) && KingsTracked(b) && m.Move? && Reversible(b, m)
    ensures PushRequires(b, m) && Push(b, m).Ok?
    ensures var r := Push(b, m).value;
      && PopRequires(r) && Pop(r).Ok? && Pop(r).value.1 == m
      && var p := Pop(r).value.0;
      && Valid(p)
      && p == b.(transpositions := p.transpositions, promsuiSquares := PromSuiAfterUndo(b, m))
      && (forall x :: TCount(p.transpositions, x) == TCount(b.transpositions, x))
  {
    PushLayout(b, m);
    var r := Push(b, m).value;
    PopUndoesMove(b, m, r);
    UndoneRestores(b, m, Pop(r).value.0);
  }

  /** A counter without zero counts comes back from `push` and `pop` as the
      very same counter. */
  lemma PushThenPopCounter(b: Board, m: Move)
    requires Valid(b) && KingsTracked(b) && m.Move? && Reversible(b, m) && NonZeroCounts(b.transpositions)
    ensures PushRequires(b, m) && Push(b, m).Ok? && PopRequires(Push(b, m).value) && Pop(Push(b, m).value).Ok?
    ensures Pop(Push(b, m).value).value.0.transpositions == b.transpositions
  {
    PushThenPopRecords(b, m);
    var r := Push(b, m).value;
    PushKeepsNonZero(b, m);
    PopKeepsNonZero(r, UndoCorrected);
    CountsDetermine(Pop(r).value.0.transpositions, b.transpositions);
  }

  lemma PopUndoesMove(b: Board, m: Move, r: Board)
    requires Valid(b) && KingsTracked(b) && m.Move? && Reversible(b, m) && PushedFrom(b, m, r)
    ensures PopRequires(r) && Pop(r).Ok? && Pop(r).value.1 == m && Unpushed(b, m, r, Pop(r).value.0)
  {
    if m.dropPieceType != NONE {
      PopUndoesDrop(b, m, r);
    } else if b.pieces[m.toSquare] == NONE {
      PopUndoesQuiet(b, m, r);
    } else {
      PopUndoesCapture(b, m, r);
    }
  }

  lemma PushKeepsNonZero(b: Board, m: Move)
    requires Shaped(b) && PushRequires(b, m) && Push(b, m).Ok? && NonZeroCounts(b.transpositions)
    ensures NonZeroCounts(Push(b, m).value.transpositions)
  {
    if m.Move? {
      PushShape(b, m);
    }
  }

  lemma PopKeepsNonZero(r: Board, undo: Undo)
    requires Shaped(r) && PopRequires(r) && PopWith(r, undo).Ok? && NonZeroCounts(r.transpositions)
    ensures NonZeroCounts(PopWith(r, undo).value.0.transpositions)
  {
  }

  lemma PopAfterPush(b: Board, m: Move, r: Board)
    requires Valid(b) && RoyalsTracked(b) && m.Move? && Reversible(b, m) && PushedFrom(b, m, r)
    requires forall x :: TCount(r.transpositions, x) == TCount(b.transpositions, x) + (if x == FullHash(r) then 1 else 0)
    ensures PopRequires(r) && Pop(r).Ok? && Pop(r).value.1 == m
    ensures var p := Pop(r).value.0;
      && p == b.(transpositions := p.transpositions, promsuiSquares := p.promsuiSquares)
      && (forall x :: TCount(p.transpositions, x) == TCount(b.transpositions, x))
      && p.promsuiSquares == (if SuiPromotion(b, m) then b.promsuiSquares.Set(b.turn, Some(m.toSquare)) else b.promsuiSquares)
  {
    if m.dropPieceType != NONE {
      PopUndoesDrop(b, m, r);
    } else if b.pieces[m.toSquare] == NONE {
      PopUndoesQuiet(b, m, r);
    } else {
      PopUndoesCapture(b, m, r);
    }
    UnpushedRestores(b, m, r, Pop(r).value.0);
  }

  lemma UnpushedRestores(b: Board, m: Move, r: Board, p: Board)
    requires Valid(b) && RoyalsTracked(b) && m.Move? && Reversible(b, m) && Shaped(r) && Shaped(p) && Unpushed(b, m, r, p)
    requires forall x :: TCount(r.transpositions, x) == TCount(b.transpositions, x) + (if x == FullHash(r) then 1 else 0)
    ensures p == b.(transpositions := p.transpositions, promsuiSquares := p.promsuiSquares)
    ensures forall x :: TCount(p.transpositions, x) == TCount(b.transpositions, x)
    ensures p.promsuiSquares == (if SuiPromotion(b, m) then b.promsuiSquares.Set(b.turn, Some(m.toSquare)) else b.promsuiSquares)
  {
    UndoneRestores(b, m, p);
    TrackedAfterUndo(b, m);
  }

  // ---- the engine's own `pop`

  /** Both variants of `pop` agree unless the last move was a null move or
      captured a king, SUI or promoted SUI. */
  lemma PopVariantsAgree(b: Board)
    requires Shaped(b) && PopRequires(b) && |b.moveStack| > 0 && |b.capturedStack| > 0
    requires b.moveStack[|b.moveStack| - 1].Move?
    requires var k := b.capturedStack[|b.capturedStack| - 1]; k != KING && k != SUI && k != PROM_SUI
    ensures PopAsWritten(b) == Pop(b)
  {
    assert Rewind(b, UndoAsWritten) == Rewind(b, UndoCorrected);
  }

  /** A board move onto a king, a SUI or a promoted SUI: the pieces that
      never enter a hand. */
  predicate CapturesRoyal(b: Board, m: Move)
    requires Shaped(b)
  {
    && m.Move? && m.dropPieceType == NONE
    && (b.pieces[m.toSquare] == KING || b.pieces[m.toSquare] == SUI || b.pieces[m.toSquare] == PROM_SUI)
  }

  /** After any reversible move the corrected `pop` succeeds, and the
      engine's `pop` raises exactly when the move captured a king, SUI or
      promoted SUI; after any other board move both give the same result. */
  lemma PopSucceedsAfterPush(b: Board, m: Move)
    requires Valid(b) && Reversible(b, m)
    ensures PushRequires(b, m) && Push(b, m).Ok?
    ensures Pop(Push(b, m).value).Ok?
    ensures PopAsWritten(Push(b, m).value).Err? <==> CapturesRoyal(b, m)
    ensures m.Move? && !CapturesRoyal(b, m) ==> PopAsWritten(Push(b, m).value) == Pop(Push(b, m).value)
  {
    if m.NullMove? {
      NullPushThenPop(b, m);
    } else {
      PushLayout(b, m);
      var r := Push(b, m).value;
      if CapturesRoyal(b, m) {
        RoyalCaptureNotUndone(b, m, r);
        CorrectedPopAfterRoyalCapture(b, m, r);
      } else {
        PopAfterOrdinaryMove(b, m, r);
      }
    }
  }

  lemma PopAfterOrdinaryMove(b: Board, m: Move, r: Board)
    requires Valid(b) && m.Move? && Reversible(b, m) && PushedFrom(b, m, r) && !CapturesRoyal(b, m)
    ensures PopRequires(r) && Pop(r).Ok? && PopAsWritten(r) == Pop(r)
  {
    RewindAfterPush(b, m, r);
    var b0 := Rewind(r, UndoCorrected);
    var captured := b.pieces[m.toSquare];
    if m.dropPieceType != NONE {
      UnmoveDrop(b, m, b0);
    } else {
      UnmoveBoard(b, m, b0);
      var b1 := Unmove(b0, m).value;
      if captured != NONE {
        assert b1.hands.Get(b.turn) == AddPieceIntoHand(b.hands.Get(b.turn), captured);
        AddThenRemove(b.hands.Get(b.turn), captured);
      }
    }
    PopVariantsAgree(r);
  }

  lemma CorrectedPopAfterRoyalCapture(b: Board, m: Move, r: Board)
    requires Valid(b) && m.Move? && Reversible(b, m) && PushedFrom(b, m, r) && CapturesRoyal(b, m)
    ensures PopRequires(r) && Pop(r).Ok?
  {
    RewindAfterPush(b, m, r);
    UnmoveBoard(b, m, Rewind(r, UndoCorrected));
  }

  /** The engine's `pop` raises after every reversible capture of a king, a
      SUI or a promoted SUI: the captured piece never entered the hand, and
      taking it back out of the hand fails. */
  lemma AsWrittenPopRaisesAfterRoyalCapture(b: Board, m: Move)
    requires Valid(b) && Reversible(b, m) && m.Move? && m.dropPieceType == NONE
    requires b.pieces[m.toSquare] == KING || b.pieces[m.toSquare] == SUI || b.pieces[m.toSquare] == PROM_SUI
    ensures PushRequires(b, m) && Push(b, m).Ok?
    ensures PopRequires(Push(b, m).value) && PopAsWritten(Push(b, m).value).Err?
  {
    PushLayout(b, m);
    RoyalCaptureNotUndone(b, m, Push(b, m).value);
  }

  lemma RoyalCaptureNotUndone(b: Board, m: Move, r: Board)
    requires Valid(b) && Reversible(b, m) && m.Move? && m.dropPieceType == NONE
    requires b.pieces[m.toSquare] == KING || b.pieces[m.toSquare] == SUI || b.pieces[m.toSquare] == PROM_SUI
    requires PushedFrom(b, m, r)
    ensures PopRequires(r) && PopAsWritten(r).Err?
  {
    var c, captured := b.turn, b.pieces[m.toSquare];
    RewindAfterPush(b, m, r);
    var b0 := Rewind(r, UndoCorrected);
    UnmoveBoard(b, m, b0);
    var b1 := Unmove(b0, m).value;
    assert b1.hands.Get(c) == AddPieceIntoHand(b.hands.Get(c), captured);
    RoyalsNeverInHand(b.hands.Get(c), captured);
    RoyalsNotRemovable(b.hands.Get(c), captured);
    AsWrittenRaisesWhen(r, m, captured, b1);
  }

  /** The engine's `pop` raises once taking the captured piece back out of
      the hand fails. */
  lemma AsWrittenRaisesWhen(r: Board, m: Move, captured: PieceType, b1: Board)
    requires Shaped(r) && PopRequires(r) && |r.moveStack| > 0 && |r.capturedStack| > 0
    requires r.moveStack[|r.moveStack| - 1] == m && m.Move?
    requires r.capturedStack[|r.capturedStack| - 1] == captured && captured != NONE
    requires Unmove(Rewind(r, UndoCorrected), m) == Ok(b1)
    requires RemovePieceFromHand(b1.hands.Get(r.turn.Opp()), captured).Err?
    ensures PopAsWritten(r).Err?
  {
    assert Rewind(r, UndoAsWritten) == Rewind(r, UndoCorrected);
  }

  /** The engine's `pop` of a null move uncounts a position `push` never
      counted: the position reached by the null move loses one count. */
  lemma AsWrittenPopUncountsNullMove(b: Board, m: Move)
    requires Valid(b) && m.NullMove?
    ensures PushRequires(b, m) && Push(b, m).Ok?
    ensures var r := Push(b, m).value;
      && PopRequires(r) && PopAsWritten(r).Ok?
      && TCount(PopAsWritten(r).value.0.transpositions, FullHash(r)) == TCount(b.transpositions, FullHash(r)) - 1
  {
  }

  // ---- the royal records

  /** A reversible `push` keeps every king and promoted SUI where the board
      records it, provided a SUI promotes only while its side has no
      promoted SUI (the record holds one square per side). */
  lemma PushKeepsTracked(b: Board, m: Move)
    requires Valid(b) && RoyalsTracked(b) && Reversible(b, m)
    requires m.Move? && SuiPromotion(b, m) ==> Absent(b, PROM_SUI, b.turn)
    ensures PushRequires(b, m) && Push(b, m).Ok?
    ensures RoyalsTracked(Push(b, m).value)
  {
    if m.Move? {
      PushLayout(b, m);
      MovedKeepsTracked(b, m, Push(b, m).value);
    }
  }

  lemma MovedKeepsTracked(b: Board, m: Move, r: Board)
    requires Valid(b) && RoyalsTracked(b) && m.Move? && Reversible(b, m) && Shaped(r) && Moved(b, m, r)
    requires SuiPromotion(b, m) ==> Absent(b, PROM_SUI, b.turn)
    ensures RoyalsTracked(r)
  {
    var to, c := m.toSquare, b.turn;
    forall s: Square
      ensures r.pieces[s] == KING ==> r.kingSquares.Get(ColorAt(r, s)) == Some(s)
      ensures r.pieces[s] == PROM_SUI ==> r.promsuiSquares.Get(ColorAt(r, s)) == Some(s)
    {
      assert PieceAt(r, s) == if s == to then Some(Piece(Arrived(b, m), c))
                              else if m.fromSquare == Some(s) then None else PieceAt(b, s);
      if s != to && m.fromSquare != Some(s) && b.pieces[s] != NONE {
        var d := ColorAt(b, s);
        assert ColorAt(r, s) == d;
        if m.fromSquare.Some? {
          var from := m.fromSquare.value;
          assert ColorAt(b, from) == c;
          if b.pieces[s] == KING && d == c && Arrived(b, m) == KING {
            assert false;
          }
          if b.pieces[s] == PROM_SUI && d == c && Arrived(b, m) == PROM_SUI && !SuiPromotion(b, m) {
            assert false;
          }
        }
      }
    }
  }

}

=== FILE: movegen.dfy ===
/** Pseudo-legal moves: the generator (`generate_pseudo_legal_moves`), the
    single-move test (`is_pseudo_legal`) and the double-pawn rule
    (`is_double_pawn`). */
module MoveGen {
  import opened Results
  import opened Types
  import opened Geometry
  import opened Attacks
  import opened Hands
  import Occupancy
  import opened Position

  /** The squares of `s` from `i` upward, in the order `bit_scan` visits them. */
  function ScanFrom(s: Bitboard, i: nat): (r: seq<Square>)
    decreases 81 - i
    ensures forall x: int :: x in r <==> x in s && i <= x < 81
    ensures forall j :: 0 < j < |r| ==> r[j - 1] < r[j]
  {
    if i >= 81 then []
    else
      var rest := ScanFrom(s, i + 1);
      assert |rest| > 0 ==> rest[0] in rest;
      (if i in s then [i as Square] else []) + rest
  }

  /** The squares of `s` in ascending order. */
  function Scan(s: Bitboard): (r: seq<Square>)
    ensures forall x: int :: x in r <==> x in s && OnBoard(x)
  {
    ScanFrom(s, 0)
  }

  /** The squares of the side to move. */
  function Own(b: Board): Bitboard {
    b.occupied.byColor.Get(b.turn)
  }

  /** Where a `pt` of the side to move standing on `from` may go: its attacks
      not holding a piece of its own side. */
  function Targets(b: Board, pt: PieceType, from: Square): Bitboard {
    AttacksFrom(pt, from, b.occupied.bits, b.turn) - Own(b)
  }

  /** The generator offers a promoting move when the origin or the
      destination allows the kind to promote. */
  predicate MayPromote(b: Board, pt: PieceType, from: Square, to: Square) {
    CanPromote(from, pt, b.turn) || CanPromote(to, pt, b.turn)
  }

  /** A board move the generator makes for a `pt` on the move's origin: a
      target square, promoting only where it may and not promoting only
      where the piece can still move afterwards. */
  predicate KindMove(b: Board, pt: PieceType, m: Move) {
    && m.Move? && m.fromSquare.Some? && m.dropPieceType == NONE
    && m.toSquare in Targets(b, pt, m.fromSquare.value)
    && (if m.promotion then MayPromote(b, pt, m.fromSquare.value, m.toSquare)
        else CanMoveWithoutPromotion(m.toSquare, pt, b.turn))
  }

  /** The moves of a `pt` on `from` to each of `tos`: the non-promoting one
      first, then the promoting one. */
  function MovesTo(b: Board, pt: PieceType, from: Square, tos: seq<Square>): (r: seq<Move>)
    ensures forall m :: m in r <==>
      && m.Move? && m.fromSquare == Some(from) && m.dropPieceType == NONE && m.toSquare in tos
      && (if m.promotion then MayPromote(b, pt, from, m.toSquare) else CanMoveWithoutPromotion(m.toSquare, pt, b.turn))
  {
    if tos == [] then []
    else
      var to := tos[0];
      (if CanMoveWithoutPromotion(to, pt, b.turn) then [Move(Some(from), to, false, NONE)] else [])
      + (if MayPromote(b, pt, from, to) then [Move(Some(from), to, true, NONE)] else [])
      + MovesTo(b, pt, from, tos[1..])
  }

  /** The moves of the `pt` pieces standing on `froms`, each to its targets
      in ascending order. */
  function MovesFrom(b: Board, pt: PieceType, froms: seq<Square>): (r: seq<Move>)
    ensures forall m :: m in r <==> KindMove(b, pt, m) && m.fromSquare.value in froms
  {
    if froms == [] then []
    else
      var here := MovesTo(b, pt, froms[0], Scan(Targets(b, pt, froms[0])));
      var rest := MovesFrom(b, pt, froms[1..]);
      PieceMovesAreKindMoves(b, pt, froms[0], here);
      assert forall m :: m in rest <==> KindMove(b, pt, m) && m.fromSquare.value in froms[1..];
      here + rest
  }

  lemma PieceMovesAreKindMoves(b: Board, pt: PieceType, from: Square, here: seq<Move>)
    requires here == MovesTo(b, pt, from, Scan(Targets(b, pt, from)))
    ensures forall m :: m in here <==> KindMove(b, pt, m) && m.fromSquare == Some(from)
  {
  }

  /** The board moves of the kinds from `k` up, kind by kind and origin by
      origin in ascending order. */
  function BoardMovesFrom(b: Board, k: nat): (r: seq<Move>)
    requires Shaped(b) && k >= 1
    decreases 17 - k
  {
    if k > 16 then []
    else MovesFrom(b, k, Scan(b.pieceBB[k] * Own(b))) + BoardMovesFrom(b, k + 1)
  }

  /** `is_double_pawn`: a pawn would join a pawn of its own side on the file. */
  function IsDoublePawn(b: Board, to: Square, pt: PieceType): bool
    requires Shaped(b)
  {
    pt == PAWN && b.pieceBB[PAWN] * Own(b) * FileMask(File(to)) != {}
  }

  /** A drop of `pt` on the empty square `to` the generator makes: the kind is
      in hand, the piece can still move, and no second pawn on the file. */
  predicate DropAllowed(b: Board, pt: PieceType, to: Square)
    requires Shaped(b)
  {
    && HasPieceInHand(b.hands.Get(b.turn), pt) == Ok(true)
    && CanMoveWithoutPromotion(to, pt, b.turn)
    && !IsDoublePawn(b, to, pt)
  }

  /** The drops on `to` of the kinds from `k` up to ROOK. */
  function DropsAt(b: Board, to: Square, k: nat): (r: seq<Move>)
    requires Shaped(b)
    decreases 8 - k
    ensures forall m :: m in r <==>
      && m.Move? && m.fromSquare.None? && !m.promotion && m.toSquare == to
      && k <= m.dropPieceType <= ROOK && m.dropPieceType != NONE && DropAllowed(b, m.dropPieceType, to)
  {
    if k > ROOK then []
    else if k == NONE then DropsAt(b, to, k + 1)
    else (if DropAllowed(b, k, to) then [Move(None, to, false, k)] else []) + DropsAt(b, to, k + 1)
  }

  /** The drops on each of `tos`, square by square. */
  function DropsOn(b: Board, tos: seq<Square>): (r: seq<Move>)
    requires Shaped(b)
    ensures forall m :: m in r <==>
      && m.Move? && m.fromSquare.None? && !m.promotion && m.toSquare in tos
      && PAWN <= m.dropPieceType <= ROOK && DropAllowed(b, m.dropPieceType, m.toSquare)
  {
    if tos == [] then [] else DropsAt(b, tos[0], PAWN) + DropsOn(b, tos[1..])
  }

  /** `generate_pseudo_legal_moves` with every kind enabled: the board moves
      kind by kind, then the drops on the empty squares. */
  function GeneratePseudoLegalMoves(b: Board): seq<Move>
    requires Shaped(b)
  {
    BoardMovesFrom(b, PAWN) + DropsOn(b, Scan(Occupancy.NonOccupied(b.occupied)))
  }

  /** The pseudo-legal moves: a board move of a piece of the side to move to a
      square it attacks and its own side does not hold, promoting only a
      kind with a promoted form from or into the zone and not promoting only
      where the piece can move on; or a drop of a base kind held in hand on
      an empty square where the piece can move on, and never a second pawn
      on a file. */
  predicate IsPseudoLegal(b: Board, m: Move)
    requires Shaped(b)
  {
    match m
    case NullMove => false
    case Move(from, to, promotion, drop) =>
      if from.Some? then
        var pt := b.pieces[from.value];
        && pt != NONE && from.value in Own(b) && to !in Own(b)
        && (promotion ==> Promoted(pt).Some? && (RanksAhead(b.turn, from.value) < 3 || RanksAhead(b.turn, to) < 3))
        && (!promotion ==> CanMoveWithoutPromotion(to, pt, b.turn))
        && to in AttacksFrom(pt, from.value, b.occupied.bits, b.turn)
      else
        && drop != NONE && !promotion
        && PAWN <= drop <= ROOK && to !in b.occupied.bits
        && HasPieceInHand(b.hands.Get(b.turn), drop) == Ok(true)
        && CanMoveWithoutPromotion(to, drop, b.turn)
        && !IsDoublePawn(b, to, drop)
  }

  /** `is_pseudo_legal` as the engine writes it. It raises where its hand
      lookup raises (a dropped SUI). */
  function IsPseudoLegalAsWritten(b: Board, m: Move): Result<bool>
    requires Shaped(b)
  {
    match m
    case NullMove => Ok(false)
    case Move(from, to, promotion, drop) =>
      if to in Own(b) then Ok(false)
      else if from.Some? then
        var pt := b.pieces[from.value];
        if pt == NONE then Ok(false)
        else if from.value !in Own(b) then Ok(false)
        else if promotion && (pt == GOLD || pt == KING || pt >= PROM_PAWN) then Ok(false)
        else if promotion && b.turn == Black && Rank(to) > 2 && Rank(from.value) > 2 then Ok(false)
        else if promotion && b.turn == White && Rank(to) < 6 && Rank(from.value) < 6 then Ok(false)
        else if !promotion && !CanMoveWithoutPromotion(to, pt, b.turn) then Ok(false)
        else Ok(to in AttacksFrom(pt, from.value, b.occupied.bits, b.turn))
      else if drop != NONE then
        if promotion then Ok(false)
        else
          var held :- HasPieceInHand(b.hands.Get(b.turn), drop);
          if !held then Ok(false)
          else if !CanMoveWithoutPromotion(to, drop, b.turn) then Ok(false)
          else if IsDoublePawn(b, to, drop) then Ok(false)
          else Ok(true)
      else Ok(false)
  }

  /** `m` is a move of the kind `pt`, which stands on the origin in the
      side to move's colour. */
  predicate FromKind(b: Board, pt: PieceType, m: Move)
    requires Shaped(b)
  {
    KindMove(b, pt, m) && m.fromSquare.value in b.pieceBB[pt] * Own(b)
  }

  lemma KindMovesFromKind(b: Board, k: PieceType, m: Move)
    requires Shaped(b)
    ensures m in MovesFrom(b, k, Scan(b.pieceBB[k] * Own(b))) <==> FromKind(b, k, m)
  {
  }

  /** A generated board move is a move of a piece of some kind from `k` up,
      standing on the origin, that its kind may make. */
  lemma {:induction false} BoardMovesMembership(b: Board, k: nat, m: Move)
    requires Shaped(b) && k >= 1
    decreases 17 - k
    ensures m in BoardMovesFrom(b, k) <==> exists pt: PieceType :: k <= pt && FromKind(b, pt, m)
  {
    if k <= 16 {
      BoardMovesMembership(b, k + 1, m);
      var here := MovesFrom(b, k, Scan(b.pieceBB[k] * Own(b)));
      assert BoardMovesFrom(b, k) == here + BoardMovesFrom(b, k + 1);
      KindMovesFromKind(b, k, m);
      KindsFromSplit(b, k, m);
    }
  }

  /** A kind from `k` up is `k` itself or a kind from `k + 1` up. */
  lemma KindsFromSplit(b: Board, k: PieceType, m: Move)
    requires Shaped(b) && k >= 1
    ensures (exists pt: PieceType :: k <= pt && FromKind(b, pt, m))
        <==> FromKind(b, k, m) || exists pt: PieceType :: k + 1 <= pt && FromKind(b, pt, m)
  {
    if exists pt: PieceType :: k <= pt && FromKind(b, pt, m) {
      var pt: PieceType :| k <= pt && FromKind(b, pt, m);
      if pt != k {
        assert exists q: PieceType :: k + 1 <= q && FromKind(b, q, m);
      }
    }
  }

  /** `is_double_pawn` on a valid board: the drop is a pawn and a pawn of
      the side to move already stands on the destination's file. */
  lemma IsDoublePawnMeaning(b: Board, to: Square, pt: PieceType)
    requires Valid(b)
    ensures IsDoublePawn(b, to, pt) <==>
      pt == PAWN && exists t: Square :: File(t) == File(to) && b.pieces[t] == PAWN && t in Own(b)
  {
    if pt == PAWN && b.pieceBB[PAWN] * Own(b) * FileMask(File(to)) != {} {
      var t :| t in b.pieceBB[PAWN] * Own(b) * FileMask(File(to));
      assert File(t as Square) == File(to) && b.pieces[t] == PAWN;
    }
    if pt == PAWN && exists t: Square :: File(t) == File(to) && b.pieces[t] == PAWN && t in Own(b) {
      var t: Square :| File(t) == File(to) && b.pieces[t] == PAWN && t in Own(b);
      assert t in b.pieceBB[PAWN] * Own(b) * FileMask(File(to));
    }
  }

  // ---- the generator makes exactly the pseudo-legal moves

  /** On a valid board the generator makes exactly the well-formed
      pseudo-legal moves. */
  lemma GeneratedIffPseudoLegal(b: Board, m: Move)
    requires Valid(b) && m.WellFormed()
    ensures m in GeneratePseudoLegalMoves(b) <==> IsPseudoLegal(b, m)
  {
    if m.NullMove? {
      NullMoveNotGenerated(b);
    } else if m.fromSquare.Some? {
      BoardMoveGenerated(b, m);
    } else {
      DropGenerated(b, m);
    }
  }

  /** The null move is never generated. */
  lemma NullMoveNotGenerated(b: Board)
    requires Shaped(b)
    ensures NullMove !in GeneratePseudoLegalMoves(b)
  {
    BoardMovesMembership(b, PAWN, NullMove);
  }

  lemma BoardMoveGenerated(b: Board, m: Move)
    requires Shaped(b) && forall k: PieceType :: b.pieceBB[k] == KindSquares(b.pieces, k)
    requires m.Move? && m.fromSquare.Some? && m.dropPieceType == NONE
    ensures m in GeneratePseudoLegalMoves(b) <==> IsPseudoLegal(b, m)
  {
    assert m !in DropsOn(b, Scan(Occupancy.NonOccupied(b.occupied)));
    GeneratedFromOwnKind(b, m);
    OwnKindIsPseudoLegal(b, m);
  }

  /** A board move is generated exactly when the kind on its origin may make it. */
  lemma GeneratedFromOwnKind(b: Board, m: Move)
    requires Shaped(b) && forall k: PieceType :: b.pieceBB[k] == KindSquares(b.pieces, k)
    requires m.Move? && m.fromSquare.Some? && m.dropPieceType == NONE
    ensures m in BoardMovesFrom(b, PAWN) <==> FromKind(b, b.pieces[m.fromSquare.value], m)
  {
    BoardMovesMembership(b, PAWN, m);
    OnlyOwnKind(b, m);
  }

  /** The only kind whose move starts on a square is the kind standing there. */
  lemma OnlyOwnKind(b: Board, m: Move)
    requires Shaped(b) && forall k: PieceType :: b.pieceBB[k] == KindSquares(b.pieces, k)
    requires m.Move? && m.fromSquare.Some?
    ensures (exists q: PieceType :: PAWN <= q && FromKind(b, q, m)) <==> FromKind(b, b.pieces[m.fromSquare.value], m)
  {
    var from := m.fromSquare.value;
    var pt := b.pieces[from];
    KindOnSquare(b.pieces, pt, from, b.pieceBB[pt]);
    if exists q: PieceType :: PAWN <= q && FromKind(b, q, m) {
      var q: PieceType :| PAWN <= q && FromKind(b, q, m);
      KindOnSquare(b.pieces, q, from, b.pieceBB[q]);
    }
  }

  /** A square lies in the bitboard of kind `k` exactly when it holds `k`. */
  lemma KindOnSquare(pieces: seq<PieceType>, k: PieceType, s: Square, bb: Bitboard)
    requires |pieces| == 81 && bb == KindSquares(pieces, k)
    ensures s in bb <==> k != NONE && pieces[s] == k
  {
  }

  /** The generator's test for a board move agrees with `IsPseudoLegal`. */
  lemma OwnKindIsPseudoLegal(b: Board, m: Move)
    requires Shaped(b) && forall k: PieceType :: b.pieceBB[k] == KindSquares(b.pieces, k)
    requires m.Move? && m.fromSquare.Some? && m.dropPieceType == NONE
    ensures FromKind(b, b.pieces[m.fromSquare.value], m) <==> IsPseudoLegal(b, m)
  {
    var from, to := m.fromSquare.value, m.toSquare;
    var pt := b.pieces[from];
    CanPromoteMeaning(from, pt, b.turn);
    CanPromoteMeaning(to, pt, b.turn);
    KindOnSquare(b.pieces, pt, from, b.pieceBB[pt]);
  }

  lemma DropGenerated(b: Board, m: Move)
    requires Shaped(b) && m.Move? && m.fromSquare.None? && m.dropPieceType != NONE
    ensures m in GeneratePseudoLegalMoves(b) <==> IsPseudoLegal(b, m)
  {
    DropOnlyAmongDrops(b, m);
    DropsOnEmpty(b, m);
  }

  /** A drop is generated only among the drops. */
  lemma DropOnlyAmongDrops(b: Board, m: Move)
    requires Shaped(b) && m.Move? && m.fromSquare.None?
    ensures m in GeneratePseudoLegalMoves(b) <==> m in DropsOn(b, Scan(Occupancy.NonOccupied(b.occupied)))
  {
    BoardMovesMembership(b, PAWN, m);
  }

  /** A drop is offered exactly on the squares no piece holds. */
  lemma DropsOnEmpty(b: Board, m: Move)
    requires Shaped(b) && m.Move? && m.fromSquare.None?
    ensures m in DropsOn(b, Scan(Occupancy.NonOccupied(b.occupied))) <==>
      && !m.promotion && m.toSquare !in b.occupied.bits
      && PAWN <= m.dropPieceType <= ROOK && DropAllowed(b, m.dropPieceType, m.toSquare)
  {
    assert m.toSquare in Occupancy.NonOccupied(b.occupied) <==> m.toSquare !in b.occupied.bits;
  }

  // ---- `is_pseudo_legal` as written against the generator

  /** A promotion of a SUI: the generator offers it, `is_pseudo_legal` as
      written refuses it with the promoted kinds. */
  predicate PromotesSui(b: Board, m: Move)
    requires Shaped(b)
  {
    m.Move? && m.fromSquare.Some? && m.promotion && b.pieces[m.fromSquare.value] == SUI
  }

  /** A drop on a square an opposing piece holds. */
  predicate DropsOnOpponent(b: Board, m: Move)
    requires Shaped(b)
  {
    m.Move? && m.fromSquare.None? && m.dropPieceType != NONE && m.toSquare in b.occupied.bits && m.toSquare !in Own(b)
  }

  /** A drop naming a promoted kind, which the hand lookup counts as its
      base kind. */
  predicate DropsPromotedKind(m: Move) {
    m.Move? && m.fromSquare.None? && PROM_PAWN <= m.dropPieceType <= PROM_ROOK
  }

  /** A drop naming the SUI, whose hand lookup raises. */
  predicate DropsSui(m: Move) {
    m.Move? && m.fromSquare.None? && m.dropPieceType == SUI
  }

  /** A SUI of the side to move that promotes on a move it attacks into its
      zone is pseudo-legal and generated, yet `is_pseudo_legal` as written
      answers false. */
  lemma AsWrittenRejectsSuiPromotion(b: Board, m: Move)
    requires Shaped(b) && m.Move? && m.fromSquare.Some? && m.promotion
    requires b.pieces[m.fromSquare.value] == SUI && m.fromSquare.value in Own(b) && m.toSquare !in Own(b)
    requires RanksAhead(b.turn, m.toSquare) < 3
    requires m.toSquare in AttacksFrom(SUI, m.fromSquare.value, b.occupied.bits, b.turn)
    ensures PromotesSui(b, m) && IsPseudoLegal(b, m)
    ensures IsPseudoLegalAsWritten(b, m) == Ok(false)
  {
  }

  /** A drop of a held kind on a square an opposing piece holds passes
      `is_pseudo_legal` as written, though no generated move does it. */
  lemma AsWrittenAcceptsDropOnOpponent(b: Board, m: Move)
    requires Shaped(b) && m.Move? && m.fromSquare.None? && !m.promotion && PAWN <= m.dropPieceType <= ROOK
    requires m.toSquare in b.occupied.bits && m.toSquare !in Own(b)
    requires HasPieceInHand(b.hands.Get(b.turn), m.dropPieceType) == Ok(true)
    requires CanMoveWithoutPromotion(m.toSquare, m.dropPieceType, b.turn) && !IsDoublePawn(b, m.toSquare, m.dropPieceType)
    ensures DropsOnOpponent(b, m) && !IsPseudoLegal(b, m)
    ensures IsPseudoLegalAsWritten(b, m) == Ok(true)
  {
  }

  /** A drop of a promoted kind passes `is_pseudo_legal` as written when its
      base kind is in hand and the square is free of the mover's pieces. */
  lemma AsWrittenAcceptsPromotedDrop(b: Board, m: Move)
    requires Shaped(b) && m.Move? && m.fromSquare.None? && !m.promotion && PROM_PAWN <= m.dropPieceType <= PROM_ROOK
    requires m.toSquare !in Own(b)
    requires HasPieceInHand(b.hands.Get(b.turn), m.dropPieceType) == Ok(true)
    ensures DropsPromotedKind(m) && !IsPseudoLegal(b, m)
    ensures IsPseudoLegalAsWritten(b, m) == Ok(true)
  {
  }

  /** Asked about a SUI drop on a square free of the mover's pieces,
      `is_pseudo_legal` as written raises instead of answering false. */
  lemma AsWrittenRaisesOnSuiDrop(b: Board, m: Move)
    requires Shaped(b) && DropsSui(m) && !m.promotion && m.toSquare !in Own(b)
    ensures IsPseudoLegalAsWritten(b, m).Err? && !IsPseudoLegal(b, m)
  {
  }

  /** Away from those four cases `is_pseudo_legal` as written and the
      corrected test agree on a valid board, and the written one never
      raises. */
  lemma AsWrittenAgrees(b: Board, m: Move)
    requires Valid(b)
    requires !PromotesSui(b, m) && !DropsOnOpponent(b, m) && !DropsPromotedKind(m) && !DropsSui(m)
    ensures IsPseudoLegalAsWritten(b, m) == Ok(IsPseudoLegal(b, m))
  {
    if m.Move? && m.fromSquare.Some? {
      BoardMoveAgrees(b, m);
    } else if m.Move? && m.dropPieceType != NONE {
      assert ValidHand(b.hands.Get(b.turn));
      ColorSets(b, m.toSquare);
      DropAgrees(b, m);
    }
  }

  lemma BoardMoveAgrees(b: Board, m: Move)
    requires Shaped(b) && m.Move? && m.fromSquare.Some? && !PromotesSui(b, m)
    ensures IsPseudoLegalAsWritten(b, m) == Ok(IsPseudoLegal(b, m))
  {
  }

  lemma DropAgrees(b: Board, m: Move)
    requires Shaped(b) && m.Move? && m.fromSquare.None? && m.dropPieceType != NONE
    requires ValidHand(b.hands.Get(b.turn)) && (m.toSquare in Own(b) ==> m.toSquare in b.occupied.bits)
    requires !DropsOnOpponent(b, m) && !DropsPromotedKind(m) && !DropsSui(m)
    ensures IsPseudoLegalAsWritten(b, m) == Ok(IsPseudoLegal(b, m))
  {
    var h := b.hands.Get(b.turn);
    var k := m.dropPieceType;
    if k == KING || k == PROM_SUI {
      assert HandKind(k) == Some(if k == KING then KING else SUI);
      assert KING !in h && SUI !in h;
    }
  }
}

=== FILE: occupancy.dfy ===
/** The occupancy tracker: combined occupancy, occupancy per colour, and three
    permuted copies of the combined occupancy (rotated by 90 degrees and along
    both diagonals) that the slider lookups index into. */
module Occupancy {
  import opened Types
  import opened Geometry

  // ---- the square permutations SQUARES_L90, SQUARES_R45, SQUARES_L45

  /** SQUARES_L90: the square's file becomes the rank, the reversed rank the file. */
  function L90(s: Square): Square {
    9 * File(s) + 8 - Rank(s)
  }

  /** SQUARES_R45: the file is kept, the rank is shifted down by the file. */
  function R45(s: Square): Square {
    9 * ((Rank(s) - File(s)) % 9) + File(s)
  }

  /** SQUARES_L45: the file is kept, the rank is shifted up by the file plus one. */
  function L45(s: Square): Square {
    9 * ((Rank(s) + File(s) + 1) % 9) + File(s)
  }

  /** Each permutation can be undone: the original file and rank are
      recovered from the image, so no two squares share an image. */
  lemma RotationsInvertible(s: Square)
    ensures File(L90(s)) == 8 - Rank(s) && Rank(L90(s)) == File(s)
    ensures File(R45(s)) == File(s) && Rank(s) == (Rank(R45(s)) + File(s)) % 9
    ensures File(L45(s)) == File(s) && Rank(s) == (Rank(L45(s)) + 8 * File(s) + 8) % 9
  {
    L90Invertible(s);
    R45Invertible(s);
    L45Invertible(s);
  }

  lemma L90Invertible(s: Square)
    ensures File(L90(s)) == 8 - Rank(s) && Rank(L90(s)) == File(s)
  {
    FileRank(File(s), 8 - Rank(s));
  }

  lemma R45Invertible(s: Square)
    ensures File(R45(s)) == File(s) && Rank(s) == (Rank(R45(s)) + File(s)) % 9
  {
    var f, r := File(s), Rank(s);
    var m := (r - f) % 9;
    assert m == if r >= f then r - f else r - f + 9;
    FileRank(m, f);
    assert Rank(R45(s)) == m;
  }

  lemma L45Invertible(s: Square)
    ensures File(L45(s)) == File(s) && Rank(s) == (Rank(L45(s)) + 8 * File(s) + 8) % 9
  {
    var f, r := File(s), Rank(s);
    var n := (r + f + 1) % 9;
    assert n == if r + f + 1 < 9 then r + f + 1 else r + f + 1 - 9;
    FileRank(n, f);
    assert Rank(L45(s)) == n;
    assert n + 8 * f + 8 == r + 9 * f + 9 || n + 8 * f + 8 == r + 9 * f;
  }

  /** The three permutations are injective. */
  lemma RotationsInjective(s: Square, t: Square)
    ensures L90(s) == L90(t) ==> s == t
    ensures R45(s) == R45(t) ==> s == t
    ensures L45(s) == L45(t) ==> s == t
  {
    RotationsInvertible(s);
    RotationsInvertible(t);
    if L90(s) == L90(t) || R45(s) == R45(t) || L45(s) == L45(t) {
      assert File(s) == File(t) && Rank(s) == Rank(t);
      SquareByFileRank(s, t);
    }
  }

  /** The image of a set of squares under a permutation. */
  function Image(f: Square -> Square, b: Bitboard): Bitboard {
    set s: Square | s in b :: f(s)
  }

  /** The tracker's fields. */
  datatype Occupied = Occupied(byColor: ByColor<Bitboard>, bits: Bitboard, l90: Bitboard, r45: Bitboard, l45: Bitboard)

  /** The fields agree: the colours are disjoint on-board sets, `bits` is their
      union and the rotated copies are the images of `bits`. */
  predicate Valid(o: Occupied) {
    && o.byColor.black <= BB_ALL
    && o.byColor.white <= BB_ALL
    && o.byColor.black * o.byColor.white == {}
    && o.bits == o.byColor.black + o.byColor.white
    && o.l90 == Image(L90, o.bits)
    && o.r45 == Image(R45, o.bits)
    && o.l45 == Image(L45, o.bits)
  }

  /** `Occupied(black, white)`: the union and the rotated copies are computed
      from the two colour sets. */
  function NewOccupied(black: Bitboard, white: Bitboard): (r: Occupied)
    ensures r.byColor.Get(Black) == black && r.byColor.Get(White) == white
    ensures black <= BB_ALL && white <= BB_ALL && black * white == {} ==> Valid(r)
  {
    var bits := black + white;
    Occupied(ByColor(black, white), bits, Image(L90, bits), Image(R45, bits), Image(L45, bits))
  }

  /** `ixor`: toggle `mask` in the union and in `c`'s set, and toggle the
      rotated image of `square` in each rotated copy. */
  function Ixor(o: Occupied, mask: Bitboard, c: Color, square: Square): Occupied {
    o.(bits := Xor(o.bits, mask),
       byColor := o.byColor.Set(c, Xor(o.byColor.Get(c), mask)),
       l90 := Xor(o.l90, {L90(square)}),
       r45 := Xor(o.r45, {R45(square)}),
       l45 := Xor(o.l45, {L45(square)}))
  }

  /** `non_occupied`. */
  function NonOccupied(o: Occupied): Bitboard {
    BB_ALL - o.bits
  }

  /** `ixor` is self-inverse: toggling twice restores every field. */
  lemma IxorTwice(o: Occupied, mask: Bitboard, c: Color, square: Square)
    ensures Ixor(Ixor(o, mask, c, square), mask, c, square) == o
  {
    var o2 := Ixor(Ixor(o, mask, c, square), mask, c, square);
    assert o2.bits == o.bits;
    assert o2.byColor.Get(c) == o.byColor.Get(c);
    assert o2.byColor == o.byColor by {
      if c == Black {
        assert o2.byColor.black == o.byColor.black;
      } else {
        assert o2.byColor.white == o.byColor.white;
      }
    }
    assert o2.l90 == o.l90;
    assert o2.r45 == o.r45;
    assert o2.l45 == o.l45;
  }

  /** Toggling one square's image keeps the rotated copy equal to the image of
      the toggled union. */
  lemma ImageToggle(f: Square -> Square, b: Bitboard, square: Square)
    requires forall s: Square, t: Square :: f(s) == f(t) ==> s == t
    ensures Xor(Image(f, b), {f(square)}) == Image(f, Xor(b, {square}))
  {
    var lhs := Xor(Image(f, b), {f(square)});
    var rhs := Image(f, Xor(b, {square}));
    forall y | y in lhs
      ensures y in rhs
    {
      if y == f(square) {
        assert square !in b;
        assert square in Xor(b, {square});
      } else {
        var s: Square :| s in b && f(s) == y;
        assert s in Xor(b, {square});
      }
    }
    forall y | y in rhs
      ensures y in lhs
    {
      var s: Square :| s in Xor(b, {square}) && f(s) == y;
      if s == square {
        assert square !in b;
      } else {
        assert s in b;
      }
    }
  }

  /** Toggling one square for the colour that owns it (or on an empty square)
      keeps the fields in step. */
  lemma {:induction false} IxorKeepsValid(o: Occupied, c: Color, square: Square)
    requires Valid(o)
    requires square !in o.byColor.Get(c.Opp())
    ensures Valid(Ixor(o, {square}, c, square))
  {
    var o2 := Ixor(o, {square}, c, square);
    forall s: Square, t: Square
      ensures L90(s) == L90(t) ==> s == t
      ensures R45(s) == R45(t) ==> s == t
      ensures L45(s) == L45(t) ==> s == t
    {
      RotationsInjective(s, t);
    }
    ImageToggle(L90, o.bits, square);
    ImageToggle(R45, o.bits, square);
    ImageToggle(L45, o.bits, square);
    assert o2.bits == o2.byColor.black + o2.byColor.white;
  }

  /** The empty squares are the board squares neither colour holds. */
  lemma NonOccupiedMeaning(o: Occupied)
    requires Valid(o)
    ensures forall x :: x in NonOccupied(o) <==> OnBoard(x) && x !in o.byColor.Get(Black) && x !in o.byColor.Get(White)
  {
  }

  /** Equality of trackers (`__eq__`) compares only the colour sets; for valid
      trackers every other field follows from them. */
  predicate SameOccupancy(a: Occupied, b: Occupied) {
    a.byColor.Get(Black) == b.byColor.Get(Black) && a.byColor.Get(White) == b.byColor.Get(White)
  }

  lemma SameOccupancyIsEquality(a: Occupied, b: Occupied)
    requires Valid(a) && Valid(b)
    ensures SameOccupancy(a, b) <==> a == b
  {
  }
}

=== FILE: rays.dfy ===
/** Sliding attacks: the geometric ray, and the rank, file and lance tables
    the engine precomputes for every square and 7-bit blocker pattern. */
module Rays {
  import opened Types
  import opened Geometry

  /** Steps left before a walk from `s` along (df, dr) leaves the board. */
  function Room(s: Square, df: int, dr: int): nat {
    if dr == 1 then 8 - Rank(s)
    else if dr == -1 then Rank(s)
    else if df == 1 then 8 - File(s)
    else File(s)
  }

  /** The squares a slider on `s` reaches along direction (df, dr) when the
      squares of `occ` block: every square up to and including the first
      blocked one, or up to the edge. */
  function Ray(s: Square, df: int, dr: int, occ: Bitboard): Bitboard
    requires KingStep(df, dr)
    decreases Room(s, df, dr)
  {
    if 0 <= File(s) + df < 9 && 0 <= Rank(s) + dr < 9 then
      StepArith(s, df, dr);
      var t: Square := s + df + 9 * dr;
      {t} + (if t in occ then {} else Ray(t, df, dr, occ))
    else
      {}
  }

  /** A ray stays on the board. */
  lemma {:induction false} RayOnBoard(s: Square, df: int, dr: int, occ: Bitboard)
    requires KingStep(df, dr)
    ensures Ray(s, df, dr, occ) <= BB_ALL
    decreases Room(s, df, dr)
  {
    if 0 <= File(s) + df < 9 && 0 <= Rank(s) + dr < 9 {
      StepArith(s, df, dr);
      var t: Square := s + df + 9 * dr;
      if t !in occ {
        RayOnBoard(t, df, dr, occ);
      }
    }
  }

  /** Bit `i` of `n`: `(1 << i) & n != 0`. */
  function Bit(n: nat, i: nat): bool {
    if i == 0 then n % 2 == 1 else Bit(n / 2, i - 1)
  }

  /** The blocker test `(1 << i) & (bitrow << 1)`: bit `i - 1` of the pattern. */
  lemma BitOfDouble(n: nat, i: nat)
    ensures Bit(2 * n, i) == (i > 0 && Bit(n, i - 1))
  {
  }

  // ---- the rank loop (BB_RANK_ATTACKS)

  /** Walk east along a rank: square `q` on file `f`, then onwards unless `f` is blocked. */
  function RankScanEast(q: int, f: nat, bitrow: nat): Bitboard
    decreases 9 - f
  {
    if f < 9 then {q} + (if Bit(2 * bitrow, f) then {} else RankScanEast(q + 1, f + 1, bitrow)) else {}
  }

  /** Walk west along a rank: square `q` on file `f`, then onwards unless `f` is blocked. */
  function RankScanWest(q: int, f: int, bitrow: nat): Bitboard
    decreases f + 1
  {
    if f >= 0 then {q} + (if Bit(2 * bitrow, f) then {} else RankScanWest(q - 1, f - 1, bitrow)) else {}
  }

  /** BB_RANK_ATTACKS[square][bitrow]. */
  function RankAttacksTable(square: Square, bitrow: nat): Bitboard {
    RankScanEast(square + 1, File(square) + 1, bitrow) + RankScanWest(square - 1, File(square) - 1, bitrow)
  }

  // ---- the file loop (BB_FILE_ATTACKS and BB_LANCE_ATTACKS)

  /** Walk down a file (towards rank i): square `q` on rank `r`. */
  function FileScanSouth(q: int, r: nat, bitrow: nat): Bitboard
    decreases 9 - r
  {
    if r < 9 then {q} + (if Bit(2 * bitrow, 8 - r) then {} else FileScanSouth(q + 9, r + 1, bitrow)) else {}
  }

  /** Walk up a file (towards rank a): square `q` on rank `r`. */
  function FileScanNorth(q: int, r: int, bitrow: nat): Bitboard
    requires r <= 8
    decreases r + 1
  {
    if 0 <= r then {q} + (if Bit(2 * bitrow, 8 - r) then {} else FileScanNorth(q - 9, r - 1, bitrow)) else {}
  }

  /** BB_FILE_ATTACKS[square][bitrow]. */
  function FileAttacksTable(square: Square, bitrow: nat): Bitboard {
    FileScanSouth(square + 9, Rank(square) + 1, bitrow) + FileScanNorth(square - 9, Rank(square) - 1, bitrow)
  }

  /** BB_LANCE_ATTACKS[c][square][bitrow]: the half of the file loop that runs forward for `c`. */
  function LanceAttacksTable(c: Color, square: Square, bitrow: nat): Bitboard {
    if c == White then FileScanSouth(square + 9, Rank(square) + 1, bitrow)
    else FileScanNorth(square - 9, Rank(square) - 1, bitrow)
  }

  /** `bitrow` is the occupancy of the seven inner squares of rank `r`, bit f-1 for file index f. */
  predicate RankPatternMatches(occ: Bitboard, r: int, bitrow: nat) {
    forall i :: 0 <= i < 7 ==> (9 * r + i + 1 in occ <==> Bit(bitrow, i))
  }

  /** `bitrow` is the occupancy of the seven inner squares of file index `f`,
      bit 7-r for rank r (the 90-degree rotated order). */
  predicate FilePatternMatches(occ: Bitboard, f: int, bitrow: nat) {
    forall i :: 0 <= i < 7 ==> (9 * (7 - i) + f in occ <==> Bit(bitrow, i))
  }

  /** An inner square of a rank is blocked exactly when its bit of the
      shifted pattern is set. */
  lemma RankBit(t: Square, r: int, bitrow: nat, occ: Bitboard)
    requires RankPatternMatches(occ, r, bitrow) && Rank(t) == r && 1 <= File(t) <= 7
    ensures (t in occ) == Bit(2 * bitrow, File(t))
  {
    BitOfDouble(bitrow, File(t));
    var i := File(t) - 1;
    assert t == 9 * r + i + 1;
  }

  /** The same along a file, whose pattern runs from rank h (bit 0) upwards. */
  lemma FileBit(t: Square, f: int, bitrow: nat, occ: Bitboard)
    requires FilePatternMatches(occ, f, bitrow) && File(t) == f && 1 <= Rank(t) <= 7
    ensures (t in occ) == Bit(2 * bitrow, 8 - Rank(t))
  {
    BitOfDouble(bitrow, 8 - Rank(t));
    var i := 7 - Rank(t);
    assert t == 9 * (7 - i) + f;
  }

  lemma {:induction false} RankEastIsRay(s: Square, bitrow: nat, occ: Bitboard)
    requires RankPatternMatches(occ, Rank(s), bitrow)
    ensures RankScanEast(s + 1, File(s) + 1, bitrow) == Ray(s, 1, 0, occ)
    decreases 8 - File(s)
  {
    if File(s) + 1 < 9 {
      var t := RayStep(s, 1, 0, occ);
      RankEastIsRay(t, bitrow, occ);
      assert RankScanEast(s + 1, File(s) + 1, bitrow) == {t} + (if Bit(2 * bitrow, File(t)) then {} else RankScanEast(t + 1, File(t) + 1, bitrow));
      if 1 <= File(t) <= 7 {
        RankBit(t, Rank(s), bitrow, occ);
      } else {
        assert RankScanEast(t + 1, File(t) + 1, bitrow) == {} == Ray(t, 1, 0, occ);
      }
    }
  }

  lemma {:induction false} RankWestIsRay(s: Square, bitrow: nat, occ: Bitboard)
    requires RankPatternMatches(occ, Rank(s), bitrow)
    ensures RankScanWest(s - 1, File(s) - 1, bitrow) == Ray(s, -1, 0, occ)
    decreases File(s)
  {
    if File(s) - 1 >= 0 {
      var t := RayStep(s, -1, 0, occ);
      RankWestIsRay(t, bitrow, occ);
      assert RankScanWest(s - 1, File(s) - 1, bitrow) == {t} + (if Bit(2 * bitrow, File(t)) then {} else RankScanWest(t - 1, File(t) - 1, bitrow));
      if 1 <= File(t) <= 7 {
        RankBit(t, Rank(s), bitrow, occ);
      } else {
        assert RankScanWest(t - 1, File(t) - 1, bitrow) == {} == Ray(t, -1, 0, occ);
      }
    }
  }

  lemma {:induction false} FileSouthIsRay(s: Square, bitrow: nat, occ: Bitboard)
    requires FilePatternMatches(occ, File(s), bitrow)
    ensures FileScanSouth(s + 9, Rank(s) + 1, bitrow) == Ray(s, 0, 1, occ)
    decreases 8 - Rank(s)
  {
    if Rank(s) + 1 < 9 {
      var t := RayStep(s, 0, 1, occ);
      FileSouthIsRay(t, bitrow, occ);
      assert FileScanSouth(s + 9, Rank(s) + 1, bitrow) == {t} + (if Bit(2 * bitrow, 8 - Rank(t)) then {} else FileScanSouth(t + 9, Rank(t) + 1, bitrow));
      if 1 <= Rank(t) <= 7 {
        FileBit(t, File(s), bitrow, occ);
      } else {
        assert FileScanSouth(t + 9, Rank(t) + 1, bitrow) == {} == Ray(t, 0, 1, occ);
      }
    }
  }

  lemma {:induction false} FileNorthIsRay(s: Square, bitrow: nat, occ: Bitboard)
    requires FilePatternMatches(occ, File(s), bitrow)
    ensures FileScanNorth(s - 9, Rank(s) - 1, bitrow) == Ray(s, 0, -1, occ)
    decreases Rank(s)
  {
    if Rank(s) - 1 >= 0 {
      var t := RayStep(s, 0, -1, occ);
      FileNorthIsRay(t, bitrow, occ);
      assert FileScanNorth(s - 9, Rank(s) - 1, bitrow) == {t} + (if Bit(2 * bitrow, 8 - Rank(t)) then {} else FileScanNorth(t - 9, Rank(t) - 1, bitrow));
      if 1 <= Rank(t) <= 7 {
        FileBit(t, File(s), bitrow, occ);
      } else {
        assert FileScanNorth(t - 9, Rank(t) - 1, bitrow) == {} == Ray(t, 0, -1, occ);
      }
    }
  }

  /** For every square and every blocker pattern that describes the occupancy
      of its rank, the rank table holds exactly the two rays along the rank. */
  lemma RankTableIsRays(s: Square, bitrow: nat, occ: Bitboard)
    requires RankPatternMatches(occ, Rank(s), bitrow)
    ensures RankAttacksTable(s, bitrow) == Ray(s, 1, 0, occ) + Ray(s, -1, 0, occ)
  {
    RankEastIsRay(s, bitrow, occ);
    RankWestIsRay(s, bitrow, occ);
  }

  /** The same for the file table, and each colour's lance table is the forward ray. */
  lemma FileTableIsRays(s: Square, bitrow: nat, occ: Bitboard)
    requires FilePatternMatches(occ, File(s), bitrow)
    ensures FileAttacksTable(s, bitrow) == Ray(s, 0, 1, occ) + Ray(s, 0, -1, occ)
    ensures LanceAttacksTable(White, s, bitrow) == Ray(s, 0, Forward(White), occ)
    ensures LanceAttacksTable(Black, s, bitrow) == Ray(s, 0, Forward(Black), occ)
    ensures FileAttacksTable(s, bitrow) == LanceAttacksTable(White, s, bitrow) + LanceAttacksTable(Black, s, bitrow)
  {
    FileSouthIsRay(s, bitrow, occ);
    FileNorthIsRay(s, bitrow, occ);
  }

  // ---- rays seen from both ends

  /** A ray that reaches an empty square `x` goes on to the next square
      along its direction, if that square is on the board. */
  lemma {:induction false} RayExtends(t: Square, df: int, dr: int, x: Square, y: Square, occ: Bitboard)
    requires KingStep(df, dr) && x in Ray(t, df, dr, occ) && x !in occ
    requires 0 <= File(x) + df < 9 && 0 <= Rank(x) + dr < 9 && y == x + df + 9 * dr
    ensures y in Ray(t, df, dr, occ)
    decreases Room(t, df, dr)
  {
    var n := RayStep(t, df, dr, occ);
    if x == n {
      StepArith(x, df, dr);
      RayFirstStep(n, df, dr, occ);
    } else {
      RayExtends(n, df, dr, x, y, occ);
    }
  }

  /** A ray that holds anything starts at the neighbouring square `n`, and
      goes on from there unless `n` is blocked. */
  lemma RayStep(s: Square, df: int, dr: int, occ: Bitboard) returns (n: Square)
    requires KingStep(df, dr)
    requires Ray(s, df, dr, occ) != {} || (0 <= File(s) + df < 9 && 0 <= Rank(s) + dr < 9)
    ensures 0 <= File(s) + df < 9 && 0 <= Rank(s) + dr < 9 && n == s + df + 9 * dr
    ensures File(n) == File(s) + df && Rank(n) == Rank(s) + dr
    ensures Room(n, df, dr) < Room(s, df, dr)
    ensures Ray(s, df, dr, occ) == {n} + (if n in occ then {} else Ray(n, df, dr, occ))
  {
    StepArith(s, df, dr);
    n := s + df + 9 * dr;
  }

  /** Stepping back from the neighbour of `s` returns to `s`. */
  lemma StepBack(s: Square, df: int, dr: int, n: Square)
    requires KingStep(df, dr) && 0 <= File(s) + df < 9 && 0 <= Rank(s) + dr < 9 && n == s + df + 9 * dr
    requires File(n) == File(s) + df && Rank(n) == Rank(s) + dr
    ensures 0 <= File(n) + -df < 9 && 0 <= Rank(n) + -dr < 9 && n + -df + 9 * -dr == s
  {
  }

  /** A slider on `s` reaches `t` along (df, dr) exactly when one on `t`
      reaches `s` along the opposite direction: the squares in between are
      the same. */
  lemma RaySymmetric(s: Square, t: Square, df: int, dr: int, occ: Bitboard)
    requires KingStep(df, dr)
    ensures t in Ray(s, df, dr, occ) <==> s in Ray(t, -df, -dr, occ)
  {
    if t in Ray(s, df, dr, occ) {
      RayReversed(s, t, df, dr, occ);
    }
    if s in Ray(t, -df, -dr, occ) {
      RayReversed(t, s, -df, -dr, occ);
    }
  }

  /** A ray starts with the neighbouring square when that is on the board. */
  lemma RayFirstStep(s: Square, df: int, dr: int, occ: Bitboard)
    requires KingStep(df, dr) && 0 <= File(s) + df < 9 && 0 <= Rank(s) + dr < 9
    ensures s + df + 9 * dr in Ray(s, df, dr, occ)
  {
  }

  lemma {:induction false} RayReversed(s: Square, t: Square, df: int, dr: int, occ: Bitboard)
    requires KingStep(df, dr) && t in Ray(s, df, dr, occ)
    ensures s in Ray(t, -df, -dr, occ)
    decreases Room(s, df, dr)
  {
    var n := RayStep(s, df, dr, occ);
    StepBack(s, df, dr, n);
    if t == n {
      RayFirstStep(n, -df, -dr, occ);
    } else {
      assert n !in occ && t in Ray(n, df, dr, occ);
      RayReversed(n, t, df, dr, occ);
      assert KingStep(-df, -dr);
      RayExtends(t, -df, -dr, n, s, occ);
    }
  }
}

=== FILE: results.dfy ===
/** Option and Result types used for the engine's absent values and raised errors. */
module Results {

  /** An optional value: the engine's `None` or a present value. */
  datatype Option<+T> = None | Some(value: T)

  /** The outcome of an operation that may raise: `Ok` carries the value,
      `Err` names the exception the engine would raise. */
  datatype Result<+T> = Ok(value: T) | Err(error: string) {

    predicate IsFailure() {
      Err?
    }

    function PropagateFailure<U>(): Result<U>
      requires Err?
    {
      Err(error)
    }

    function Extract(): T
      requires Ok?
    {
      value
    }
  }
}

=== FILE: types.dfy ===
/** Colours, piece kinds, pieces and moves of the shogi engine. */
module Types {
  import opened Results

  /** BLACK moves first and plays up the board (towards rank 0). */
  datatype Color = Black | White {
    /** The other side (`color ^ 1`). */
    function Opp(): Color {
      if Black? then White else Black
    }
  }

  /** A value for each side, indexed by colour like the engine's two-element lists. */
  datatype ByColor<T> = ByColor(black: T, white: T) {
    function Get(c: Color): T {
      if c == Black then black else white
    }

    function Set(c: Color, v: T): (r: ByColor<T>)
      ensures r.Get(c) == v && r.Get(c.Opp()) == Get(c.Opp())
    {
      if c == Black then this.(black := v) else this.(white := v)
    }
  }

  /** A square, numbered row-major from 0 (9a) to 80 (1i). */
  type Square = s: int | 0 <= s < 81

  /** Piece kinds, numbered as the engine numbers them; 0 is the empty kind. */
  type PieceType = k: int | 0 <= k <= 16

  const NONE: PieceType := 0
  const PAWN: PieceType := 1
  const LANCE: PieceType := 2
  const KNIGHT: PieceType := 3
  const SILVER: PieceType := 4
  const GOLD: PieceType := 5
  const BISHOP: PieceType := 6
  const ROOK: PieceType := 7
  const KING: PieceType := 8
  const PROM_PAWN: PieceType := 9
  const PROM_LANCE: PieceType := 10
  const PROM_KNIGHT: PieceType := 11
  const PROM_SILVER: PieceType := 12
  const PROM_BISHOP: PieceType := 13
  const PROM_ROOK: PieceType := 14
  const SUI: PieceType := 15
  const PROM_SUI: PieceType := 16

  /** The kinds whose pieces are royal: their number per side is `kings_living`. */
  predicate IsRoyal(pt: PieceType) {
    pt == KING || pt == PROM_SUI
  }

  /** The PIECE_PROMOTED table: the kind a piece becomes on promotion, if any. */
  function Promoted(pt: PieceType): Option<PieceType> {
    if pt == PAWN then Some(PROM_PAWN)
    else if pt == LANCE then Some(PROM_LANCE)
    else if pt == KNIGHT then Some(PROM_KNIGHT)
    else if pt == SILVER then Some(PROM_SILVER)
    else if pt == BISHOP then Some(PROM_BISHOP)
    else if pt == ROOK then Some(PROM_ROOK)
    else if pt == SUI then Some(PROM_SUI)
    else None
  }

  /** `PIECE_PROMOTED.index(pt)`: the kind that promotes to `pt`; `None` where
      the engine's list lookup raises. */
  function Unpromoted(pt: PieceType): Option<PieceType> {
    if pt == PROM_PAWN then Some(PAWN)
    else if pt == PROM_LANCE then Some(LANCE)
    else if pt == PROM_KNIGHT then Some(KNIGHT)
    else if pt == PROM_SILVER then Some(SILVER)
    else if pt == PROM_BISHOP then Some(BISHOP)
    else if pt == PROM_ROOK then Some(ROOK)
    else if pt == PROM_SUI then Some(SUI)
    else None
  }

  /** The index lookup inverts the promotion table exactly. */
  lemma UnpromotedInvertsPromoted(pt: PieceType, k: PieceType)
    ensures Unpromoted(pt) == Some(k) <==> Promoted(k) == Some(pt)
  {
  }

  /** A piece: a kind and the side it belongs to. */
  datatype Piece = Piece(pieceType: PieceType, color: Color)

  /** A move: the null move, or an origin square (absent for a drop), a
      destination, a promotion flag and the dropped kind (NONE for a board move). */
  datatype Move =
    | NullMove
    | Move(fromSquare: Option<Square>, toSquare: Square, promotion: bool, dropPieceType: PieceType)
  {
    /** A move names either an origin square or a dropped kind, as every
        generated move does. */
    predicate WellFormed() {
      Move? ==> (fromSquare.Some? <==> dropPieceType == NONE)
    }
  }
}

=== FILE: zobrist.dfy ===
/** Zobrist hashing. The engine's hash is the exclusive or of 64-bit keys
    from a table of random values: one key per (kind, colour, square), one
    for WHITE to move and one per set bit of the mixed-radix index of
    BLACK's hand. A hash is modelled by the set of table indices whose keys
    are combined; combining a key twice cancels it, so the set is updated by
    exclusive or as well. Two positions whose index sets are equal have
    equal hashes whatever the random values are. */
module Zobrist {
  import opened Types
  import opened Geometry
  import opened Rays
  import opened Hands

  /** The table indices whose keys are combined. */
  type Hash = set<int>

  /** The length of the engine's random table. */
  const KEY_COUNT: int := 2610

  /** The key of a piece of kind `pt` and colour `c` on `s`: 81 keys per
      (kind, colour) pair, the pairs ordered kind-major, BLACK before WHITE. */
  function PieceKeyIndex(pt: PieceType, c: Color, s: Square): (r: int)
    requires pt != NONE
    ensures 0 <= r < 81 * 32
    ensures r % 81 == s && r / 81 == (pt - 1) * 2 + (if c == Black then 0 else 1)
  {
    FileRank(Rank(s), File(s));
    81 * ((pt - 1) * 2 + (if c == Black then 0 else 1)) + 9 * Rank(s) + File(s)
  }

  /** Distinct pieces, or one piece on distinct squares, have distinct keys. */
  lemma PieceKeyIndexInjective(pt: PieceType, c: Color, s: Square, pt2: PieceType, c2: Color, s2: Square)
    requires pt != NONE && pt2 != NONE
    requires PieceKeyIndex(pt, c, s) == PieceKeyIndex(pt2, c2, s2)
    ensures pt == pt2 && c == c2 && s == s2
  {
  }

  /** Where the turn key and the hand keys sit in the table: as the engine
      writes the indices, or directly after the piece keys. */
  datatype KeyLayout = AsWritten | Corrected

  /** The turn key's index (`2268 + 81 * 2` as written). */
  function TurnKeyIndex(layout: KeyLayout): int {
    if layout == AsWritten then 2268 + 81 * 2 else 81 * 32
  }

  /** The index of the key for bit 0 of the hand index (`2269 + 81 * 2` as written). */
  function HandKeyBase(layout: KeyLayout): int {
    if layout == AsWritten then 2269 + 81 * 2 else 81 * 32 + 1
  }

  /** Bits of the hand index that are hashed: the index of a hand no larger
      than a full set stays below 2^17. */
  const HAND_BITS: nat := 17

  /** As written, the turn key is the key of a BLACK promoted SUI on 9a, and
      the key of hand bit `bit` is that of a BLACK promoted SUI `bit + 1`
      squares further on. */
  lemma AsWrittenKeysCollide(bit: int)
    requires 0 <= bit < HAND_BITS
    ensures TurnKeyIndex(AsWritten) == PieceKeyIndex(PROM_SUI, Black, 0)
    ensures HandKeyBase(AsWritten) + bit == PieceKeyIndex(PROM_SUI, Black, bit + 1)
  {
  }

  /** With the corrected layout the turn key and the hand keys come after
      every piece key and fill the table exactly. */
  lemma CorrectedKeysDistinct(pt: PieceType, c: Color, s: Square)
    requires pt != NONE
    ensures PieceKeyIndex(pt, c, s) < TurnKeyIndex(Corrected) < HandKeyBase(Corrected)
    ensures HandKeyBase(Corrected) + HAND_BITS == KEY_COUNT
  {
  }

  // ---- BLACK's hand

  /** The hand index: the counts as digits of a mixed-radix number, pawns
      (base 19) lowest, then lance, knight, silver, gold (base 5), bishop
      (base 3) and rook. */
  function HandIndex(h: Hand): int {
    Count(h, PAWN) + 19 * (Count(h, LANCE) + 5 * (Count(h, KNIGHT) + 5 * (Count(h, SILVER)
      + 5 * (Count(h, GOLD) + 5 * (Count(h, BISHOP) + 3 * Count(h, ROOK))))))
  }

  /** A hand no larger than a full set: 18 pawns, 4 each of lances, knights,
      silvers and golds, 2 each of bishops and rooks. */
  predicate WithinSet(h: Hand) {
    ValidHand(h)
    && Count(h, PAWN) <= 18 && Count(h, LANCE) <= 4 && Count(h, KNIGHT) <= 4
    && Count(h, SILVER) <= 4 && Count(h, GOLD) <= 4 && Count(h, BISHOP) <= 2 && Count(h, ROOK) <= 2
  }

  /** The lowest digit of `d + base * x` is `d`, and the rest is `x`. */
  lemma Digit(d: int, x: int, base: int)
    requires 0 <= d < base
    ensures (d + base * x) % base == d && (d + base * x) / base == x
  {
    var n := d + base * x;
    var q, r := n / base, n % base;
    assert base * (x - q) == r - d;
    if x - q >= 1 {
    } else if x - q <= -1 {
    }
  }

  /** For hands within a full set the index is below 2^17 and each count can
      be read back from it. */
  lemma HandIndexDecodes(h: Hand)
    requires WithinSet(h)
    ensures 0 <= HandIndex(h) < 131072
    ensures HandIndex(h) % 19 == Count(h, PAWN)
    ensures HandIndex(h) / 19 % 5 == Count(h, LANCE)
    ensures HandIndex(h) / 95 % 5 == Count(h, KNIGHT)
    ensures HandIndex(h) / 475 % 5 == Count(h, SILVER)
    ensures HandIndex(h) / 2375 % 5 == Count(h, GOLD)
    ensures HandIndex(h) / 11875 % 3 == Count(h, BISHOP)
    ensures HandIndex(h) / 35625 == Count(h, ROOK)
  {
    var b := Count(h, BISHOP) + 3 * Count(h, ROOK);
    var g := Count(h, GOLD) + 5 * b;
    var s := Count(h, SILVER) + 5 * g;
    var n := Count(h, KNIGHT) + 5 * s;
    var l := Count(h, LANCE) + 5 * n;
    var i := Count(h, PAWN) + 19 * l;
    assert i == HandIndex(h);
    var p1 := Count(h, PAWN);
    var p2 := p1 + 19 * Count(h, LANCE);
    var p3 := p2 + 95 * Count(h, KNIGHT);
    var p4 := p3 + 475 * Count(h, SILVER);
    var p5 := p4 + 2375 * Count(h, GOLD);
    var p6 := p5 + 11875 * Count(h, BISHOP);
    assert i == p1 + 19 * l == p2 + 95 * n == p3 + 475 * s == p4 + 2375 * g == p5 + 11875 * b == p6 + 35625 * Count(h, ROOK);
    Digit(p1, l, 19);
    Digit(p2, n, 95);
    Digit(p3, s, 475);
    Digit(p4, g, 2375);
    Digit(p5, b, 11875);
    Digit(p6, Count(h, ROOK), 35625);
    Digit(Count(h, LANCE), n, 5);
    Digit(Count(h, KNIGHT), s, 5);
    Digit(Count(h, SILVER), g, 5);
    Digit(Count(h, GOLD), b, 5);
    Digit(Count(h, BISHOP), Count(h, ROOK), 3);
  }

  /** Different hands within a full set have different indices. */
  lemma HandIndexInjective(h1: Hand, h2: Hand)
    requires WithinSet(h1) && WithinSet(h2)
    requires HandIndex(h1) == HandIndex(h2)
    ensures h1 == h2
  {
    HandIndexDecodes(h1);
    HandIndexDecodes(h2);
    forall k | k in h1
      ensures k in h2 && h1[k] == h2[k]
    {
      assert Count(h1, k) == Count(h2, k);
    }
    forall k | k in h2
      ensures k in h1
    {
      assert Count(h1, k) == Count(h2, k);
    }
  }

  function Pow2(n: nat): nat {
    if n == 0 then 1 else 2 * Pow2(n - 1)
  }

  lemma Pow2Of17()
    ensures Pow2(17) == 131072
  {
    assert Pow2(0) == 1;
    assert Pow2(2) == 4;
    assert Pow2(4) == 16;
    assert Pow2(6) == 64;
    assert Pow2(8) == 256;
    assert Pow2(10) == 1024;
    assert Pow2(12) == 4096;
    assert Pow2(14) == 16384;
    assert Pow2(16) == 65536;
  }

  /** A number below 2^n is determined by its low `n` bits. */
  lemma {:induction false} LowBitsDetermine(i: nat, j: nat, n: nat)
    requires i < Pow2(n) && j < Pow2(n)
    requires forall b :: 0 <= b < n ==> Bit(i, b) == Bit(j, b)
    ensures i == j
  {
    if n > 0 {
      assert Bit(i, 0) == Bit(j, 0);
      forall b | 0 <= b < n - 1
        ensures Bit(i / 2, b) == Bit(j / 2, b)
      {
        assert Bit(i, b + 1) == Bit(j, b + 1);
      }
      LowBitsDetermine(i / 2, j / 2, n - 1);
    }
  }

  /** The keys of the set bits among the low HAND_BITS bits of `i`. */
  function HandBitKeys(layout: KeyLayout, i: nat): (r: Hash)
    ensures forall x :: x in r ==> HandKeyBase(layout) <= x < HandKeyBase(layout) + HAND_BITS
    ensures forall b :: 0 <= b < HAND_BITS ==> (HandKeyBase(layout) + b in r <==> Bit(i, b))
  {
    set b | 0 <= b < HAND_BITS && Bit(i, b) :: HandKeyBase(layout) + b
  }

  /** The hand part of the hash, for BLACK's hand (a counter with negative
      counts, which no valid hand has, contributes nothing). */
  function HandHash(layout: KeyLayout, h: Hand): Hash {
    var i := HandIndex(h);
    HandBitKeys(layout, if i < 0 then 0 else i)
  }

  /** The keys of the turn: the turn key when WHITE is to move. */
  function TurnHash(layout: KeyLayout, turn: Color): Hash {
    if turn == White then {TurnKeyIndex(layout)} else {}
  }

  /** `zobrist_hash`: the board hash, the turn key when WHITE is to move and
      the keys of BLACK's hand. */
  function PositionHash(layout: KeyLayout, boardHash: Hash, turn: Color, blackHand: Hand): Hash {
    Xor(Xor(boardHash, TurnHash(layout, turn)), HandHash(layout, blackHand))
  }

  /** With the corrected layout, a hash made of piece keys determines the
      board hash, the side to move and BLACK's hand: positions that differ in
      any of them never share a hash as a set of keys. */
  lemma {:induction false} CorrectedHashDetermines(b1: Hash, t1: Color, h1: Hand, b2: Hash, t2: Color, h2: Hand)
    requires forall x :: x in b1 ==> 0 <= x < 81 * 32
    requires forall x :: x in b2 ==> 0 <= x < 81 * 32
    requires WithinSet(h1) && WithinSet(h2)
    requires PositionHash(Corrected, b1, t1, h1) == PositionHash(Corrected, b2, t2, h2)
    ensures b1 == b2 && t1 == t2 && h1 == h2
  {
    var p := PositionHash(Corrected, b1, t1, h1);
    BoardPart(b1, t1, h1);
    BoardPart(b2, t2, h2);
    TurnPart(b1, t1, h1);
    TurnPart(b2, t2, h2);
    HandPart(b1, t1, h1);
    HandPart(b2, t2, h2);
    HandIndexDecodes(h1);
    HandIndexDecodes(h2);
    Pow2Of17();
    LowBitsDetermine(HandIndex(h1), HandIndex(h2), HAND_BITS);
    HandIndexInjective(h1, h2);
  }

  /** The piece keys of a corrected hash are those of the board hash. */
  lemma BoardPart(b: Hash, t: Color, h: Hand)
    requires forall x :: x in b ==> 0 <= x < 81 * 32
    requires WithinSet(h)
    ensures b == set x | x in PositionHash(Corrected, b, t, h) && x < 81 * 32
  {
  }

  /** A corrected hash holds the turn key exactly when WHITE is to move. */
  lemma TurnPart(b: Hash, t: Color, h: Hand)
    requires forall x :: x in b ==> 0 <= x < 81 * 32
    requires WithinSet(h)
    ensures (t == White) == (81 * 32 in PositionHash(Corrected, b, t, h))
  {
  }

  /** A corrected hash holds the key of hand bit `k` exactly when that bit of
      the hand index is set. */
  lemma HandPart(b: Hash, t: Color, h: Hand)
    requires forall x :: x in b ==> 0 <= x < 81 * 32
    requires WithinSet(h)
    ensures forall k :: 0 <= k < HAND_BITS ==>
      (Bit(HandIndex(h), k) <==> HandKeyBase(Corrected) + k in PositionHash(Corrected, b, t, h))
  {
    HandIndexDecodes(h);
  }

  /** As written, the hash of a position with WHITE to move equals the hash
      of the same position with BLACK to move and a BLACK promoted SUI added
      on 9a: the turn key and that piece's key are one key. */
  lemma AsWrittenTurnCollides(boardHash: Hash, blackHand: Hand)
    requires PieceKeyIndex(PROM_SUI, Black, 0) !in boardHash
    ensures PositionHash(AsWritten, boardHash, White, blackHand)
         == PositionHash(AsWritten, Xor(boardHash, {PieceKeyIndex(PROM_SUI, Black, 0)}), Black, blackHand)
  {
  }
}
